=== FILE: README.md ===
# hrzn — a Dafny model of the grid containers

hrzn is a small header-only C++ library for 2D grids ("maps") used in
procedural generation: integer points, rectangular areas, dense maps that
store one value per cell of an area, bit-packed boolean masks, and
algorithms over them (copying, filling, flipping, rotating, flood fill,
cellular automata). The repository carries three generations of the same
core side by side, and this project models all three:

| generation | headers | area convention | Dafny modules |
|---|---|---|---|
| `hrzn` | `include/hrzn/hrzn.h`, `include/hrzn/utility.h` | `Area`: inclusive corners, ordered by the 4-coordinate constructor; `Area(w, h)` with a zero side is one past ordered and holds no cell | `HrznArea`, `HrznMatrix`, `HrznUtility` |
| `htl` (first) | `include/htl/hrzn.h` | `hArea`: inclusive corners, may be inverted (empty) | `HtlArea`, `HtlMap` |
| `htl` (current) | `include/htl/basic_types.h`, `include/htl/containers.h`, `include/htl/utility.h` | `point_area`: half-open `[x1, x2) x [y1, y2)`. `containers.h` spells its rectangle `hArea`, the inclusive type of `include/htl/hrzn.h`, but its loops stop before `x2` and `y2` (containers.h:108-109) and its maps are built over `point_area`, so it is read as `point_area` here | `HtlTuples`, `PointArea`, `HtlContainers`, `HtlFlip`, `HtlUtility`, `HtlFloodFill` |

Shared modules: `Common` (points, `Result`, C++ integer division, the
neighbourhood tables), `RowMajor` (the row-major layout every map uses
for its storage: offset of a point, point at an offset, cursors) and
`Bits` (the 64-bit block storage of `HMask`).

Modelling conventions:

- Every in-place operation is a pure function (or a method with loops)
  that returns the new value; "nothing else changes" is stated cell by cell.
- A thrown `std::out_of_range` is `Err(OutOfRange)` of `Common.Result`.
  A read the source leaves undefined is `Err(Indeterminate)`.
- A map is its area plus a flat `seq` of cells; `Valid()` says the
  sequence has one entry per cell of the area. Reading a cell (`At`) goes
  through the same index computation as the source's `f_index`.
- Storage the source allocates without initialising is a `scratch`
  parameter where the result can hold it (`TransposeListToMap`,
  `MaskFromMap`, `MaskFromMatrix`), so nothing is assumed about its
  contents. Six members
  build a map with `new T[area()]` and write only the points the rectangle
  contains: `HtlContainers.Copy`, `HtlContainers.Combine`,
  `HtlContainers.Not`, `HtlUtility.CopyEach`, `HtlUtility.Select` and
  `HtlUtility.SwizzleMap`. On an inverted rectangle, which contains no
  point, that storage is never written. These members fill it with fixed
  values instead: the input's cells, their cast, or `false`. No contract
  relies on those values. Each equality of whole maps built by these
  members requires an ordered rectangle, where every cell is written.
- Integers are unbounded. The conversions that matter are written out:
  truncating `/` and `%` (`Common.TDiv`, `Common.TMod`) and the conversion of
  a negative `int` to `size_t` before `%` (`Common.UnsignedWrap`).

Where the documentation comments and the code disagree, the model follows
the code:

- hrzn's `wrapPoint` clamps and its `clampPoint` wraps (the names are swapped).
- Every `^` operator computes `&&`.
- The free `contains` functions compare `y` against `x2`.
- `point_area::first()` and `IMap::begin()` are `(x1, x1)`.
- `reverse()` swaps only two quadrants.
- `resizeFromCenter` uses `x1 + w` as the far corner.
- `make_boundary` over points starts from `rectangle(x, y)`.

The `^`, `contains`, `resizeFromCenter`, `make_boundary` and `begin()` items are recorded under "## Findings".

## Model

| member | source | states |
|---|---|---|
| Common.UnsignedWrap | include/hrzn/utility.h:61-65 | a coordinate reduced modulo an unsigned size lands in `[0, w)`; a non-negative one keeps its remainder, a negative one is first converted to a 64-bit unsigned value |
| Common.WrapCoordinate | include/htl/basic_types.h:611-615 | a wrapped coordinate lies in the period starting at the area's near edge and differs from the input by a multiple of the period |
| Common.NeighborhoodsComplete | include/htl/basic_types.h:349-370 | `h_neighborhood8` holds exactly the offsets with both coordinates in `[-1, 1]`, the cell itself included; `h_neighborhood4` holds exactly those at Manhattan distance at most 1; neither table repeats an entry |
| HtlTuples.Component | include/htl/basic_types.h:136-148 | `operator[]` succeeds exactly for the indices 0 and 1 and throws otherwise |
| HtlTuples.ComponentsDetermine | include/htl/basic_types.h:136-148 | two tuples are equal exactly when both indexed components agree |
| HtlTuples.Swizzle | include/htl/basic_types.h:172 | component 0 of the swizzled tuple is component 1 of the input and vice versa |
| HtlTuples.SwizzleInvolution | include/htl/basic_types.h:172 | swizzling twice gives the tuple back |
| HtlTuples.Negate | include/htl/basic_types.h:233 | a tuple plus its negation is the origin |
| HtlTuples.NegateInvolution | include/htl/basic_types.h:233 | negating twice gives the tuple back, and negation is subtraction from the origin |
| HtlTuples.CornersComplete | include/htl/basic_types.h:339-344 | `h_corner` holds each offset with coordinates in `{0, 1}` exactly once |
| HrznArea.Sized | include/hrzn/hrzn.h:353-358 | `Area(w, h)` covers exactly the cells `[0, w) x [0, h)` and has width `w` and height `h` |
| HrznArea.Make | include/hrzn/hrzn.h:360-366 | the four-coordinate constructor orders its corners: the area covers exactly the cells between the given coordinates on each axis |
| HrznArea.MakeOrderedIdentity | include/hrzn/hrzn.h:360-366 | building from the corners of an ordered area gives that area back |
| HrznArea.BoxMatches | include/hrzn/hrzn.h:434-448 | `width()`, `height()` and `area()` agree with the row-major layout of the storage, and `contains` with membership in it |
| HrznArea.OrderedNonEmpty | include/hrzn/hrzn.h:360-366 | an ordered area contains both of its corners and at least one cell |
| HrznArea.CenterContained | include/hrzn/hrzn.h:458-460 | the centre of an ordered area lies inside it, half the span from the near corner |
| HrznArea.IntersectSymmetric | include/hrzn/hrzn.h:507-509 | intersecting is symmetric |
| HrznArea.IntersectMeeting | include/hrzn/hrzn.h:507-509 | when two areas share cells, the intersection holds exactly the shared cells |
| HrznArea.IntersectGap | include/hrzn/hrzn.h:507-509 | when two ordered areas are disjoint, the re-ordered "intersection" contains a cell outside one of them |
| HrznArea.IntersectSelf | include/hrzn/hrzn.h:507-509 | an ordered area intersected with itself is unchanged |
| HrznArea.End | include/hrzn/hrzn.h:565-567 | the end iterator sits `area()` steps from the beginning |
| HrznArea.WalkIsRowMajor | include/hrzn/hrzn.h:522-567 | the iterator reaches `end()` after exactly `area()` increments, and its k-th position is the k-th cell in row-major order |
| HrznArea.WalkCoversArea | include/hrzn/hrzn.h:522-567 | every cell of an ordered area is visited by the iterator, at its storage offset |
| HrznMatrix.Index | include/hrzn/hrzn.h:628-632 | `f_index` succeeds exactly for contained points and returns the storage offset of that point |
| HrznMatrix.At | include/hrzn/hrzn.h:779-781 | `at` succeeds exactly for contained points |
| HrznMatrix.Set | include/hrzn/hrzn.h:783-785 | `set` succeeds exactly for contained points; the cell then reads the new value and every other cell is unchanged |
| HrznMatrix.Filled | include/hrzn/hrzn.h:741-745 | a matrix built with a fill value reads that value in every cell |
| HrznMatrix.Fill | include/hrzn/hrzn.h:609-613 | `fill(obj)` keeps the area and sets every cell to `obj` |
| HrznMatrix.FillFrom | include/hrzn/hrzn.h:615-619 | `fill(func)` sets each cell to the generator applied to that cell's storage offset |
| HrznMatrix.Resize | include/hrzn/hrzn.h:791-803 | after resizing, cells in both areas keep their values, new cells read the fill value, and the area is the re-ordered request |
| HrznMatrix.ResizeToSelf | include/hrzn/hrzn.h:791-803 | resizing to the current corners changes nothing |
| HrznMatrix.RegionEnd | include/hrzn/hrzn.h:716-717 | a region's end iterator is `area()` steps from its beginning |
| HrznMatrix.Deref | include/hrzn/hrzn.h:653-707 | an iterator refers to no cell exactly at the end of its region; elsewhere it reads the source, which throws for a point outside it |
| HrznMatrix.WholeRegionReadsStorage | include/hrzn/hrzn.h:1052-1055 | the k-th step of `region()` reads the k-th stored cell |
| HrznMatrix.SubRegionReadsCommonPoints | include/hrzn/hrzn.h:1057-1060 | when the request meets the matrix, every step of `region(area)` is a point of both and can be read |
| HrznMatrix.SubRegionMissThrows | include/hrzn/hrzn.h:1057-1060 | when the request misses the matrix, walking `region(area)` reaches a step that throws |
| HrznMatrix.SubAt | include/hrzn/hrzn.h:827-829 | `SubMatrix::at` succeeds exactly for points of the source, whatever the view |
| HrznMatrix.SubSet | include/hrzn/hrzn.h:831 | `SubMatrix::set` writes one cell of the source and leaves every other cell unchanged |
| HrznMatrix.SubAtIgnoresView | include/hrzn/hrzn.h:827-831 | reading through any two views gives the same value as reading the source |
| HrznMatrix.SubFill | include/hrzn/hrzn.h:609-613 | filling through a view succeeds exactly when the view lies inside the source; it sets the view's cells and keeps the rest |
| HrznMatrix.SubResize | include/hrzn/hrzn.h:836-839 | resizing a view gives an ordered area |
| HrznMatrix.SubResizeShrinks | include/hrzn/hrzn.h:836-839 | when the request meets the view, the new view holds exactly the cells in both |
| HrznMatrix.SubResizeMissGrows | include/hrzn/hrzn.h:836-839 | when the request misses the view, the new view can cover cells the old one did not |
| HrznMatrix.MaskAt | include/hrzn/hrzn.h:929-937 | `HMask::at` succeeds exactly for contained points |
| HrznMatrix.NewMask | include/hrzn/hrzn.h:866-874 | a new mask covers the requested area and every cell is `false` |
| HrznMatrix.MaskSet | include/hrzn/hrzn.h:923-927 | `HMask::set` succeeds exactly for contained points; the cell then reads the new value and every other cell is unchanged |
| HrznMatrix.MaskFill | include/hrzn/hrzn.h:939-943 | `HMask::fill` sets every cell to the given value |
| HrznMatrix.MaskFlip | include/hrzn/hrzn.h:958-961 | `flip` negates every cell |
| HrznMatrix.MaskNot | include/hrzn/hrzn.h:1005-1009 | `operator!` gives a mask over the same area with every cell negated |
| HrznMatrix.MaskNotInvolution | include/hrzn/hrzn.h:1005-1009 | negating a mask twice gives the same mask |
| HrznMatrix.MaskFromMatrix | include/hrzn/hrzn.h:876-882 | a mask built from a boolean matrix reads exactly as the matrix at every point |
| HrznMatrix.Expand | include/hrzn/hrzn.h:945-951 | `expand` gives a matrix that reads exactly as the mask at every point |
| HrznMatrix.ExpandMaskFromMatrix | include/hrzn/hrzn.h:876-882 | expanding the mask built from a matrix gives the matrix back |
| HrznMatrix.Combine | include/hrzn/hrzn.h:1016-1040 | a binary mask operator combines cells with C++ short-circuit reads: it succeeds exactly when every cell of the (re-ordered) intersection lies in `a` and, where `a` does not decide the result, in `b`; it then covers the intersection with each cell set to the short-circuit result |
| HrznMatrix.And | include/hrzn/hrzn.h:1016-1022 | `a & b` succeeds exactly when every intersection cell is in `a` and, where `a` is set, in `b`; each cell is `a && b` |
| HrznMatrix.AndOfClearMask | include/hrzn/hrzn.h:1016-1022 | when `a` is clear over the whole intersection, `a & b` succeeds without reading `b` and is clear everywhere |
| HrznMatrix.Or | include/hrzn/hrzn.h:1025-1031 | `a \| b` succeeds exactly when every intersection cell is in `a` and, where `a` is clear, in `b`; each cell is `a \|\| b` |
| HrznMatrix.Xor | include/hrzn/hrzn.h:1034-1040 | as written, `a ^ b` behaves as `a & b`: it succeeds exactly when every intersection cell is in `a` and, where `a` is set, in `b`; each cell is `a && b` |
| HrznMatrix.XorWithSelf | include/hrzn/hrzn.h:1034-1040 | `a ^ a` reproduces `a` instead of clearing it |
| HrznMatrix.Not | include/hrzn/hrzn.h:1043-1049 | `~a` covers the same area with every cell negated |
| HrznMatrix.CombineDefinedIffMeet | include/hrzn/hrzn.h:1016-1040 | for ordered operands, a binary operator throws exactly when they share no cell, whatever values `a` holds, because the gap box then holds a cell outside `a` |
| HrznUtility.WrapPoint | include/hrzn/utility.h:55-59 | the result lies in any ordered area, and a contained point is returned unchanged (the function clamps) |
| HrznUtility.ClampPoint | include/hrzn/utility.h:61-65 | the result lies in `[0, width) x [0, height)` (the function wraps, relative to the origin) |
| HrznUtility.ClampPointAsWritten | include/hrzn/utility.h:61-65 | `-1` wraps to `0` rather than to `width - 1`, and a point of an area away from the origin is moved out of it |
| HrznUtility.OverlappingSymmetric | include/hrzn/utility.h:101-103 | `overlapping` is symmetric |
| HrznUtility.OverlappingIffShared | include/hrzn/utility.h:101-103 | two ordered areas overlap exactly when they share a cell |
| HrznUtility.ContainsUsesX2 | include/hrzn/utility.h:105-111 | the point test is the area's own `contains` with `y2` replaced by `x2`, and the area test holds exactly when the point test holds of every cell |
| HrznUtility.ContainsPointAsWritten | include/hrzn/utility.h:109-111 | a point outside a wide, flat area is reported as contained |
| HrznUtility.EdgePoints | include/hrzn/utility.h:113-115 | the four corners are edge points, and the centre of an area at least three cells each way is not |
| HrznUtility.MakeBoundary | include/hrzn/utility.h:121-123 | the boundary of two areas is ordered and contains every cell of either |
| HrznUtility.MakeBoundaryLeast | include/hrzn/utility.h:121-123 | any area containing every cell of two ordered areas contains their boundary |
| HrznUtility.SplitPartitions | include/hrzn/utility.h:130-144 | the two halves are ordered, together cover the area and, for an area of more than one cell, do not overlap |
| HrznUtility.SplitShrinks | include/hrzn/utility.h:130-144 | splitting an area of more than one cell gives two halves, each smaller than the area |
| HrznUtility.CompareFrom | include/hrzn/utility.h:150-157 | when every remaining step of the walk lies in both matrices, the comparison answers whether they agree at all those steps |
| HrznUtility.Compare | include/hrzn/utility.h:150-157 | when the matrices meet, `compare` answers whether they agree on every cell of the intersection |
| HrznUtility.CompareSelf | include/hrzn/utility.h:150-157 | a matrix compares equal to itself |
| HrznUtility.CompareMissThrows | include/hrzn/utility.h:150-157 | comparing disjoint matrices throws |
| HrznUtility.Transfer | include/hrzn/utility.h:160-165 | `transfer` succeeds exactly when the intersection lies in both; it copies the source's cells on the intersection and keeps the rest |
| HrznUtility.TransferMeeting | include/hrzn/utility.h:160-165 | transferring between matrices that meet succeeds |
| HrznUtility.Copy | include/hrzn/utility.h:168-174 | `copy` keeps the area and casts every cell |
| HrznUtility.CopyIdentity | include/hrzn/utility.h:168-174 | copying with the identity cast gives the matrix back |
| HrznUtility.FillArea | include/hrzn/utility.h:177-182 | filling an area succeeds exactly when the intersection lies in the matrix; it sets those cells and keeps the rest |
| HrznUtility.FillAreaMeeting | include/hrzn/utility.h:177-182 | filling an area that meets the matrix succeeds, sets the cells of the area and keeps every other cell |
| HrznUtility.Count | include/hrzn/utility.h:210-223 | counting the live neighbours succeeds exactly when every probe lands in the mask, and counts at most one per direction |
| HrznUtility.CountableMeansEveryCell | include/hrzn/utility.h:210-223 | the whole-mask precondition is the same as every cell's count succeeding |
| HrznUtility.NextGeneration | include/hrzn/utility.h:225-226 | the next generation keeps the area and sets every cell from the counts of the old mask |
| HrznUtility.CellularAutomata | include/hrzn/utility.h:210-227 | a mask of zero width is undefined behaviour, because building the region iterator divides by the width; a mask of positive width and zero height is left unchanged; an ordered mask steps exactly when every count succeeds, and each cell then becomes "count is at least the birth rate", counted on the old mask |
| HrznUtility.CellularAutomataEmpty | include/hrzn/utility.h:210-227 | a mask `w` wide (`w` positive) and 0 high comes back unchanged |
| HrznUtility.CellularAutomataZeroWidth | include/hrzn/hrzn.h:665-667 | a mask 0 wide, of any height, gives undefined behaviour rather than a result |
| HrznUtility.CellularAutomataThresholds | include/hrzn/utility.h:210-227 | with wrapping, a birth rate of at most 0 makes every cell live and one above 9 makes every cell dead |
| HrznUtility.CellularAutomataWrapOrigin | include/hrzn/utility.h:210-227 | without wrapping, a mask at the origin always succeeds and one that starts a full width or more to the right always throws |
| HrznUtility.CountIncludesSelf | include/hrzn/utility.h:210-223 | in an all-live mask the count is 9: the cell itself is one of the nine neighbours |
| HrznUtility.CountAllLive | include/hrzn/utility.h:210-223 | in an all-live mask, with wrapping, every direction counts |
| HtlArea.BoxMatches | include/htl/hrzn.h:408-423 | `width()`, `height()` and `area()` agree with the storage layout, and an inverted area is empty |
| HtlArea.EmptyIsEmpty | include/htl/hrzn.h:326 | the default area is inverted, has no cells and contains nothing |
| HtlArea.Sized | include/htl/hrzn.h:328 | `hArea(w, h)` covers exactly `[0, w) x [0, h)` |
| HtlArea.Resize | include/htl/hrzn.h:363-368 | `resize` orders its corners and covers exactly the cells between them |
| HtlArea.ResizeValidIdentity | include/htl/hrzn.h:363-368 | resizing a valid area to its own corners changes nothing |
| HtlArea.Normalize | include/htl/hrzn.h:391-396 | a valid area moves to the origin keeping its size; an invalid one becomes the empty area |
| HtlArea.NormalizeIdempotent | include/htl/hrzn.h:391-396 | normalising twice is the same as normalising once |
| HtlArea.Clamp | include/htl/hrzn.h:398-400 | the clamped point lies in any valid area, and a contained point is unchanged |
| HtlArea.Wrap | include/htl/hrzn.h:402-406 | the wrapped point lies in the area and differs from the input by whole periods |
| HtlArea.WrapContained | include/htl/hrzn.h:402-406 | a contained point wraps to itself |
| HtlArea.BuildBoundary | include/htl/hrzn.h:466-476 | the boundary contains every given point; no points give the empty area |
| HtlArea.BuildBoundaryLeast | include/htl/hrzn.h:466-476 | any area containing every given point contains their boundary |
| HtlArea.Intersect | include/htl/hrzn.h:481-483 | the intersection holds exactly the cells of both areas |
| HtlArea.IntersectSymmetric | include/htl/hrzn.h:481-483 | intersecting is symmetric |
| HtlArea.IntersectDisjoint | include/htl/hrzn.h:481-483 | disjoint areas intersect in an invalid area with no cells |
| HtlArea.End | include/htl/hrzn.h:540-542 | the end iterator sits `area()` steps from the beginning |
| HtlArea.WalkIsRowMajor | include/htl/hrzn.h:495-543 | the iterator reaches `end()` after exactly `area()` increments, visiting the cells in row-major order |
| HtlArea.IterateX | include/htl/hrzn.h:550-552 | `iterate_x` covers exactly the area's span of columns on one row |
| HtlArea.IterateY | include/htl/hrzn.h:554-556 | `iterate_y` covers exactly the area's span of rows in one column |
| HtlArea.IterateWithin | include/htl/hrzn.h:550-556 | a row or column of the area holds exactly the area's cells on that row or column |
| HtlMap.Index | include/htl/hrzn.h:608-612 | `f_index` succeeds exactly for contained points and returns that point's storage offset |
| HtlMap.At | include/htl/hrzn.h:709-711 | `at` succeeds exactly for contained points |
| HtlMap.Set | include/htl/hrzn.h:713-715 | `set` succeeds exactly for contained points; the cell then reads the new value and every other cell is unchanged |
| HtlMap.Filled | include/htl/hrzn.h:671-675 | a map built with a fill value reads that value in every cell |
| HtlMap.Fill | include/htl/hrzn.h:589-593 | `fill(obj)` sets every cell to `obj` |
| HtlMap.FillFrom | include/htl/hrzn.h:595-599 | `fill(func)` sets each cell to the generator applied to its storage offset |
| HtlMap.Resize | include/htl/hrzn.h:721-733 | resizing succeeds exactly for an ordered request; cells in both areas keep their values and new cells read the fill value |
| HtlMap.ResizeToSelf | include/htl/hrzn.h:721-733 | resizing a valid map to its own corners changes nothing |
| HtlMap.SubAt | include/htl/hrzn.h:637 | `ISubMap::at` succeeds exactly for points of the source, whatever the view |
| HtlMap.SubSet | include/htl/hrzn.h:639 | `ISubMap::set` writes one cell of the source and leaves every other cell unchanged |
| HtlMap.SubAtIgnoresView | include/htl/hrzn.h:637-639 | reading through any two views gives the same value as reading the source |
| HtlMap.SubFill | include/htl/hrzn.h:589-593 | filling through a view succeeds exactly when the view lies in the source; it sets the view's cells and keeps the rest |
| HtlMap.SubResize | include/htl/hrzn.h:643-647 | resizing a view gives exactly the re-ordered request |
| HtlMap.SubResizeUnrestricted | include/htl/hrzn.h:643-647 | a view can be resized to cells its source does not have |
| HtlMap.MaskAt | include/htl/hrzn.h:824-831 | `HMask::at` succeeds exactly for contained points |
| HtlMap.NewMask | include/htl/hrzn.h:760-768 | a new mask covers the requested area and every cell is `false` |
| HtlMap.MaskSet | include/htl/hrzn.h:817-822 | `HMask::set` succeeds exactly for contained points; the cell then reads the new value and every other cell is unchanged |
| HtlMap.MaskFill | include/htl/hrzn.h:833-837 | `HMask::fill` sets every cell to the given value |
| HtlMap.MaskFlip | include/htl/hrzn.h:852-855 | `flip` negates every cell |
| HtlMap.MaskNot | include/htl/hrzn.h:899-903 | `operator!` gives a mask over the same area with every cell negated |
| HtlMap.MaskNotInvolution | include/htl/hrzn.h:899-903 | negating a mask twice gives the same mask |
| HtlMap.MaskFromMap | include/htl/hrzn.h:770-776 | a mask built from a boolean map reads exactly as the map |
| HtlMap.Expand | include/htl/hrzn.h:839-845 | `expand` gives a map that reads exactly as the mask |
| HtlMap.ExpandMaskFromMap | include/htl/hrzn.h:770-776 | expanding the mask built from a map gives the map back |
| HtlMap.Combine | include/htl/hrzn.h:910-934 | a binary mask operator covers exactly the intersection and combines the operands cell by cell |
| HtlMap.And | include/htl/hrzn.h:910-916 | each cell of `a & b` is the conjunction of the operands' cells |
| HtlMap.Or | include/htl/hrzn.h:919-925 | each cell of `a \| b` is the disjunction of the operands' cells |
| HtlMap.Xor | include/htl/hrzn.h:928-934 | each cell of `a ^ b` is the conjunction of the operands' cells, as written |
| HtlMap.XorWithSelf | include/htl/hrzn.h:928-934 | `a ^ a` reproduces `a` instead of clearing it |
| HtlMap.Not | include/htl/hrzn.h:937-943 | `~a` covers the same area with every cell negated |
| HtlMap.CombineDisjoint | include/htl/hrzn.h:910-934 | operands with no common cell give an empty mask |
| PointArea.BoxMatches | include/htl/basic_types.h:617-639 | `width()`, `height()` and `area()` agree with the storage layout; only ordered areas contain points; `valid()` means ordered with at least one cell |
| PointArea.InvertedHasArea | include/htl/basic_types.h:542 | the default area is invalid and contains nothing, yet `area()` is positive, as it is for any inverted area |
| PointArea.Sized | include/htl/basic_types.h:544 | `point_area(w, h)` covers exactly `[0, w) x [0, h)` |
| PointArea.Move | include/htl/basic_types.h:568-573 | moving keeps the size and shifts every contained cell by the offset |
| PointArea.Resize | include/htl/basic_types.h:575-580 | `resize` orders the corners and covers exactly the half-open span between them |
| PointArea.ResizeOrderedIdentity | include/htl/basic_types.h:575-580 | resizing an ordered area to its own corners changes nothing |
| PointArea.Sorted | include/htl/basic_types.h:575-580 | `resize` to a rectangle's own corners gives an ordered rectangle of the same width and height, and changes nothing when the corners were ordered |
| PointArea.SortedKeepsPoints | include/htl/basic_types.h:575-580 | ordering the corners keeps every point the rectangle held, and an inverted rectangle of positive `area()` gains its low corner, which it did not hold |
| PointArea.ResizeBy | include/htl/basic_types.h:582-586 | a zero size leaves the area alone; any other size gives an ordered area of that size anchored at the near corner |
| PointArea.ResizeFromCenter | include/htl/basic_types.h:596-601 | an invalid area is unchanged; a valid one is resized between "centre minus half" and "near corner plus size" |
| PointArea.ResizeFromCenterAsWritten | include/htl/basic_types.h:596-601 | resizing a 10 by 10 area to 4 by 4 around its centre gives a 1 by 1 area |
| PointArea.ResizeFromCenterCentred | include/htl/basic_types.h:596-601 | corrected: the result has the requested size and contains the old centre |
| PointArea.Normalized | include/htl/basic_types.h:603-605 | the normalised area starts at the origin, keeps its size and validity, and holds the cells of the original moved to the origin |
| PointArea.Corner | include/htl/basic_types.h:641-646 | `corner(i)` succeeds exactly for `i` in 0..3 |
| PointArea.CornersOfValid | include/htl/basic_types.h:641-646 | the four corners of a valid area are its extreme cells, clockwise from the near corner, and all lie inside it |
| PointArea.Clamp | include/htl/basic_types.h:607-609 | the clamped point lies between the corners of an ordered area, and a contained point is unchanged |
| PointArea.ClampLeavesArea | include/htl/basic_types.h:607-609 | a point beyond the far corner clamps to `last()`, which the half-open area does not contain |
| PointArea.Wrap | include/htl/basic_types.h:611-615 | the wrapped point lies in the area and differs from the input by whole periods |
| PointArea.WrapContained | include/htl/basic_types.h:611-615 | a contained point wraps to itself |
| PointArea.Plus | include/htl/basic_types.h:670-672 | `area + p` moves `first()` and `last()` by `p` |
| PointArea.Minus | include/htl/basic_types.h:674-676 | `area - p` moves `first()` and `last()` by `-p` |
| PointArea.PlusAsWritten | include/htl/basic_types.h:670-676 | `+` and `-` are moves exactly when `x1 == y1`; otherwise adding the origin changes the area |
| PointArea.Intersect | include/htl/basic_types.h:681-683 | the intersection holds exactly the cells of both areas |
| PointArea.IntersectSymmetric | include/htl/basic_types.h:681-683 | intersecting is symmetric |
| PointArea.IntersectDisjoint | include/htl/basic_types.h:681-683 | disjoint valid areas intersect in an invalid area |
| PointArea.Overlap | include/htl/basic_types.h:688-690 | `overlap` holds exactly when the closed spans meet on both axes |
| PointArea.OverlapSymmetric | include/htl/basic_types.h:688-690 | `overlap` is symmetric and holds of areas sharing a cell |
| PointArea.OverlapTouching | include/htl/basic_types.h:688-690 | areas that only touch are reported as overlapping without sharing a cell |
| PointArea.ContainsArea | include/htl/basic_types.h:695-697 | as written: `b` lies in `a` with `b.y2` bounded by `a.x2` |
| PointArea.ContainsPoint | include/htl/basic_types.h:702-704 | as written: the point lies in `a` with `y` bounded by `a.x2` |
| PointArea.ContainsAsWritten | include/htl/basic_types.h:695-704 | the free `contains` agree with the area's own exactly when `y2 == x2`; flat areas accept outside points and tall ones reject inside points |
| PointArea.ContainsPointIntended | include/htl/basic_types.h:702-704 | corrected: the point test is the area's own `contains`, and agrees with the code when `y2 == x2` |
| PointArea.ContainsAreaIntended | include/htl/basic_types.h:695-697 | corrected: the area test holds exactly when every cell of a valid `b` lies in `a` |
| PointArea.ContainsOther | include/htl/basic_types.h:660-662 | the member `contains(const point_area&)` answers false for every pair of rectangles |
| PointArea.ContainsOtherNeverHolds | include/htl/basic_types.h:660-662 | the member denies that a valid rectangle contains itself, although the documented area test holds and every cell is its own |
| PointArea.EdgeCorners | include/htl/basic_types.h:709-711 | the four corners of a valid area are edge points, and the centre of an area at least three cells each way is not |
| PointArea.SwizzleArea | include/htl/basic_types.h:724-726 | the swizzled area swaps width and height and contains exactly the swizzled cells |
| PointArea.SwizzleAreaInvolution | include/htl/basic_types.h:724-726 | swizzling an area twice gives it back |
| PointArea.ClampPoint | include/htl/basic_types.h:731-735 | the clamped point lies in any valid area, and a contained point is unchanged |
| PointArea.WrapPoint | include/htl/basic_types.h:740-744 | the wrapped point lies in `[0, width) x [0, height)`, the normalised area |
| PointArea.WrapPointAtOrigin | include/htl/basic_types.h:740-744 | for an area at the origin and non-negative coordinates, wrapping is the remainder and lands in the area |
| PointArea.WrapPointAsWritten | include/htl/basic_types.h:740-744 | `-1` wraps to `0` rather than to `width - 1` |
| PointArea.WrapPointLeavesArea | include/htl/basic_types.h:740-744 | for an area away from the origin, no point wraps into the area |
| HtlContainers.Index | include/htl/containers.h:166-170 | `f_index` succeeds exactly for contained points and returns that point's storage offset |
| HtlContainers.IndexInjective | include/htl/containers.h:166-170 | the offset is `(x - x1) + (y - y1) * width`, and distinct points get distinct offsets |
| HtlContainers.At | include/htl/containers.h:313-315 | `at` succeeds exactly for contained points |
| HtlContainers.Set | include/htl/containers.h:317-319 | `set` succeeds exactly for contained points; the cell then reads the new value and every other cell is unchanged |
| HtlContainers.Swap | include/htl/containers.h:126-130 | `swap` succeeds exactly when both points are contained; it exchanges their values and keeps every other cell |
| HtlContainers.SwapInvolution | include/htl/containers.h:126-130 | swapping a point with itself, or swapping twice, gives the map back |
| HtlContainers.Fill | include/htl/containers.h:107-111 | `fill(obj)` sets every cell to `obj` and leaves an inverted map untouched |
| HtlContainers.FillRow | include/htl/containers.h:107-111 | one pass of the outer loop sets one row and keeps every other cell |
| HtlContainers.FillFrom | include/htl/containers.h:117-121 | `fill(func)` sets each cell to the generator applied to its index |
| HtlContainers.Next | include/htl/containers.h:191-196 | the iterator steps right along a row and from the last column to the start of the next row |
| HtlContainers.BeginAsWritten | include/htl/containers.h:206 | `begin()` is the near corner exactly when `x1 == y1` |
| HtlContainers.NextIsRowMajor | include/htl/containers.h:191-207 | from the k-th cell in row-major order the iterator steps to the next one, and from the last to `end()` |
| HtlContainers.WalkIsRowMajor | include/htl/containers.h:191-207 | after n steps from the near corner the iterator is at the n-th cell in row-major order, and at `end()` after `area()` steps |
| HtlContainers.RefAt | include/htl/containers.h:230 | `HMapRef::at` succeeds exactly for points of the source, whatever the view |
| HtlContainers.RefSet | include/htl/containers.h:234 | `HMapRef::set` writes one cell of the source and leaves every other cell unchanged |
| HtlContainers.RefAtIgnoresView | include/htl/containers.h:230-234 | reading through any two views gives the same value as reading the source |
| HtlContainers.GetReferenceArea | include/htl/containers.h:253-256 | the reference covers exactly the cells of the request that lie in the source |
| HtlContainers.RefFill | include/htl/containers.h:107-111 | filling through a view succeeds exactly when the view lies in the source; it sets the view's cells and keeps the rest |
| HtlContainers.FillThroughReference | include/htl/containers.h:253-256 | filling through `GetReferenceArea` always succeeds and sets exactly the requested cells of the source |
| HtlContainers.RefResize | include/htl/containers.h:239-242 | resizing a view gives an ordered area |
| HtlContainers.RefResizeShrinks | include/htl/containers.h:239-242 | when the request meets the view, the new view holds exactly the cells in both |
| HtlContainers.RefResizeMissGrows | include/htl/containers.h:239-242 | when the request misses the view, the new view can cover cells the old one did not |
| HtlContainers.Filled | include/htl/containers.h:278-282 | a map built with a fill value holds that value in every stored cell |
| HtlContainers.Resize | include/htl/containers.h:325-337 | resizing succeeds for an ordered or empty request; cells in both areas keep their values and new cells read the fill value |
| HtlContainers.ResizeToSelf | include/htl/containers.h:325-337 | resizing an ordered map to its own corners changes nothing |
| HtlContainers.Copy | include/htl/containers.h:380-387 | `copy` keeps the rectangle and reads the same as the map at every cell |
| HtlContainers.CopyIsIdentity | include/htl/containers.h:380-387 | copying an ordered map gives it back |
| HtlContainers.Assign | include/htl/containers.h:293-300 | assignment leaves the target over the corner-ordered rectangle of `other`, reading as `other` wherever `other` holds a point, and equal to `other` when it was ordered |
| HtlContainers.AssignInverted | include/htl/containers.h:293-300 | assigning a map over the inverted `(0, 4, 4, 0)`, which holds no point, gives a map over `(0, 0, 4, 4)` whose cells are addressable |
| HtlContainers.Combine | include/htl/containers.h:343-367 | a binary operator covers exactly the intersection and combines the operands cell by cell |
| HtlContainers.And | include/htl/containers.h:343-349 | each cell of `a & b` is the conjunction of the operands' cells |
| HtlContainers.Or | include/htl/containers.h:352-358 | each cell of `a \| b` is the disjunction of the operands' cells |
| HtlContainers.Xor | include/htl/containers.h:361-367 | each cell of `a ^ b` is the conjunction of the operands' cells, as written |
| HtlContainers.XorWithSelf | include/htl/containers.h:361-367 | `a ^ a` reproduces `a` instead of clearing it |
| HtlContainers.ExclusiveOr | include/htl/containers.h:361-367 | corrected: each cell is "either but not both" of the operands |
| HtlContainers.ExclusiveOrProperties | include/htl/containers.h:361-367 | the corrected operator clears a map combined with itself and is symmetric |
| HtlContainers.Not | include/htl/containers.h:370-376 | `~a` covers the same area with every cell negated |
| HtlContainers.NotInvolution | include/htl/containers.h:370-376 | negating twice reads the same as the map |
| HtlFlip.MirrorsInvolutions | include/htl/containers.h:135-157 | each mirror is its own inverse and keeps contained points inside |
| HtlFlip.FlipX | include/htl/containers.h:135-139 | `flipX` throws only on an inverted area it tries to walk; otherwise each cell reads its horizontal mirror |
| HtlFlip.FlipRowX | include/htl/containers.h:135-139 | one row of `flipX` mirrors that row and keeps the others |
| HtlFlip.FlipXTwice | include/htl/containers.h:135-139 | flipping an ordered map twice gives it back |
| HtlFlip.FlipY | include/htl/containers.h:144-148 | `flipY` throws only on an inverted area it tries to walk; otherwise each cell reads its vertical mirror |
| HtlFlip.FlipColumnY | include/htl/containers.h:144-148 | one column of `flipY` mirrors that column and keeps the others |
| HtlFlip.FlipYTwice | include/htl/containers.h:144-148 | flipping an ordered map twice gives it back |
| HtlFlip.Reverse | include/htl/containers.h:153-157 | `reverse` swaps the cells of the top-left quadrant with their opposites and keeps every other cell |
| HtlFlip.ReverseRow | include/htl/containers.h:153-157 | one pass of the outer loop swaps one row of the quadrant with its opposite |
| HtlFlip.ReverseKeepsCorner | include/htl/containers.h:153-157 | the top-right corner is not moved, although a half turn would move it |
| HtlUtility.MakeBoundary | include/htl/utility.h:74-83 | the boundary contains each given area's corners and each of its edges comes from one of the areas |
| HtlUtility.MakeBoundaryContains | include/htl/utility.h:74-83 | every cell of every given area lies in the boundary |
| HtlUtility.MakeBoundaryPoints | include/htl/utility.h:87-96 | as written: the boundary starts at the origin and bounds the points with closed far edges |
| HtlUtility.MakeBoundaryPointsAsWritten | include/htl/utility.h:87-96 | a single point is not contained in its boundary, and a negative first point is left outside |
| HtlUtility.PointsBoundary | include/htl/utility.h:87-96 | corrected: a valid area that contains every point, each edge touching one |
| HtlUtility.PointsBoundaryLeast | include/htl/utility.h:87-96 | corrected: any area containing every point contains the corrected boundary |
| HtlUtility.Split | include/htl/utility.h:109-122 | a tall area is cut across, a wide one down, and a single cell is returned twice |
| HtlUtility.CenterStrictlyInside | include/htl/utility.h:109-122 | the cut coordinate lies strictly between the edges of a span longer than one |
| HtlUtility.SplitPartition | include/htl/utility.h:109-122 | the halves do not overlap, together cover an ordered area, and are valid and smaller when the area is valid |
| HtlUtility.CopyInto | include/htl/utility.h:133-138 | the destination's cells in the intersection read the cast source values and every other cell is unchanged |
| HtlUtility.CopyIntoIdempotent | include/htl/utility.h:133-138 | copying the same source twice is the same as once, and copying a map into itself changes nothing |
| HtlUtility.CopyEach | include/htl/utility.h:144-150 | `copy_each` keeps the area and casts every cell |
| HtlUtility.CopyEachComposes | include/htl/utility.h:144-150 | two casts in a row read as one composed cast at every point, and are that map when the rectangle is ordered; the identity cast reads as a plain copy |
| HtlUtility.FillMap | include/htl/utility.h:159-163 | `fill(map, obj)` sets every cell to `obj` |
| HtlUtility.FillArea | include/htl/utility.h:173-178 | the cells in the intersection read the value and every other cell is unchanged |
| HtlUtility.FillAreaCovering | include/htl/utility.h:173-178 | filling an area covering the map is filling the map, and filling twice is filling once |
| HtlUtility.FillMask | include/htl/utility.h:202-208 | the cells where the mask is set read the value and every other cell is unchanged |
| HtlUtility.FillMaskAllTrue | include/htl/utility.h:202-208 | an all-true mask fills exactly its area |
| HtlUtility.Select | include/htl/utility.h:216-222 | the selection is true exactly at the cells equal to the given value |
| HtlUtility.ReplaceThroughSelect | include/htl/utility.h:202-222 | filling through a selection replaces exactly the selected value |
| HtlUtility.ProjectFromPoint | include/htl/utility.h:225-237 | the list holds the values along the ray in order, stopping at the length or at the first point outside the map, and it equals the reference list `Projection` |
| HtlUtility.ProjectionFrom | include/htl/utility.h:225-237 | the reference list, read from any point of the ray on, keeps that promise: entry `k` is the cell at `first + (from + k) * direction`, and the list stops at the length or just before the first point outside |
| HtlUtility.ProjectionUnique | include/htl/utility.h:225-237 | two lists that both keep the promise are equal, so the map and the ray determine the list |
| HtlUtility.ProjectionReads | include/htl/utility.h:228-230 | a list that keeps the promise reaches only ray points inside the map |
| HtlUtility.TransposeListToMap | include/htl/utility.h:252-263 | writing a list into a new map throws exactly when a non-empty list starts outside the area; otherwise the cells in walk order read the list until either runs out |
| HtlUtility.WrittenStep | include/htl/utility.h:252-263 | one more write extends the cells read from the list by one |
| HtlUtility.TransposeSkipsRowsAsWritten | include/htl/containers.h:206 | on `point_area(8, 3, 97, 53)` the walk starts at `(8, 8)`, so a list long enough for every cell leaves the near corner `(8, 3)` as fresh storage |
| HtlUtility.TransposedFromCornerFillsAll | include/htl/utility.h:252-263 | laid out from `(x1, y1)`, a list with an entry per cell gives every cell the entry at its row-major offset; where `x1 == y1` this is what the source's walk does |
| HtlUtility.TransposeListToSized | include/htl/utility.h:269-271 | over `rectangle(w, h)` the list fills the cells row by row; a list of exactly `w * h` values becomes the storage |
| HtlUtility.SizedTransposed | include/htl/utility.h:269-271 | over an area at the origin, the walk writes each cell with the list entry at its row-major offset |
| HtlUtility.SizedWhole | include/htl/utility.h:269-271 | a map reading the list at every offset is the map whose storage is the list |
| HtlUtility.SwizzleMap | include/htl/utility.h:278-286 | the swizzled map covers the swizzled area and each cell reads the swizzled point |
| HtlUtility.SwizzleMapInvolution | include/htl/utility.h:278-286 | swizzling a map twice reads the same, and gives an ordered map back |
| HtlUtility.QuarterTurns | include/htl/utility.h:290-310 | the number of turns is taken modulo 4 |
| HtlUtility.QuarterTurnsOpposite | include/htl/utility.h:290-310 | opposite turn counts add up to whole turns |
| HtlUtility.TurnCountsOfOneAndBack | include/htl/utility.h:291 | `turns % 4` with C++ `%` takes 1 to one quarter turn and -1 to three |
| HtlUtility.RotateMap | include/htl/utility.h:290-310 | no turn keeps the rectangle and reads the same as the map; one, two and three turns always succeed, because the result is assigned before it is flipped, and cover the corner-ordered swizzled (one, three) or original (two) rectangle; for an ordered map each cell is read from its rotated source, and two turns give `reverse()` |
| HtlUtility.RotateOnce | include/htl/utility.h:290-298 | one turn succeeds on every map, covers the corner-ordered swizzled rectangle, and on an ordered map reads cell `q` from `(q.y, y1 + y2 - 1 - q.x)` |
| HtlUtility.RotateThrice | include/htl/utility.h:299-302 | three turns succeed on every map, cover the corner-ordered swizzled rectangle, and on an ordered map read cell `q` from `(x1 + x2 - 1 - q.y, q.x)` |
| HtlUtility.RotateTwice | include/htl/utility.h:303-306 | two turns succeed on every map, cover the corner-ordered rectangle, and read as the half-quadrant `reverse()` at every point the map holds |
| HtlUtility.RotateAndBack | include/htl/utility.h:290-310 | one turn followed by three turns gives an ordered map back |
| HtlUtility.FlippedXIsQuarterTurn | include/htl/utility.h:295-298 | flipping the assigned swizzled map on x is a quarter turn |
| HtlUtility.FlippedYIsThreeQuarterTurn | include/htl/utility.h:299-302 | flipping the assigned swizzled map on y is a three-quarter turn |
| HtlUtility.TurnBack | include/htl/utility.h:290-310 | a three-quarter turn undoes a quarter turn of an ordered map |
| HtlUtility.Count | include/htl/utility.h:341-362 | counting succeeds exactly when every probe lands in the mask, and counts at most one per direction |
| HtlUtility.CountableMeansEveryCell | include/htl/utility.h:341-362 | the whole-mask precondition is the same as every cell's count succeeding |
| HtlUtility.CellularAutomata | include/htl/utility.h:341-362 | an empty mask is unchanged; otherwise the step succeeds exactly when every count does, and each cell becomes "count is at least the birth rate", counted on the old mask |
| HtlUtility.CellularAutomataThresholds | include/htl/utility.h:341-362 | without wrapping, a birth rate of at most 0 makes every cell live and one above 9 makes every cell dead |
| HtlUtility.ProbesInside | include/htl/utility.h:341-362 | every probe lands in the mask without wrapping, and with wrapping when the mask is at the origin |
| HtlUtility.CellularAutomataWrapOrigin | include/htl/utility.h:341-362 | with wrapping, a mask at the origin always succeeds and any other always throws |
| HtlUtility.CornerEscape | include/htl/utility.h:341-362 | for a mask away from the origin, some neighbour of the near corner wraps outside it |
| HtlUtility.CellularAutomataFullMask | include/htl/utility.h:341-362 | in an all-live mask every cell stays live for any birth rate up to 9 |
| HtlUtility.CountAllLive | include/htl/utility.h:341-362 | in an all-live mask every direction whose probe lands inside counts |
| HtlFloodFill.Directions | include/htl/utility.h:329-330 | the directions are the first 4 or 8 entries of the neighbourhood table |
| HtlFloodFill.DirectionsAreSteps | include/htl/basic_types.h:349-370 | the directions are exactly the unit steps, diagonals included with `use8`, never the cell itself |
| HtlFloodFill.ScopeOf | include/htl/utility.h:326 | the fill is confined to the cells of both the region and the result |
| HtlFloodFill.FloodFill | include/htl/utility.h:325-339 | throws exactly when the seed is outside the result, or outside the region with an unmarked neighbour; otherwise only adds marks, marks the seed, marks only the connected cells and fringe, and leaves no reachable cell unmarked |
| HtlFloodFill.UnmarkedShrinks | include/htl/utility.h:325-339 | every new mark lowers the number of unmarked cells, so the recursion ends |
| HtlFloodFill.PathMarked | include/htl/utility.h:331-333 | the end of every path of equal values from the seed is marked |
| HtlFloodFill.ReachedMarked | include/htl/utility.h:325-339 | the seed, its component and, with `edge`, its fringe are marked |
| HtlFloodFill.MarkedReached | include/htl/utility.h:325-339 | every marked cell is the seed, in its component, or, with `edge`, in its fringe |
| HtlFloodFill.FillIsExact | include/htl/utility.h:325-339 | on a blank result the marks are exactly the seed, its component and, with `edge`, its fringe |
| Bits.BlockCount | include/hrzn/hrzn.h:866 | the blocks hold more bits than there are cells |
| Bits.SetInBlockSame | include/hrzn/hrzn.h:923-927 | setting a bit makes it read the new value |
| Bits.SetInBlockOther | include/hrzn/hrzn.h:923-927 | setting a bit leaves every other bit of the block unchanged |
| Bits.BitOfInjective | include/hrzn/hrzn.h:965-970 | distinct cells in one block use distinct bits |
| Bits.SetBit | include/hrzn/hrzn.h:923-927 | setting a cell's bit makes it read the new value and leaves every other cell unchanged |
| Bits.ZeroBlocks | include/hrzn/hrzn.h:866-874 | fresh storage has room for every cell and reads `false` everywhere |
| Bits.FillBlocks | include/hrzn/hrzn.h:939-943 | filling the blocks makes every bit read the value |
| Bits.FlipBlocks | include/hrzn/hrzn.h:958-961 | flipping the blocks negates every bit |
| Bits.Decode | include/hrzn/hrzn.h:965-970 | the decoded cells are the stored bits in order |
| Bits.DecodeSetBit | include/hrzn/hrzn.h:923-927 | setting a bit is updating one cell of the decoded sequence |
| Bits.DecodeZero | include/hrzn/hrzn.h:866-874 | fresh storage decodes to all `false` |
| Bits.DecodeFill | include/hrzn/hrzn.h:939-943 | filled storage decodes to the value in every cell |
| Bits.DecodeFlip | include/hrzn/hrzn.h:958-961 | flipped storage decodes to the negated cells |
| Bits.Encode | include/hrzn/hrzn.h:876-882 | writing the first k cells stores them and keeps the later bits |
| Bits.DecodeEncode | include/hrzn/hrzn.h:876-882 | decoding what was encoded gives the cells back |
| Bits.WriteCell | include/hrzn/hrzn.h:923-927 | writing one point's bit makes it read the value and leaves every other point unchanged |
| Bits.EncodeCell | include/hrzn/hrzn.h:876-882 | each point of encoded storage reads the cell at that point's offset |

## Left out

- 32-bit `int` overflow: coordinates are unbounded; a few members require coordinates in the `int` range where the source converts them.
- Wrapping over an area of zero width or height: the source divides by zero there, so the wrapping members require a positive width and height. The hrzn cellular automaton is the exception: its region iterator divides by the width for any mask, so `HrznUtility.CellularAutomata` returns `Indeterminate` for a mask of zero width.
- `hrzn::floodFillArea` (`include/hrzn/utility.h:194-208`): line 204 calls `set` on the result mask with two arguments and does not type-check, so it is not modelled; the `htl` flood fill is.
- `hrzn::maskfill` (`include/hrzn/utility.h:185-191`): it calls `mat.set` on a parameter of type `IMatrix*` and does not compile.
- `HMask::resize` and the mask `AND`/`OR`/`XOR` members: the source leaves them unimplemented.
- `transposeMapToList`: its range-for over `IMap` iterators does not compile.
- `fill_each`, `makeAreaRadius`, the radius builders, `scatter` (random numbers), floating-point vectors, angles, transforms, `lerp`, `boundingBox`, `stringify` and the demo program: outside the grid core or not deterministic.
- Raw memory, destructors and the mutable `HMask::at` overload (`m_dummy`): the model has values, not storage ownership. Assignment is modelled only for the current `htl`, in `HtlContainers.Assign`. In hrzn, `MatrixContainer::operator=` and both `HMask::operator=` overloads (include/hrzn/hrzn.h:759-767, 893-915) copy `other.area()` cells and then call `Area::resize` (include/hrzn/hrzn.h:394-399), which sorts the corners with `min` and `max`. That re-ordering is not modelled. An hrzn matrix is taken as the value it was built with. On a mask with a zero side the re-ordering changes the area: `Area(0, h)` is (0, 0, -1, h - 1) and becomes (-1, 0, 0, h - 1), two columns over storage that holds no cell. No modelled member assigns an hrzn matrix.
- `ICell`/`Cell` and `s_offsetBlock`: not used by the modelled operations.
- HtlFloodFill.FloodFill: a failing call returns `Err` and the partly written result is not kept, so the model does not say that the seed stays marked when a later step throws.
- HrznMatrix.SubFill: a failing fill is `Err` with no map, so the cells the source writes before the first out-of-range `set` throws are not modelled.
- HrznUtility.FillArea: a failing fill is `Err` with no map, so the cells written before the throw are not modelled.
- HtlMap.SubFill: a failing fill is `Err` with no map, so the cells written before the throw are not modelled.
- HtlContainers.RefFill: a failing fill is `Err` with no map, so the cells written before the throw are not modelled.
- Views as operands: the algorithms and operators take owning maps and matrices. The source also accepts views (`SubMatrix`, `ISubMap`, `HMapRef`), whose `at` forwards to the viewed map and throws outside it; these combinations are not modelled.
- Storage that `copy`, `copy_each`, `select`, `swizzle_map` and the operators `&`, `|`, `^` and `~` allocate but never write: the model holds fixed values there, for the reason given at the top. No contract states them.
- HtlUtility.CopyEachComposes: whole-map equality of two conversions in a row and one composed conversion is stated for ordered rectangles only. On an inverted one, both maps read alike at every point (there is none), but their storage is uninitialised in the source.
- HtlUtility.CopyInto: the cast is applied from the source's cell type to the destination's, whichever way the source's template arguments read.
- HtlUtility.TransposeListToSized: requires `w` and `h` within the `int` range, as the source converts them.
- HtlUtility.RotateMap: for no turn it states that the copy reads the same as the map, not that the storage is equal (an inverted map keeps storage nobody can read).
- HtlUtility.RotateMap: for one, two and three turns of an inverted map the result covers cells the source never initialised, so only the rectangle and success are stated, not the values.
- HtlUtility.RotateOnce: on an inverted map only the rectangle and success are stated, for the reason given for `RotateMap`.
- HtlUtility.RotateThrice: on an inverted map only the rectangle and success are stated, for the reason given for `RotateMap`.
- HtlUtility.RotateTwice: on an inverted map only the rectangle and success are stated, for the reason given for `RotateMap`.
- HtlMap.Resize: an inverted request is `Err(Indeterminate)`, since the source then keeps a block of the wrong size for the re-ordered area.
- The `hrzn` `ITuple::operator[]` does not check its index; only the checked `htl` version is modelled.
- `signumAxis` and `length` on tuples: arithmetic helpers the modelled operations do not use.

## Findings

| source | as written | input that shows it | evidently intended | confidence | as-written member | corrected member |
|---|---|---|---|---|---|---|
| include/htl/basic_types.h:596-601 | `resizeFromCenter` resizes to `(cx - w/2, cy - h/2, x1 + w, y1 + h)` | `point_area(0, 0, 10, 10).resizeFromCenter(4, 4)` gives `(3, 3, 4, 4)`, one cell | a `w` by `h` area around the centre | not executed | PointArea.ResizeFromCenterAsWritten | PointArea.ResizeFromCenterCentred |
| include/htl/utility.h:87-96 | `make_boundary(points)` starts from `rectangle(x, y)`, i.e. `(0, 0, x, y)`, and grows the far edges to the largest coordinate | the single point `(2, 2)` gives `(0, 0, 2, 2)`, which does not contain it | the least half-open area containing every point | not executed | HtlUtility.MakeBoundaryPointsAsWritten | HtlUtility.PointsBoundary |
| include/htl/containers.h:361-367 | `operator ^` sets each cell to `a && b` | `a ^ a` equals `a` instead of all `false` | exclusive or, `a != b` | not executed | HtlContainers.XorWithSelf | HtlContainers.ExclusiveOr |
| include/htl/containers.h:206 | `begin()` starts the walk at `{ x1, x1 }` | `transposeListToMap` over `point_area(8, 3, 97, 53)` with one entry per cell starts at `(8, 8)`, so rows 3 to 7 keep fresh storage and the first cell is not written | start at the near corner `{ x1, y1 }` | not executed | HtlUtility.TransposeSkipsRowsAsWritten | HtlUtility.TransposedFromCornerFillsAll |
| include/htl/basic_types.h:695-704 | both free `contains` bound `y` by `a.x2` | `contains(point_area(0, 0, 10, 2), point2(0, 5))` is true | bound `y` by `a.y2` | not executed | PointArea.ContainsAsWritten | PointArea.ContainsPointIntended |

=== FILE: bits.dfy ===
/** The packed storage of `HMask`, identical in both library revisions: one
    bit per cell in 64-bit blocks, cell `i` held by bit `i % 64` of block
    `i / 64`, and `area / 64 + 1` blocks in all. */
module Bits {
  import opened Common
  import RowMajor

  /** `HMask::block_type`, `std::uint64_t`. */
  type Block = bv64

  const BITS_PER_BLOCK: nat := 64

  /** `m_size`: the number of blocks allocated for `n` cells. */
  function BlockCount(n: nat): (c: nat)
    ensures c * BITS_PER_BLOCK > n
  {
    n / BITS_PER_BLOCK + 1
  }

  /** Storage that can hold `n` cells. */
  predicate Holds(blocks: seq<Block>, n: nat) {
    |blocks| == BlockCount(n)
  }

  /** `1ULL << k`. */
  function Mask(k: bv7): Block
    requires k < 64
  {
    (1 as Block) << k
  }

  /** `m * val` for a `bool` promoted to `0` or `1`; `ScaledIsProduct`
      relates the two. */
  function Scaled(m: Block, v: bool): Block {
    if v then m else 0
  }

  lemma ScaledIsProduct(m: Block, v: bool)
    ensures Scaled(m, v) == m * (if v then 1 else 0)
  {
  }

  /** The bit offset `index % 64` of cell `i`, as the shift amount. */
  function BitOf(i: nat): (k: bv7)
    ensures k < 64
  {
    (i % BITS_PER_BLOCK) as bv7
  }

  /** `(b & ~m) | m * val`: the bits of `m` cleared, then set to `v`. */
  function Update(b: Block, m: Block, v: bool): Block {
    (b & !m) | Scaled(m, v)
  }

  /** `(b & m) == m`: every bit of `m` is set in `b`. */
  predicate Covers(b: Block, m: Block) {
    b & m == m
  }

  function SetInBlock(b: Block, k: bv7, v: bool): Block
    requires k < 64
  {
    Update(b, Mask(k), v)
  }

  function GetInBlock(b: Block, k: bv7): bool
    requires k < 64
  {
    Covers(b, Mask(k))
  }

  lemma MasksDisjoint(k: bv7, j: bv7)
    requires k < 64 && j < 64 && k != j
    ensures Mask(k) & Mask(j) == 0
  {
  }

  lemma SetInBlockSame(b: Block, k: bv7, v: bool)
    requires k < 64
    ensures GetInBlock(SetInBlock(b, k, v), k) == v
  {
  }

  lemma SetInBlockOther(b: Block, k: bv7, j: bv7, v: bool)
    requires k < 64 && j < 64 && k != j
    ensures GetInBlock(SetInBlock(b, k, v), j) == GetInBlock(b, j)
  {
    MasksDisjoint(k, j);
    UpdateOtherBits(b, Mask(k), Mask(j), v);
  }

  /** Clearing and setting the bits of one mask leaves those of a disjoint
      mask alone. */
  lemma UpdateOtherBits(b: Block, mk: Block, mj: Block, v: bool)
    requires mk & mj == 0
    ensures Update(b, mk, v) & mj == b & mj
  {
    if v {
      SetOtherBits(b, mk, mj);
    } else {
      ClearOtherBits(b, mk, mj);
    }
  }

  lemma SetOtherBits(b: Block, mk: Block, mj: Block)
    requires mk & mj == 0
    ensures ((b & !mk) | mk) & mj == b & mj
  {
  }

  lemma ClearOtherBits(b: Block, mk: Block, mj: Block)
    requires mk & mj == 0
    ensures (b & !mk) & mj == b & mj
  {
  }

  lemma ComplementBlock(b: Block, k: bv7)
    requires k < 64
    ensures GetInBlock(!b, k) == !GetInBlock(b, k)
  {
  }

  lemma FullBlock(k: bv7, v: bool)
    requires k < 64
    ensures GetInBlock(!(0 as Block) * (if v then 1 else 0), k) == v
  {
  }

  lemma EmptyBlock(k: bv7)
    requires k < 64
    ensures !GetInBlock(0, k)
  {
  }

  lemma NarrowDistinct(a: int, b: int)
    requires 0 <= a < 64 && 0 <= b < 64 && a != b
    ensures a as bv7 != b as bv7
  {
    NarrowRoundTrip(a);
    NarrowRoundTrip(b);
  }

  lemma NarrowRoundTrip(a: int)
    requires 0 <= a < 64
    ensures (a as bv7) as int == a
  {
  }

  /** Two cells of one block sit at different bits. */
  lemma BitOfInjective(i: nat, j: nat)
    requires i / BITS_PER_BLOCK == j / BITS_PER_BLOCK && i != j
    ensures BitOf(i) != BitOf(j)
  {
    assert i % BITS_PER_BLOCK != j % BITS_PER_BLOCK;
    NarrowDistinct(i % BITS_PER_BLOCK, j % BITS_PER_BLOCK);
  }

  /** `HMask::f_get` on a linear index. */
  function GetBit(blocks: seq<Block>, i: nat): bool
    requires i / BITS_PER_BLOCK < |blocks|
  {
    GetInBlock(blocks[i / BITS_PER_BLOCK], BitOf(i))
  }

  /** `HMask::set` on a linear index: only bit `i` changes. */
  function SetBit(blocks: seq<Block>, i: nat, v: bool): (r: seq<Block>)
    requires i / BITS_PER_BLOCK < |blocks|
    ensures |r| == |blocks|
    ensures GetBit(r, i) == v
    ensures forall j: nat | j / BITS_PER_BLOCK < |blocks| && j != i :: GetBit(r, j) == GetBit(blocks, j)
  {
    var w := i / BITS_PER_BLOCK;
    var r := blocks[w := SetInBlock(blocks[w], BitOf(i), v)];
    SetInBlockSame(blocks[w], BitOf(i), v);
    forall j: nat | j / BITS_PER_BLOCK < |blocks| && j != i
      ensures GetBit(r, j) == GetBit(blocks, j)
    {
      if j / BITS_PER_BLOCK == w {
        BitOfInjective(i, j);
        SetInBlockOther(blocks[w], BitOf(i), BitOf(j), v);
      }
    }
    r
  }

  /** The blocks a constructor zeroes. */
  function ZeroBlocks(n: nat): (r: seq<Block>)
    ensures Holds(r, n)
    ensures forall i: nat | i < n :: !GetBit(r, i)
  {
    var r := seq(BlockCount(n), _ => 0 as Block);
    forall i: nat | i < n ensures !GetBit(r, i) {
      EmptyBlock(BitOf(i));
    }
    r
  }

  /** `HMask::fill`: every block becomes `~block_type() * obj`. */
  function FillBlocks(blocks: seq<Block>, v: bool): (r: seq<Block>)
    ensures |r| == |blocks|
    ensures forall i: nat | i / BITS_PER_BLOCK < |blocks| :: GetBit(r, i) == v
  {
    var r := seq(|blocks|, _ => !(0 as Block) * (if v then 1 else 0));
    forall i: nat | i / BITS_PER_BLOCK < |blocks| ensures GetBit(r, i) == v {
      FullBlock(BitOf(i), v);
    }
    r
  }

  /** `HMask::flip`: every block is complemented. */
  function FlipBlocks(blocks: seq<Block>): (r: seq<Block>)
    ensures |r| == |blocks|
    ensures forall i: nat | i / BITS_PER_BLOCK < |blocks| :: GetBit(r, i) == !GetBit(blocks, i)
  {
    var r := seq(|blocks|, k requires 0 <= k < |blocks| => !blocks[k]);
    forall i: nat | i / BITS_PER_BLOCK < |blocks| ensures GetBit(r, i) == !GetBit(blocks, i) {
      ComplementBlock(blocks[i / BITS_PER_BLOCK], BitOf(i));
    }
    r
  }

  lemma CellInStorage(blocks: seq<Block>, n: nat, i: nat)
    requires Holds(blocks, n) && i < n
    ensures i / BITS_PER_BLOCK < |blocks|
  {
  }

  /** The cells the first `n` bits stand for. */
  function Decode(blocks: seq<Block>, n: nat): (cells: seq<bool>)
    requires Holds(blocks, n)
    ensures |cells| == n
    ensures forall i | 0 <= i < n :: cells[i] == GetBit(blocks, i)
  {
    seq(n, i requires 0 <= i < n => GetBit(blocks, i))
  }

  /** Setting bit `i` is a point update of the decoded cells. */
  lemma DecodeSetBit(blocks: seq<Block>, n: nat, i: nat, v: bool)
    requires Holds(blocks, n) && i < n
    ensures Holds(SetBit(blocks, i, v), n)
    ensures Decode(SetBit(blocks, i, v), n) == Decode(blocks, n)[i := v]
  {
  }

  lemma DecodeZero(n: nat)
    ensures Decode(ZeroBlocks(n), n) == seq(n, _ => false)
  {
  }

  lemma DecodeFill(blocks: seq<Block>, n: nat, v: bool)
    requires Holds(blocks, n)
    ensures Holds(FillBlocks(blocks, v), n)
    ensures Decode(FillBlocks(blocks, v), n) == seq(n, _ => v)
  {
  }

  lemma DecodeFlip(blocks: seq<Block>, n: nat)
    requires Holds(blocks, n)
    ensures Holds(FlipBlocks(blocks), n)
    ensures Decode(FlipBlocks(blocks), n) == seq(n, i requires 0 <= i < n => !Decode(blocks, n)[i])
  {
    var a, b := Decode(FlipBlocks(blocks), n), seq(n, i requires 0 <= i < n => !Decode(blocks, n)[i]);
    forall i | 0 <= i < n ensures a[i] == b[i] {
      CellInStorage(blocks, n, i);
      assert a[i] == GetBit(FlipBlocks(blocks), i);
      assert GetBit(FlipBlocks(blocks), i) == !GetBit(blocks, i);
      assert Decode(blocks, n)[i] == GetBit(blocks, i);
      assert b[i] == !Decode(blocks, n)[i];
    }
  }

  /** Sets bits `0 .. k-1` to the first `k` cells, one `set` at a time in
      row-major order, as the constructor from a dense grid and the boolean
      operators do; bits from `k` on keep whatever the storage held. */
  function Encode(blocks: seq<Block>, cells: seq<bool>, k: nat): (r: seq<Block>)
    requires Holds(blocks, |cells|) && k <= |cells|
    ensures Holds(r, |cells|)
    ensures forall i: nat | i < k :: GetBit(r, i) == cells[i]
    ensures forall i: nat | k <= i && i / BITS_PER_BLOCK < |blocks| :: GetBit(r, i) == GetBit(blocks, i)
    decreases k
  {
    if k == 0 then blocks
    else
      CellInStorage(blocks, |cells|, k - 1);
      SetBit(Encode(blocks, cells, k - 1), k - 1, cells[k - 1])
  }

  /** Encoding every cell and decoding gives the cells back, whatever the
      storage held before. */
  lemma DecodeEncode(blocks: seq<Block>, cells: seq<bool>)
    requires Holds(blocks, |cells|)
    ensures Decode(Encode(blocks, cells, |cells|), |cells|) == cells
  {
  }

  // ---------------------------------------------------------------------
  // Cells of a box

  /** `f_get` at a point of the box. */
  function ReadCell(b: RowMajor.Box, blocks: seq<Block>, p: Point): bool
    requires Holds(blocks, b.Size()) && b.Has(p)
  {
    CellInStorage(blocks, b.Size(), RowMajor.Offset(b, p));
    GetBit(blocks, RowMajor.Offset(b, p))
  }

  /** `set` at a point of the box: the point reads back and no other point
      of the box changes. */
  function WriteCell(b: RowMajor.Box, blocks: seq<Block>, p: Point, v: bool): (r: seq<Block>)
    requires Holds(blocks, b.Size()) && b.Has(p)
    ensures Holds(r, b.Size())
    ensures ReadCell(b, r, p) == v
    ensures forall q | b.Has(q) && q != p :: ReadCell(b, r, q) == ReadCell(b, blocks, q)
  {
    CellInStorage(blocks, b.Size(), RowMajor.Offset(b, p));
    var r := SetBit(blocks, RowMajor.Offset(b, p), v);
    forall q | b.Has(q) && q != p ensures ReadCell(b, r, q) == ReadCell(b, blocks, q) {
      RowMajor.OffsetInjective(b, p, q);
      CellInStorage(blocks, b.Size(), RowMajor.Offset(b, q));
    }
    r
  }

  /** A zeroed box reads false everywhere. */
  lemma ZeroCell(b: RowMajor.Box, p: Point)
    requires b.Has(p)
    ensures ReadCell(b, ZeroBlocks(b.Size()), p) == false
  {
  }

  /** A filled box reads the fill value everywhere. */
  lemma FillCell(b: RowMajor.Box, blocks: seq<Block>, p: Point, v: bool)
    requires Holds(blocks, b.Size()) && b.Has(p)
    ensures ReadCell(b, FillBlocks(blocks, v), p) == v
  {
    CellInStorage(blocks, b.Size(), RowMajor.Offset(b, p));
  }

  /** A complemented box reads negated everywhere. */
  lemma FlipCell(b: RowMajor.Box, blocks: seq<Block>, p: Point)
    requires Holds(blocks, b.Size()) && b.Has(p)
    ensures ReadCell(b, FlipBlocks(blocks), p) == !ReadCell(b, blocks, p)
  {
    CellInStorage(blocks, b.Size(), RowMajor.Offset(b, p));
  }

  /** A box encoded from dense cells reads as those cells. */
  lemma EncodeCell(b: RowMajor.Box, blocks: seq<Block>, cells: seq<bool>, p: Point)
    requires Holds(blocks, b.Size()) && |cells| == b.Size() && b.Has(p)
    ensures ReadCell(b, Encode(blocks, cells, |cells|), p) == RowMajor.Read(b, cells, p)
  {
    CellInStorage(blocks, b.Size(), RowMajor.Offset(b, p));
  }

  /** The cells of the box listed in walk order. */
  function Cells(b: RowMajor.Box, blocks: seq<Block>): (cells: seq<bool>)
    requires Holds(blocks, b.Size())
    ensures |cells| == b.Size()
    ensures forall p | b.Has(p) :: RowMajor.Read(b, cells, p) == ReadCell(b, blocks, p)
  {
    Decode(blocks, b.Size())
  }
}

=== FILE: common.dfy ===
/** Values shared by every revision of the library: integer points, the
    checked-access result type, and the C++ integer operations whose meaning
    differs from Dafny's mathematical ones. */
module Common {

  /** `hPoint` / `point2`: a pair of integer coordinates. */
  datatype Point = Point(x: int, y: int)

  function Add(a: Point, b: Point): Point { Point(a.x + b.x, a.y + b.y) }

  function Sub(a: Point, b: Point): Point { Point(a.x - b.x, a.y - b.y) }

  /** The exceptions the library raises, plus `Indeterminate` for a state the
      source leaves uninitialised or past the end of its block. */
  datatype Error = OutOfRange | Indeterminate

  /** The outcome of an operation that may throw. */
  datatype Result<+T> = Ok(value: T) | Err(error: Error) {
    predicate IsFailure() { Err? }

    function PropagateFailure<U>(): Result<U>
      requires Err?
    {
      Err(error)
    }

    function Extract(): T
      requires Ok?
    {
      value
    }
  }

  function Min(a: int, b: int): int { if a <= b then a else b }

  function Max(a: int, b: int): int { if a >= b then a else b }

  function Abs(a: int): nat { if a < 0 then -a else a }

  /** C++ `/` on signed integers: the quotient truncated toward zero. */
  function TDiv(a: int, b: int): int
    requires b != 0
  {
    if a >= 0 then a / b
    else if b > 0 then -((-a) / b)
    else (-a) / (-b)
  }

  /** C++ `%` on signed integers: the remainder takes the sign of the dividend. */
  function TMod(a: int, b: int): int
    requires b != 0
  {
    a - TDiv(a, b) * b
  }

  /** 2^64, the modulus of `std::size_t` on the platforms the library targets. */
  const SIZE_MODULUS: int := 0x1_0000_0000_0000_0000

  /** The value an `int` takes when C++ converts it to `std::size_t`
      (the usual arithmetic conversions of `int % size_t`). */
  function ToSize(a: int): nat { a % SIZE_MODULUS }

  lemma TModBounds(a: int, b: int)
    requires b > 0
    ensures -b < TMod(a, b) < b
    ensures a >= 0 ==> TMod(a, b) == a % b
  {
  }

  lemma TDivNonNegative(a: int, b: int)
    requires a >= 0 && b > 0
    ensures TDiv(a, b) == a / b
  {
  }

  /** `(v % w + w) % w` where `w` is an unsigned size: C++ converts `v` to a
      64-bit unsigned first, so a negative `v` wraps as `2^64 + v` rather than
      as its mathematical remainder. The outer `+ w) % w` then changes nothing. */
  function UnsignedWrap(v: int, w: nat): (r: nat)
    requires w > 0
    ensures r < w
    ensures 0 <= v < SIZE_MODULUS ==> r == v % w
    ensures -SIZE_MODULUS <= v < 0 ==> r == (SIZE_MODULUS + v) % w
  {
    var u := ToSize(v);
    assert 0 <= v < SIZE_MODULUS ==> u == v;
    assert -SIZE_MODULUS <= v < 0 ==> u == SIZE_MODULUS + v;
    ModPlusPeriod(u % w, w);
    (u % w + w) % w
  }

  /** Adding one period to a remainder and reducing again gives it back. */
  lemma ModPlusPeriod(a: nat, w: nat)
    requires w > 0 && a < w
    ensures (a + w) % w == a
  {
  }

  // -------------------------------------------------------------------------
  // Neighbourhood tables. Both revisions declare the same two tables
  // (`neighborhood4`/`neighborhood8` and `h_neighborhood4`/`h_neighborhood8`).

  /** The four orthogonal steps clockwise from north, then the cell itself. */
  const NEIGHBORHOOD4: seq<Point> := [Point(0, -1), Point(1, 0), Point(0, 1), Point(-1, 0), Point(0, 0)]

  /** The eight steps clockwise from north, then the cell itself. */
  const NEIGHBORHOOD8: seq<Point> :=
    [Point(0, -1), Point(1, -1), Point(1, 0), Point(1, 1), Point(0, 1),
     Point(-1, 1), Point(-1, 0), Point(-1, -1), Point(0, 0)]

  /** The eight-step table lists each step of at most one cell in each axis
      exactly once; the four-step table lists those with at most one non-zero
      coordinate. */
  lemma NeighborhoodsComplete(d: Point)
    ensures d in NEIGHBORHOOD8 <==> -1 <= d.x <= 1 && -1 <= d.y <= 1
    ensures d in NEIGHBORHOOD4 <==> Abs(d.x) + Abs(d.y) <= 1
    ensures forall i, j | 0 <= i < j < |NEIGHBORHOOD8| :: NEIGHBORHOOD8[i] != NEIGHBORHOOD8[j]
    ensures forall i, j | 0 <= i < j < |NEIGHBORHOOD4| :: NEIGHBORHOOD4[i] != NEIGHBORHOOD4[j]
  {
  }

  // -------------------------------------------------------------------------
  // The source's `int` range and wrapping arithmetic

  const INT_MAX: int := 0x7fff_ffff
  const INT_MIN: int := -0x8000_0000

  /** A value of the source's `int` coordinate type. */
  predicate InIntRange(v: int) { INT_MIN <= v <= INT_MAX }

  /** Multiplying by a natural number keeps the order. */
  lemma MulMonotone(a: nat, b: nat, w: nat)
    requires a <= b
    ensures a * w <= b * w
  {
  }

  /** A multiple of `w` leaves no remainder. */
  lemma ModMultiple(k: int, w: int)
    requires w > 0
    ensures (k * w) % w == 0
  {
    var q, r := (k * w) / w, (k * w) % w;
    assert (k - q) * w == r;
    if k - q >= 1 {
      MulMonotone(1, k - q, w);
    } else if k - q <= -1 {
      MulMonotone(1, q - k, w);
    }
  }

  /** One coordinate of the `wrap` members of `hArea` and `point_area`:
      `(w + (v - lo) % w) % w + lo` with C++'s truncating `%`. */
  function WrapCoordinate(v: int, lo: int, w: int): (r: int)
    requires w > 0
    ensures lo <= r < lo + w
    ensures (r - v) % w == 0
  {
    var t := TMod(v - lo, w);
    TModBounds(v - lo, w);
    TModBounds(w + t, w);
    var u := TMod(w + t, w);
    var k := 1 - (w + t) / w - TDiv(v - lo, w);
    assert u == (w + t) - ((w + t) / w) * w;
    assert v - lo - t == TDiv(v - lo, w) * w;
    assert (u + lo) - v == k * w;
    ModMultiple(k, w);
    u + lo
  }

  /** A value in `1..w` reduces to itself, or to zero at `w`. */
  lemma ModInPeriod(k: int, w: int)
    requires 0 < k <= w
    ensures k % w == if k == w then 0 else k
  {
  }

  /** Within one period there is one value of each residue. */
  lemma CongruentInPeriod(u: int, v: int, w: int)
    requires w > 0 && 0 <= u < w && 0 <= v < w && (u - v) % w == 0
    ensures u == v
  {
  }

}

=== FILE: hrzn_area.dfy ===
/** `Area` and `IterableArea` of `include/hrzn/hrzn.h`: a rectangle with
    inclusive bounds `x1..x2`, `y1..y2`, whose 4-coordinate constructor
    orders its corners, and the row-major walk over its cells. */
module HrznArea {
  import opened Common
  import RowMajor

  datatype Area = Area(x1: int, y1: int, x2: int, y2: int) {
    /** Both corner pairs are ordered, as every 4-coordinate constructor
        and `resize` leave them. */
    predicate Ordered() { x1 <= x2 && y1 <= y2 }

    /** At most one past ordered, as `Area(w, h)` leaves a zero-sized area;
        the unsigned `width()` and `height()` are meaningful exactly here. */
    predicate WellFormed() { x1 <= x2 + 1 && y1 <= y2 + 1 }

    function Width(): int { x2 - x1 + 1 }

    function Height(): int { y2 - y1 + 1 }

    function Size(): int { Width() * Height() }

    predicate Contains(p: Point) {
      x1 <= p.x <= x2 && y1 <= p.y <= y2
    }

    /** `center()`: C++ division truncates toward zero. */
    function Center(): Point {
      Point(TDiv(x2 - x1, 2) + x1, TDiv(y2 - y1, 2) + y1)
    }

    /** The row-major layout of the cells of a well-formed area. */
    function Box(): RowMajor.Box
      requires WellFormed()
    {
      RowMajor.Box(x1, y1, Width(), Height())
    }
  }

  /** `Area()`. */
  const EMPTY_DEFAULT: Area := Area(0, 0, 0, 0)

  /** The value `v` lies between `a` and `b`, in either order. */
  predicate Between(v: int, a: int, b: int) {
    (a <= v <= b) || (b <= v <= a)
  }

  /** `Area(w, h)`: the cells `[0, w) x [0, h)`. */
  function Sized(w: nat, h: nat): (r: Area)
    ensures r.WellFormed() && r.Width() == w && r.Height() == h
    ensures forall p :: r.Contains(p) <==> 0 <= p.x < w && 0 <= p.y < h
  {
    Area(0, 0, w - 1, h - 1)
  }

  /** `Area(x_1, y_1, x_2, y_2)` and `resize`: the corners are ordered, so the
      area holds exactly the points between the two given corners. */
  function Make(xa: int, ya: int, xb: int, yb: int): (r: Area)
    ensures r.Ordered()
    ensures r.Width() == Abs(xb - xa) + 1 && r.Height() == Abs(yb - ya) + 1
    ensures forall p :: r.Contains(p) <==> Between(p.x, xa, xb) && Between(p.y, ya, yb)
  {
    Area(Min(xa, xb), Min(ya, yb), Max(xa, xb), Max(ya, yb))
  }

  /** The corners are already ordered: the constructor keeps them. */
  lemma MakeOrderedIdentity(a: Area)
    requires a.Ordered()
    ensures Make(a.x1, a.y1, a.x2, a.y2) == a
  {
  }

  /** The cells of a well-formed area are the cells of its row-major box,
      and `area()` counts them. */
  lemma BoxMatches(a: Area, p: Point)
    requires a.WellFormed()
    ensures a.Contains(p) <==> a.Box().Has(p)
    ensures a.Size() == a.Box().Size()
  {
  }

  /** An ordered area has at least one cell. */
  lemma OrderedNonEmpty(a: Area)
    requires a.Ordered()
    ensures a.Width() >= 1 && a.Height() >= 1 && a.Size() >= 1
    ensures a.Contains(Point(a.x1, a.y1)) && a.Contains(Point(a.x2, a.y2))
  {
  }

  /** The centre of an ordered area is one of its cells. */
  lemma CenterContained(a: Area)
    requires a.Ordered()
    ensures a.Contains(a.Center())
    ensures a.Center().x - a.x1 == (a.x2 - a.x1) / 2
  {
  }

  /** The two areas have a cell in common in each axis. */
  predicate Meet(a: Area, b: Area) {
    Max(a.x1, b.x1) <= Min(a.x2, b.x2) && Max(a.y1, b.y1) <= Min(a.y2, b.y2)
  }

  /** `Area::intersect`: the overlap box, passed through the ordering
      constructor. */
  function Intersect(a: Area, b: Area): (r: Area)
    ensures r.Ordered()
  {
    Make(Max(a.x1, b.x1), Max(a.y1, b.y1), Min(a.x2, b.x2), Min(a.y2, b.y2))
  }

  lemma IntersectSymmetric(a: Area, b: Area)
    ensures Intersect(a, b) == Intersect(b, a)
  {
  }

  /** When the areas meet, the intersection holds exactly their common cells. */
  lemma IntersectMeeting(a: Area, b: Area, p: Point)
    requires Meet(a, b)
    ensures Intersect(a, b).Contains(p) <==> a.Contains(p) && b.Contains(p)
  {
  }

  /** When ordered areas do not meet, the ordering constructor turns the
      inverted overlap into the gap between them: its first cell belongs to
      at most one of the two areas. */
  lemma IntersectGap(a: Area, b: Area)
    requires a.Ordered() && b.Ordered() && !Meet(a, b)
    ensures var r := Intersect(a, b);
      r.Contains(Point(r.x1, r.y1)) && !(a.Contains(Point(r.x1, r.y1)) && b.Contains(Point(r.x1, r.y1)))
  {
  }

  /** Intersecting an ordered area with itself gives it back. */
  lemma IntersectSelf(a: Area)
    requires a.Ordered()
    ensures Intersect(a, a) == a
  {
  }

  /** Every cell of `inner` is a cell of `outer`, decided on the bounds. */
  predicate Within(inner: Area, outer: Area) {
    !inner.Ordered() ||
    (outer.x1 <= inner.x1 && inner.x2 <= outer.x2 && outer.y1 <= inner.y1 && inner.y2 <= outer.y2)
  }

  lemma WithinMeansCells(inner: Area, outer: Area)
    ensures Within(inner, outer) <==> forall p | inner.Contains(p) :: outer.Contains(p)
  {
    if !Within(inner, outer) {
      var c := if outer.Contains(Point(inner.x1, inner.y1)) then Point(inner.x2, inner.y2) else Point(inner.x1, inner.y1);
      assert inner.Contains(c) && !outer.Contains(c);
    }
  }

  /** `IterableArea::begin`. */
  function Begin(a: Area): RowMajor.Cursor {
    RowMajor.Cursor(0, a.Width(), a.x1, a.y1)
  }

  /** `IterableArea::end`: the cursor after `area()` steps. */
  function End(a: Area): (e: RowMajor.Cursor)
    requires a.WellFormed()
    ensures e.i == a.Size()
  {
    RowMajor.Cursor(a.Width() * a.Height(), a.Width(), a.x1, a.y1)
  }

  /** The `k`-th step of the walk over an ordered area is the `k`-th cell of
      its row-major layout, and the walk meets `end()` exactly after
      `area()` steps. */
  lemma WalkIsRowMajor(a: Area, k: nat)
    requires a.Ordered()
    ensures Begin(a).Advance(k).Equal(End(a)) <==> k == a.Size()
    ensures k < a.Size() ==> Begin(a).Advance(k).Position() == RowMajor.PointAt(a.Box(), k)
  {
  }

  /** The walk visits every cell of an ordered area, at the step given by the
      cell's row-major index. */
  lemma WalkCoversArea(a: Area, p: Point)
    requires a.Ordered() && a.Contains(p)
    ensures RowMajor.Offset(a.Box(), p) < a.Size()
    ensures Begin(a).Advance(RowMajor.Offset(a.Box(), p)).Position() == p
  {
    var k := RowMajor.Offset(a.Box(), p);
    WalkIsRowMajor(a, k);
    RowMajor.PointAtOfOffset(a.Box(), p);
  }
}

=== FILE: hrzn_matrix.dfy ===
/** The containers of `include/hrzn/hrzn.h`: `IMatrix` addressing,
    `MatrixContainer`, the `SubMatrix` view, `Region` iteration, the
    bit-packed `HMask` and the boolean operators over matrices. */
module HrznMatrix {
  import opened Common
  import RowMajor
  import Bits
  import opened HrznArea

  /** `MatrixContainer<T>`: an area and its cells in row-major order. */
  datatype Matrix<T> = Matrix(area: Area, cells: seq<T>) {
    predicate Valid() {
      area.WellFormed() && |cells| == area.Size()
    }
  }

  /** `IMatrix::f_index`: the storage index of a contained point, or
      `out_of_range`. */
  function Index(a: Area, p: Point): (r: Result<nat>)
    requires a.WellFormed()
    ensures r.Ok? <==> a.Contains(p)
    ensures r.Ok? ==> r.value < a.Size() && RowMajor.PointAt(a.Box(), r.value) == p
  {
    if a.Contains(p) then
      RowMajor.PointAtOfOffset(a.Box(), p);
      Ok(RowMajor.Offset(a.Box(), p))
    else Err(OutOfRange)
  }

  /** `MatrixContainer::at`. */
  function At<T>(m: Matrix<T>, p: Point): (r: Result<T>)
    requires m.Valid()
    ensures r.Ok? <==> m.area.Contains(p)
  {
    var i :- Index(m.area, p);
    Ok(m.cells[i])
  }

  /** `MatrixContainer::set`: the value is read back at `p`, every other point
      reads as before, and a point outside the area throws. */
  function Set<T>(m: Matrix<T>, p: Point, v: T): (r: Result<Matrix<T>>)
    requires m.Valid()
    ensures r.Ok? <==> m.area.Contains(p)
    ensures r.Ok? ==> r.value.Valid() && r.value.area == m.area
    ensures r.Ok? ==> At(r.value, p) == Ok(v)
    ensures r.Ok? ==> forall q | q != p :: At(r.value, q) == At(m, q)
  {
    if m.area.Contains(p) then
      Ok(Matrix(m.area, RowMajor.Write(m.area.Box(), m.cells, p, v)))
    else Err(OutOfRange)
  }

  /** `MatrixContainer(rect, obj)` and `MatrixContainer(w, h, obj)` (with
      `Sized(w, h)`): every cell holds `obj`. */
  function Filled<T>(a: Area, obj: T): (m: Matrix<T>)
    requires a.WellFormed()
    ensures m.Valid() && m.area == a
    ensures forall p | a.Contains(p) :: At(m, p) == Ok(obj)
  {
    Matrix(a, seq(a.Width() * a.Height(), _ => obj))
  }

  /** `IMatrix::fill(obj)` on a container: every cell of the area is set. */
  function Fill<T>(m: Matrix<T>, obj: T): (r: Matrix<T>)
    requires m.Valid()
    ensures r.Valid() && r.area == m.area
    ensures forall p | m.area.Contains(p) :: At(r, p) == Ok(obj)
  {
    Filled(m.area, obj)
  }

  /** `IMatrix::fill(fill_func)`: the generator is called once per cell in
      row-major order, so the cell at step `k` of the walk holds the `k`-th
      value it yields. */
  function FillFrom<T>(m: Matrix<T>, gen: nat -> T): (r: Matrix<T>)
    requires m.Valid()
    ensures r.Valid() && r.area == m.area
    ensures forall p | m.area.Contains(p) :: At(r, p) == Ok(gen(RowMajor.Offset(m.area.Box(), p)))
  {
    var n := m.area.Width() * m.area.Height();
    var r := Matrix(m.area, seq(n, i requires 0 <= i < n => gen(i)));
    assert forall p | m.area.Contains(p) :: At(r, p) == Ok(gen(RowMajor.Offset(m.area.Box(), p))) by {
      forall p | m.area.Contains(p) ensures At(r, p) == Ok(gen(RowMajor.Offset(m.area.Box(), p))) {
        BoxMatches(m.area, p);
        assert Index(m.area, p) == Ok(RowMajor.Offset(m.area.Box(), p));
      }
    }
    r
  }

  /** `MatrixContainer::resize(xa, ya, xb, yb, fill_obj)`: the new area is the
      ordered rectangle through the two corners; a point of both areas keeps
      its value and a point new to the matrix holds `fill_obj`. */
  function Resize<T>(m: Matrix<T>, xa: int, ya: int, xb: int, yb: int, fill: T): (r: Matrix<T>)
    requires m.Valid()
    ensures r.Valid() && r.area == Make(xa, ya, xb, yb)
    ensures forall p | r.area.Contains(p) && m.area.Contains(p) :: At(r, p) == At(m, p)
    ensures forall p | r.area.Contains(p) && !m.area.Contains(p) :: At(r, p) == Ok(fill)
  {
    var a := Make(xa, ya, xb, yb);
    Matrix(a, RowMajor.Build(a.Box(), p => if m.area.Contains(p) then At(m, p).value else fill))
  }

  /** Resizing to the matrix's own ordered area changes nothing. */
  lemma ResizeToSelf<T>(m: Matrix<T>, fill: T)
    requires m.Valid() && m.area.Ordered()
    ensures Resize(m, m.area.x1, m.area.y1, m.area.x2, m.area.y2, fill) == m
  {
    var r := Resize(m, m.area.x1, m.area.y1, m.area.x2, m.area.y2, fill);
    forall p | m.area.Box().Has(p)
      ensures RowMajor.Read(m.area.Box(), r.cells, p) == RowMajor.Read(m.area.Box(), m.cells, p)
    {
    }
    RowMajor.Extensional(m.area.Box(), r.cells, m.cells);
  }

  /** A matrix built from a function of the point reads as that function. */
  lemma ReadsAs<T>(m: Matrix<T>, f: Point -> T)
    requires m.Valid()
    requires forall p | m.area.Box().Has(p) :: m.cells[RowMajor.Offset(m.area.Box(), p)] == f(p)
    ensures forall p | m.area.Contains(p) :: At(m, p) == Ok(f(p))
  {
    forall p | m.area.Contains(p) ensures At(m, p) == Ok(f(p)) {
      BoxMatches(m.area, p);
    }
  }

  /** Two matrices over the same area that read alike everywhere are equal. */
  lemma ReadsAlike<T>(m: Matrix<T>, n: Matrix<T>)
    requires m.Valid() && n.Valid() && m.area == n.area
    requires forall p | m.area.Contains(p) :: At(m, p) == At(n, p)
    ensures m == n
  {
    forall p | m.area.Box().Has(p)
      ensures RowMajor.Read(m.area.Box(), m.cells, p) == RowMajor.Read(m.area.Box(), n.cells, p)
    {
      assert At(m, p) == At(n, p);
    }
    RowMajor.Extensional(m.area.Box(), m.cells, n.cells);
  }

  // ---------------------------------------------------------------------
  // Region and RegionIterator

  /** `Region<T>`: an area to walk and the identity of the matrix it reads. */
  datatype Region = Region(area: Area, source: nat)

  /** `RegionIterator`: the source, the walked area and the step count. */
  datatype RegionIterator = RegionIterator(source: nat, area: Area, index: nat) {
    function Position(): Point
      requires area.Width() > 0
    {
      Point(area.x1 + index % area.Width(), area.y1 + index / area.Width())
    }

    /** Iterators are equal when they read the same source at the same step;
        the walked area plays no part. */
    predicate Equal(other: RegionIterator) {
      source == other.source && index == other.index
    }
  }

  function RegionBegin(r: Region): RegionIterator {
    RegionIterator(r.source, r.area, 0)
  }

  function RegionEnd(r: Region): (e: RegionIterator)
    requires r.area.WellFormed()
    ensures e.index == r.area.Size()
  {
    RegionIterator(r.source, r.area, r.area.Width() * r.area.Height())
  }

  /** `IMatrix::region()`: the whole area of `m`, which has identity `id`. */
  function WholeRegion<T>(m: Matrix<T>, id: nat): Region {
    Region(m.area, id)
  }

  /** `IMatrix::region(area)`: the part of the request that `Area::intersect`
      keeps. */
  function SubRegion<T>(m: Matrix<T>, id: nat, area: Area): Region {
    Region(Intersect(m.area, area), id)
  }

  /** The cell an iterator refers to: constructing or incrementing one that is
      not at the end calls `at` on the source, which throws for a point
      outside the source; at the end no cell is referred to. */
  function Deref<T>(m: Matrix<T>, it: RegionIterator): (r: Result<Option<T>>)
    requires m.Valid() && it.area.Ordered()
    ensures it.index == it.area.Size() <==> r == Ok(None)
  {
    OrderedNonEmpty(it.area);
    if it.index == it.area.Size() then Ok(None)
    else
      var v :- At(m, it.Position());
      Ok(Some(v))
  }

  datatype Option<T> = None | Some(value: T)

  /** Walking `region()` of a matrix with an ordered area reads its storage in
      order. */
  lemma WholeRegionReadsStorage<T>(m: Matrix<T>, id: nat, k: nat)
    requires m.Valid() && m.area.Ordered() && k < m.area.Size()
    ensures Deref(m, RegionIterator(id, m.area, k)) == Ok(Some(m.cells[k]))
  {
    OrderedNonEmpty(m.area);
    RowMajor.OffsetOfPointAt(m.area.Box(), k);
  }

  /** When the request meets the matrix, every step of `region(area)` reads a
      point of both. */
  lemma SubRegionReadsCommonPoints<T>(m: Matrix<T>, id: nat, area: Area, k: nat)
    requires m.Valid() && Meet(m.area, area)
    requires k < Intersect(m.area, area).Size()
    ensures var it := RegionIterator(id, Intersect(m.area, area), k);
      area.Contains(it.Position()) && m.area.Contains(it.Position()) && Deref(m, it).Ok? && Deref(m, it).value.Some?
  {
    var r := Intersect(m.area, area);
    OrderedNonEmpty(r);
    var it := RegionIterator(id, r, k);
    var p := RowMajor.PointAt(r.Box(), k);
    assert it.Position() == p;
    BoxMatches(r, p);
    IntersectMeeting(m.area, area, p);
  }

  /** When an ordered request misses an ordered matrix, some step of
      `region(area)` throws: the walk covers the gap box, and a corner of it
      lies outside the matrix. */
  lemma SubRegionMissThrows<T>(m: Matrix<T>, id: nat, area: Area)
    requires m.Valid() && m.area.Ordered() && area.Ordered() && !Meet(m.area, area)
    ensures exists k: nat | k < Intersect(m.area, area).Size() ::
      Deref(m, RegionIterator(id, Intersect(m.area, area), k)) == Err(OutOfRange)
  {
    var r := Intersect(m.area, area);
    OrderedNonEmpty(r);
    var c := if m.area.Contains(Point(r.x1, r.y1)) then Point(r.x2, r.y2) else Point(r.x1, r.y1);
    assert !m.area.Contains(c);
    BoxMatches(r, c);
    var k := RowMajor.Offset(r.Box(), c);
    RowMajor.PointAtOfOffset(r.Box(), c);
    assert RegionIterator(id, r, k).Position() == c;
  }

  // ---------------------------------------------------------------------
  // SubMatrix

  /** `SubMatrix<T>`: a view over an area of a source matrix, which every
      operation takes explicitly. */
  datatype SubMatrix = SubMatrix(area: Area)

  /** `SubMatrix::at` forwards to the source without consulting the view's
      area, so only the source's bounds are checked. */
  function SubAt<T>(src: Matrix<T>, view: SubMatrix, p: Point): (r: Result<T>)
    requires src.Valid()
    ensures r.Ok? <==> src.area.Contains(p)
  {
    At(src, p)
  }

  /** `SubMatrix::set` forwards to the source in the same way. */
  function SubSet<T>(src: Matrix<T>, view: SubMatrix, p: Point, v: T): (r: Result<Matrix<T>>)
    requires src.Valid()
    ensures r.Ok? <==> src.area.Contains(p)
    ensures r.Ok? ==> r.value.Valid() && r.value.area == src.area && At(r.value, p) == Ok(v)
    ensures r.Ok? ==> forall q | q != p :: At(r.value, q) == At(src, q)
  {
    Set(src, p, v)
  }

  /** A view reads the same cells whatever area it covers. */
  lemma SubAtIgnoresView<T>(src: Matrix<T>, v: SubMatrix, w: SubMatrix, p: Point)
    requires src.Valid()
    ensures SubAt(src, v, p) == SubAt(src, w, p) == At(src, p)
  {
  }

  /** `IMatrix::fill(obj)` through a view: the view's cells of the source are
      set and no other cell changes; a view cell outside the source throws. */
  function SubFill<T>(src: Matrix<T>, view: SubMatrix, obj: T): (r: Result<Matrix<T>>)
    requires src.Valid()
    ensures r.Ok? <==> forall p | view.area.Contains(p) :: src.area.Contains(p)
    ensures r.Ok? ==> r.value.Valid() && r.value.area == src.area
    ensures r.Ok? ==> forall p | src.area.Contains(p) ::
      At(r.value, p) == if view.area.Contains(p) then Ok(obj) else At(src, p)
  {
    WithinMeansCells(view.area, src.area);
    if Within(view.area, src.area) then
      Ok(Matrix(src.area, RowMajor.Build(src.area.Box(), p => if view.area.Contains(p) || !src.area.Contains(p) then obj else At(src, p).value)))
    else Err(OutOfRange)
  }

  /** `SubMatrix::resize`: the request, ordered, intersected with the view's
      current area. */
  function SubResize(view: SubMatrix, xa: int, ya: int, xb: int, yb: int): (r: SubMatrix)
    ensures r.area.Ordered()
  {
    SubMatrix(Intersect(view.area, Make(xa, ya, xb, yb)))
  }

  /** A request that meets the view can only shrink it, to the common cells. */
  lemma SubResizeShrinks(view: SubMatrix, xa: int, ya: int, xb: int, yb: int, p: Point)
    requires Meet(view.area, Make(xa, ya, xb, yb))
    ensures SubResize(view, xa, ya, xb, yb).area.Contains(p) <==>
      view.area.Contains(p) && Make(xa, ya, xb, yb).Contains(p)
  {
    IntersectMeeting(view.area, Make(xa, ya, xb, yb), p);
  }

  /** A request that misses the view yields the gap box, which reaches outside
      the view: resizing the view of `(0,0)-(1,1)` to `(5,5)-(6,6)` gives
      `(1,1)-(5,5)`. */
  lemma SubResizeMissGrows()
    ensures var r := SubResize(SubMatrix(Area(0, 0, 1, 1)), 5, 5, 6, 6);
      r.area == Area(1, 1, 5, 5) && r.area.Contains(Point(5, 5)) && !Area(0, 0, 1, 1).Contains(Point(5, 5))
  {
  }

  // ---------------------------------------------------------------------
  // HMask

  /** `HMask`: an area and its packed bits, `area / 64 + 1` blocks. */
  datatype Mask = Mask(area: Area, blocks: seq<Bits.Block>) {
    predicate Valid() {
      area.WellFormed() && Bits.Holds(blocks, area.Box().Size())
    }
  }

  /** `HMask::at` (the `const` overload, through `f_get`). */
  function MaskAt(k: Mask, p: Point): (r: Result<bool>)
    requires k.Valid()
    ensures r.Ok? <==> k.area.Contains(p)
  {
    var i :- Index(k.area, p);
    Bits.CellInStorage(k.blocks, k.area.Box().Size(), i);
    Ok(Bits.GetBit(k.blocks, i))
  }

  /** `HMask(w, h)` (with `Sized(w, h)`) and `HMask(area)`: every block is
      zeroed, so every cell reads false. */
  function NewMask(a: Area): (k: Mask)
    requires a.WellFormed()
    ensures k.Valid() && k.area == a
    ensures forall p | a.Contains(p) :: MaskAt(k, p) == Ok(false)
  {
    var k := Mask(a, Bits.ZeroBlocks(a.Box().Size()));
    assert forall p | a.Contains(p) :: MaskAt(k, p) == Ok(false) by {
      forall p | a.Contains(p) ensures MaskAt(k, p) == Ok(false) {
        BoxMatches(a, p);
      }
    }
    k
  }

  /** `HMask::set`: the cell reads back as set and every other cell keeps its
      bit; a point outside the area throws. */
  function MaskSet(k: Mask, p: Point, v: bool): (r: Result<Mask>)
    requires k.Valid()
    ensures r.Ok? <==> k.area.Contains(p)
    ensures r.Ok? ==> r.value.Valid() && r.value.area == k.area && MaskAt(r.value, p) == Ok(v)
    ensures r.Ok? ==> forall q | q != p :: MaskAt(r.value, q) == MaskAt(k, q)
  {
    var i :- Index(k.area, p);
    var n := k.area.Box().Size();
    Bits.CellInStorage(k.blocks, n, i);
    var r := Mask(k.area, Bits.SetBit(k.blocks, i, v));
    assert forall q | q != p :: MaskAt(r, q) == MaskAt(k, q) by {
      forall q | q != p && k.area.Contains(q) ensures MaskAt(r, q) == MaskAt(k, q) {
        BoxMatches(k.area, q);
        BoxMatches(k.area, p);
        RowMajor.OffsetInjective(k.area.Box(), p, q);
        Bits.CellInStorage(k.blocks, n, RowMajor.Offset(k.area.Box(), q));
      }
    }
    Ok(r)
  }

  /** `HMask::fill`: every cell reads `obj`. */
  function MaskFill(k: Mask, obj: bool): (r: Mask)
    requires k.Valid()
    ensures r.Valid() && r.area == k.area
    ensures forall p | k.area.Contains(p) :: MaskAt(r, p) == Ok(obj)
  {
    var r := Mask(k.area, Bits.FillBlocks(k.blocks, obj));
    assert forall p | k.area.Contains(p) :: MaskAt(r, p) == Ok(obj) by {
      forall p | k.area.Contains(p) ensures MaskAt(r, p) == Ok(obj) {
        BoxMatches(k.area, p);
        Bits.CellInStorage(k.blocks, k.area.Box().Size(), RowMajor.Offset(k.area.Box(), p));
      }
    }
    r
  }

  /** `HMask::flip`: every cell reads negated. */
  function MaskFlip(k: Mask): (r: Mask)
    requires k.Valid()
    ensures r.Valid() && r.area == k.area
    ensures forall p | k.area.Contains(p) :: MaskAt(r, p) == Ok(!MaskAt(k, p).value)
  {
    var r := Mask(k.area, Bits.FlipBlocks(k.blocks));
    assert forall p | k.area.Contains(p) :: MaskAt(r, p) == Ok(!MaskAt(k, p).value) by {
      forall p | k.area.Contains(p) ensures MaskAt(r, p) == Ok(!MaskAt(k, p).value) {
        BoxMatches(k.area, p);
        Bits.CellInStorage(k.blocks, k.area.Box().Size(), RowMajor.Offset(k.area.Box(), p));
      }
    }
    r
  }

  /** `HMask::NOT`: a copy, flipped. Applying it twice gives the mask back,
      block for block. */
  function MaskNot(k: Mask): (r: Mask)
    requires k.Valid()
    ensures r.Valid() && r.area == k.area
    ensures forall p | k.area.Contains(p) :: MaskAt(r, p) == Ok(!MaskAt(k, p).value)
  {
    MaskFlip(k)
  }

  lemma MaskNotInvolution(k: Mask)
    requires k.Valid()
    ensures MaskNot(MaskNot(k)) == k
  {
    var r := MaskNot(MaskNot(k));
    assert r.blocks == k.blocks by {
      forall j | 0 <= j < |k.blocks| ensures r.blocks[j] == k.blocks[j] {
        assert !!k.blocks[j] == k.blocks[j];
      }
    }
  }

  /** `HMask(const IMatrix<bool>&)`: freshly allocated blocks, whose initial
      contents `scratch` the constructor leaves unspecified, then one `set`
      per cell in row-major order; the mask reads exactly as the matrix. */
  function MaskFromMatrix(m: Matrix<bool>, scratch: seq<Bits.Block>): (k: Mask)
    requires m.Valid() && Bits.Holds(scratch, m.area.Box().Size())
    ensures k.Valid() && k.area == m.area
    ensures forall p :: MaskAt(k, p) == At(m, p)
  {
    var k := Mask(m.area, Bits.Encode(scratch, m.cells, |m.cells|));
    assert forall p :: MaskAt(k, p) == At(m, p) by {
      forall p | m.area.Contains(p) ensures MaskAt(k, p) == At(m, p) {
        BoxMatches(m.area, p);
        Bits.CellInStorage(scratch, |m.cells|, RowMajor.Offset(m.area.Box(), p));
      }
    }
    k
  }

  /** `HMask::expand`: a dense matrix over the same area reading as the mask. */
  function Expand(k: Mask): (m: Matrix<bool>)
    requires k.Valid()
    ensures m.Valid() && m.area == k.area
    ensures forall p :: At(m, p) == MaskAt(k, p)
  {
    var n := k.area.Box().Size();
    var m := Matrix(k.area, Bits.Decode(k.blocks, n));
    assert forall p :: At(m, p) == MaskAt(k, p) by {
      forall p | k.area.Contains(p) ensures At(m, p) == MaskAt(k, p) {
        BoxMatches(k.area, p);
        Bits.CellInStorage(k.blocks, n, RowMajor.Offset(k.area.Box(), p));
      }
    }
    m
  }

  /** Packing a matrix and expanding it again gives the matrix back. */
  lemma ExpandMaskFromMatrix(m: Matrix<bool>, scratch: seq<Bits.Block>)
    requires m.Valid() && Bits.Holds(scratch, m.area.Box().Size())
    ensures Expand(MaskFromMatrix(m, scratch)) == m
  {
    ReadsAlike(Expand(MaskFromMatrix(m, scratch)), m);
  }

  // ---------------------------------------------------------------------
  // Boolean operators

  /** Whether the cell at `p` can be produced without throwing: `a` must
      hold `p`, and `b` is read only when `a`'s value there does not already
      decide the result, which is `decisive` (`false` for `&&`, `true` for
      `||`). */
  predicate Readable(a: Matrix<bool>, b: Matrix<bool>, decisive: bool, p: Point)
    requires a.Valid() && b.Valid()
  {
    a.area.Contains(p) && (At(a, p).value == decisive || b.area.Contains(p))
  }

  lemma ReadableMeansEveryCell(a: Matrix<bool>, b: Matrix<bool>, decisive: bool)
    requires a.Valid() && b.Valid()
    ensures var box := Intersect(a.area, b.area).Box();
      (forall i | 0 <= i < box.Size() :: Readable(a, b, decisive, RowMajor.PointAt(box, i))) <==>
      (forall p | Intersect(a.area, b.area).Contains(p) :: Readable(a, b, decisive, p))
  {
    var area := Intersect(a.area, b.area);
    var box := area.Box();
    if forall i | 0 <= i < box.Size() :: Readable(a, b, decisive, RowMajor.PointAt(box, i)) {
      forall p | area.Contains(p) ensures Readable(a, b, decisive, p) {
        BoxMatches(area, p);
        RowMajor.PointAtOfOffset(box, p);
      }
    } else {
      var i :| 0 <= i < box.Size() && !Readable(a, b, decisive, RowMajor.PointAt(box, i));
      BoxMatches(area, RowMajor.PointAt(box, i));
    }
  }

  /** The shared shape of `&`, `|` and `^`: a fresh mask over
      `Area::intersect(a, b)` whose cells are set, in row-major order, to
      the short-circuit combination of the two inputs' cells: `a`'s value
      when it equals `decisive`, `b`'s otherwise. A read outside either
      input throws, and the half-built mask is discarded. */
  function Combine(a: Matrix<bool>, b: Matrix<bool>, decisive: bool): (r: Result<Mask>)
    requires a.Valid() && b.Valid()
    ensures r.Ok? <==> forall p | Intersect(a.area, b.area).Contains(p) :: Readable(a, b, decisive, p)
    ensures r.Ok? ==> r.value.Valid() && r.value.area == Intersect(a.area, b.area)
    ensures r.Ok? ==> forall p | r.value.area.Contains(p) ::
      Readable(a, b, decisive, p) && MaskAt(r.value, p) == Ok(ShortCircuit(a, b, decisive, p))
  {
    var box := Intersect(a.area, b.area).Box();
    ReadableMeansEveryCell(a, b, decisive);
    if forall i | 0 <= i < box.Size() :: Readable(a, b, decisive, RowMajor.PointAt(box, i)) then
      Ok(CombineCells(a, b, decisive))
    else Err(OutOfRange)
  }

  /** The mask the loop builds when no read throws. */
  function CombineCells(a: Matrix<bool>, b: Matrix<bool>, decisive: bool): (r: Mask)
    requires a.Valid() && b.Valid()
    ensures r.Valid() && r.area == Intersect(a.area, b.area)
    ensures forall p | r.area.Contains(p) :: MaskAt(r, p) == Ok(ShortCircuit(a, b, decisive, p))
  {
    var area := Intersect(a.area, b.area);
    var box := area.Box();
    var r := MaskFromMatrix(Matrix(area, RowMajor.Build(box, p => ShortCircuit(a, b, decisive, p))), Bits.ZeroBlocks(box.Size()));
    assert forall p | area.Contains(p) :: MaskAt(r, p) == Ok(ShortCircuit(a, b, decisive, p)) by {
      forall p | area.Contains(p) ensures MaskAt(r, p) == Ok(ShortCircuit(a, b, decisive, p)) {
        BoxMatches(area, p);
      }
    }
    r
  }

  /** The value the loop stores at `p`: `a`'s value when it decides the
      result, `b`'s otherwise, and `false` where the read would throw. */
  function ShortCircuit(a: Matrix<bool>, b: Matrix<bool>, decisive: bool, p: Point): bool
    requires a.Valid() && b.Valid()
  {
    if !Readable(a, b, decisive, p) then false
    else if At(a, p).value == decisive then decisive
    else At(b, p).value
  }

  /** `operator &`: each cell is `a.at(x, y) && b.at(x, y)`, so `b` is read
      only where `a` is set. */
  function And(a: Matrix<bool>, b: Matrix<bool>): (r: Result<Mask>)
    requires a.Valid() && b.Valid()
    ensures r.Ok? <==> forall p | Intersect(a.area, b.area).Contains(p) ::
      a.area.Contains(p) && (At(a, p).value ==> b.area.Contains(p))
    ensures r.Ok? ==> r.value.Valid() && r.value.area == Intersect(a.area, b.area)
    ensures r.Ok? ==> forall p | r.value.area.Contains(p) ::
      a.area.Contains(p) && (At(a, p).value ==> b.area.Contains(p)) &&
      MaskAt(r.value, p) == Ok(At(a, p).value && At(b, p).value)
  {
    Combine(a, b, false)
  }

  /** `operator |`: each cell is `a.at(x, y) || b.at(x, y)`, so `b` is read
      only where `a` is clear. */
  function Or(a: Matrix<bool>, b: Matrix<bool>): (r: Result<Mask>)
    requires a.Valid() && b.Valid()
    ensures r.Ok? <==> forall p | Intersect(a.area, b.area).Contains(p) ::
      a.area.Contains(p) && (!At(a, p).value ==> b.area.Contains(p))
    ensures r.Ok? ==> r.value.Valid() && r.value.area == Intersect(a.area, b.area)
    ensures r.Ok? ==> forall p | r.value.area.Contains(p) ::
      a.area.Contains(p) && (!At(a, p).value ==> b.area.Contains(p)) &&
      MaskAt(r.value, p) == Ok(At(a, p).value || At(b, p).value)
  {
    Combine(a, b, true)
  }

  /** `operator ^` as written: its loop sets `a.at(x, y) && b.at(x, y)`. */
  function Xor(a: Matrix<bool>, b: Matrix<bool>): (r: Result<Mask>)
    requires a.Valid() && b.Valid()
    ensures r.Ok? <==> forall p | Intersect(a.area, b.area).Contains(p) ::
      a.area.Contains(p) && (At(a, p).value ==> b.area.Contains(p))
    ensures r.Ok? ==> r.value.Valid() && r.value.area == Intersect(a.area, b.area)
    ensures r.Ok? ==> forall p | r.value.area.Contains(p) ::
      a.area.Contains(p) && (At(a, p).value ==> b.area.Contains(p)) &&
      MaskAt(r.value, p) == Ok(At(a, p).value && At(b, p).value)
  {
    Combine(a, b, false)
  }

  /** `operator ~`: a mask over `a`'s own area, every cell negated. */
  function Not(a: Matrix<bool>): (r: Mask)
    requires a.Valid()
    ensures r.Valid() && r.area == a.area
    ensures forall p | a.area.Contains(p) :: MaskAt(r, p) == Ok(!At(a, p).value)
  {
    var cells := RowMajor.Build(a.area.Box(), p => if a.area.Contains(p) then !At(a, p).value else false);
    var r := MaskFromMatrix(Matrix(a.area, cells), Bits.ZeroBlocks(a.area.Box().Size()));
    assert forall p | a.area.Contains(p) :: MaskAt(r, p) == Ok(!At(a, p).value) by {
      forall p | a.area.Contains(p) ensures MaskAt(r, p) == Ok(!At(a, p).value) {
        BoxMatches(a.area, p);
      }
    }
    r
  }

  /** The operators succeed exactly when ordered inputs meet. Otherwise
      `Area::intersect` turns the overlap into the gap between them, and
      the gap holds a cell outside `a`, whose read throws whatever `b`
      holds. */
  lemma CombineDefinedIffMeet(a: Matrix<bool>, b: Matrix<bool>, decisive: bool)
    requires a.Valid() && b.Valid() && a.area.Ordered() && b.area.Ordered()
    ensures Combine(a, b, decisive).Ok? <==> Meet(a.area, b.area)
  {
    var r := Intersect(a.area, b.area);
    if Meet(a.area, b.area) {
      forall p | r.Contains(p) ensures Readable(a, b, decisive, p) {
        IntersectMeeting(a.area, b.area, p);
      }
    } else {
      var c :=
        if a.area.x2 < b.area.x1 then Point(b.area.x1, r.y1)
        else if b.area.x2 < a.area.x1 then Point(b.area.x2, r.y1)
        else if a.area.y2 < b.area.y1 then Point(r.x1, b.area.y1)
        else Point(r.x1, b.area.y2);
      assert r.Contains(c) && !Readable(a, b, decisive, c);
    }
  }

  /** `&&` stops on a clear cell of `a`: when `a` is clear over the whole
      intersection, `a & b` never reads `b` and is clear everywhere, even
      where `b` holds no cell. */
  lemma AndOfClearMask(a: Matrix<bool>, b: Matrix<bool>)
    requires a.Valid() && b.Valid()
    requires forall p | Intersect(a.area, b.area).Contains(p) :: At(a, p) == Ok(false)
    ensures And(a, b).Ok?
    ensures forall p | Intersect(a.area, b.area).Contains(p) :: MaskAt(And(a, b).value, p) == Ok(false)
  {
  }

  /** `^` of a matrix with itself reads as the matrix, where exclusive or
      would read false everywhere. */
  lemma XorWithSelf(a: Matrix<bool>)
    requires a.Valid() && a.area.Ordered()
    ensures Xor(a, a).Ok? && Xor(a, a).value.area == a.area
    ensures forall p | a.area.Contains(p) :: MaskAt(Xor(a, a).value, p) == At(a, p)
  {
    CombineDefinedIffMeet(a, a, false);
    IntersectSelf(a.area);
  }
}

=== FILE: hrzn_utility.dfy ===
/** The free functions of `include/hrzn/utility.h` that work on integer
    areas and matrices: the neighbourhood tables, the point helpers, area
    predicates and constructions, matrix comparison and copying, and the
    cellular-automaton step. */
module HrznUtility {
  import opened Common
  import RowMajor
  import opened HrznArea
  import opened HrznMatrix

  // ---------------------------------------------------------------------
  // Point helpers

  /** `wrapPoint`, which despite its name clamps each coordinate into the
      area's bounds. */
  function WrapPoint(p: Point, a: Area): (r: Point)
    ensures a.Ordered() ==> a.Contains(r)
    ensures a.Contains(p) ==> r == p
  {
    Point(Min(Max(p.x, a.x1), a.x2), Min(Max(p.y, a.y1), a.y2))
  }

  /** `clampPoint`, which despite its name wraps each coordinate into
      `[0, width()) x [0, height())`, without adding the area's origin back. */
  function ClampPoint(p: Point, a: Area): (r: Point)
    requires a.Ordered()
    ensures 0 <= r.x < a.Width() && 0 <= r.y < a.Height()
  {
    Point(UnsignedWrap(p.x, a.Width()), UnsignedWrap(p.y, a.Height()))
  }

  /** The unsigned conversion makes a negative coordinate wrap as
      `2^64 + v`: with width 3, `-1` lands on `0`, where a modulus would give
      `2`; and the result ignores the origin, so it can fall outside the
      area. */
  lemma ClampPointAsWritten()
    ensures ClampPoint(Point(-1, 0), Area(0, 0, 2, 0)) == Point(0, 0)
    ensures (-1) % 3 == 2
    ensures !Area(5, 5, 7, 7).Contains(ClampPoint(Point(6, 6), Area(5, 5, 7, 7)))
  {
    assert ToSize(-1) == SIZE_MODULUS - 1;
  }

  // ---------------------------------------------------------------------
  // Area predicates and constructions

  /** `overlapping`. */
  function Overlapping(a: Area, b: Area): bool {
    !(a.x1 > b.x2 || a.y1 > b.y2 || b.x1 > a.x2 || b.y1 > a.y2)
  }

  lemma OverlappingSymmetric(a: Area, b: Area)
    ensures Overlapping(a, b) == Overlapping(b, a)
  {
  }

  /** Ordered areas overlap exactly when they share a cell. */
  lemma OverlappingIffShared(a: Area, b: Area)
    requires a.Ordered() && b.Ordered()
    ensures Overlapping(a, b) <==> exists p :: a.Contains(p) && b.Contains(p)
    ensures Overlapping(a, b) <==> Meet(a, b)
  {
    if Overlapping(a, b) {
      var p := Point(Max(a.x1, b.x1), Max(a.y1, b.y1));
      assert a.Contains(p) && b.Contains(p);
    }
  }

  /** `contains(const Area&, const hPoint&)` as written: the y coordinate is
      bounded by `a.x2`. */
  function ContainsPoint(a: Area, p: Point): bool {
    p.x >= a.x1 && p.y >= a.y1 && p.x <= a.x2 && p.y <= a.x2
  }

  /** `contains(const Area&, const Area&)` as written, with the same bound. */
  function ContainsArea(a: Area, b: Area): bool {
    b.x1 >= a.x1 && b.y1 >= a.y1 && b.x2 <= a.x2 && b.y2 <= a.x2
  }

  /** The point test agrees with the area's own `contains` exactly on the
      area whose `y2` is replaced by its `x2`, and the area test holds of an
      ordered area exactly when the point test holds of each of its cells. */
  lemma ContainsUsesX2(a: Area, b: Area, p: Point)
    requires b.Ordered()
    ensures ContainsPoint(a, p) <==> a.(y2 := a.x2).Contains(p)
    ensures ContainsArea(a, b) <==> forall q | b.Contains(q) :: ContainsPoint(a, q)
  {
    if !ContainsArea(a, b) {
      var c := if ContainsPoint(a, Point(b.x1, b.y1)) then Point(b.x2, b.y2) else Point(b.x1, b.y1);
      assert b.Contains(c) && !ContainsPoint(a, c);
    }
  }

  /** A wide, short area "contains" a point below it. */
  lemma ContainsPointAsWritten()
    ensures ContainsPoint(Area(0, 0, 9, 1), Point(0, 5)) && !Area(0, 0, 9, 1).Contains(Point(0, 5))
  {
  }

  /** `isEdgePoint`. */
  function IsEdgePoint(a: Area, p: Point): bool {
    p.x == a.x1 || p.x == a.x2 || p.y == a.y1 || p.y == a.y2
  }

  /** The four corners are edge points; the centre of an area at least three
      cells wide and high is not. */
  lemma EdgePoints(a: Area)
    ensures IsEdgePoint(a, Point(a.x1, a.y1)) && IsEdgePoint(a, Point(a.x2, a.y1))
    ensures IsEdgePoint(a, Point(a.x1, a.y2)) && IsEdgePoint(a, Point(a.x2, a.y2))
    ensures a.Width() >= 3 && a.Height() >= 3 ==> !IsEdgePoint(a, a.Center())
  {
  }

  /** `makeBoundary`: the ordered box spanning both areas. */
  function MakeBoundary(a: Area, b: Area): (r: Area)
    ensures r.Ordered()
    ensures forall p | a.Contains(p) || b.Contains(p) :: r.Contains(p)
  {
    Make(Min(a.x1, b.x1), Min(a.y1, b.y1), Max(a.x2, b.x2), Max(a.y2, b.y2))
  }

  /** The boundary of two ordered areas is the least area holding both. */
  lemma MakeBoundaryLeast(a: Area, b: Area, c: Area)
    requires a.Ordered() && b.Ordered()
    requires forall p | a.Contains(p) || b.Contains(p) :: c.Contains(p)
    ensures Within(MakeBoundary(a, b), c)
  {
    assert c.Contains(Point(a.x1, a.y1)) && c.Contains(Point(a.x2, a.y2));
    assert c.Contains(Point(b.x1, b.y1)) && c.Contains(Point(b.x2, b.y2));
  }

  /** `split`: a taller-than-wide area is cut after the centre row, any other
      area more than one cell wide after the centre column, and a single cell
      is returned twice. */
  function Split(a: Area): (r: (Area, Area))
    requires a.WellFormed()
  {
    var c := a.Center();
    if a.Height() > 1 && a.Height() > a.Width() then (a.(y2 := c.y), a.(y1 := c.y + 1))
    else if a.Width() > 1 then (a.(x2 := c.x), a.(x1 := c.x + 1))
    else (a, a)
  }

  /** The halves of an ordered area are ordered, cover it, and are disjoint
      unless the area is a single cell, when both are the area itself. */
  lemma SplitPartitions(a: Area, p: Point)
    requires a.Ordered()
    ensures Split(a).0.Ordered() && Split(a).1.Ordered()
    ensures a.Contains(p) <==> Split(a).0.Contains(p) || Split(a).1.Contains(p)
    ensures a.Size() > 1 ==> !(Split(a).0.Contains(p) && Split(a).1.Contains(p))
    ensures a.Size() == 1 ==> Split(a) == (a, a)
  {
    CenterContained(a);
    if a.Width() > 1 || a.Height() > 1 {
      assert a.Size() > 1 by {
        OrderedNonEmpty(a);
        if a.Width() > 1 { MulMonotone(1, a.Height(), a.Width()); }
        else { MulMonotone(1, a.Width(), a.Height()); }
      }
    }
  }

  /** An ordered area more than one cell wide or high splits into two smaller
      areas. */
  lemma SplitShrinks(a: Area)
    requires a.Ordered() && (a.Width() > 1 || a.Height() > 1)
    ensures Split(a).0.Width() <= a.Width() && Split(a).0.Height() <= a.Height()
    ensures Split(a).1.Width() <= a.Width() && Split(a).1.Height() <= a.Height()
    ensures Split(a).0 != a && Split(a).1 != a
  {
    CenterContained(a);
  }

  // ---------------------------------------------------------------------
  // Matrix operations

  /** The loop of `compare` from step `k` of the walk over `r`: each cell is
      read from both matrices, a reading outside either throws, and the first
      difference returns false. */
  function CompareFrom<T(==)>(a: Matrix<T>, b: Matrix<T>, r: Area, k: nat): (res: Result<bool>)
    requires a.Valid() && b.Valid() && r.WellFormed() && k <= r.Box().Size()
    ensures (forall j | k <= j < r.Box().Size() ::
               a.area.Contains(RowMajor.PointAt(r.Box(), j)) && b.area.Contains(RowMajor.PointAt(r.Box(), j))) ==>
      res == Ok(forall j | k <= j < r.Box().Size() ::
               At(a, RowMajor.PointAt(r.Box(), j)) == At(b, RowMajor.PointAt(r.Box(), j)))
    decreases r.Box().Size() - k
  {
    if k == r.Box().Size() then Ok(true)
    else
      var p := RowMajor.PointAt(r.Box(), k);
      var x :- At(a, p);
      var y :- At(b, p);
      if x != y then Ok(false) else CompareFrom(a, b, r, k + 1)
  }

  /** `compare`: true exactly when the matrices agree on every cell of their
      intersection, provided they meet; cells outside the overlap play no
      part. */
  function Compare<T(==)>(a: Matrix<T>, b: Matrix<T>): (res: Result<bool>)
    requires a.Valid() && b.Valid()
    ensures Meet(a.area, b.area) ==>
      res == Ok(forall p | Intersect(a.area, b.area).Contains(p) :: At(a, p) == At(b, p))
  {
    var r := Intersect(a.area, b.area);
    if Meet(a.area, b.area) then
      forall j | 0 <= j < r.Box().Size() ensures a.area.Contains(RowMajor.PointAt(r.Box(), j)) && b.area.Contains(RowMajor.PointAt(r.Box(), j)) {
        IntersectMeeting(a.area, b.area, RowMajor.PointAt(r.Box(), j));
      }
      WalkAgreement(a, b, r);
      CompareFrom(a, b, r, 0)
    else CompareFrom(a, b, r, 0)
  }

  /** Agreement at every step of the walk is agreement at every cell. */
  lemma WalkAgreement<T>(a: Matrix<T>, b: Matrix<T>, r: Area)
    requires a.Valid() && b.Valid() && r.WellFormed()
    ensures (forall j | 0 <= j < r.Box().Size() :: At(a, RowMajor.PointAt(r.Box(), j)) == At(b, RowMajor.PointAt(r.Box(), j)))
        <==> (forall p | r.Contains(p) :: At(a, p) == At(b, p))
  {
    if forall j | 0 <= j < r.Box().Size() :: At(a, RowMajor.PointAt(r.Box(), j)) == At(b, RowMajor.PointAt(r.Box(), j)) {
      forall p | r.Contains(p) ensures At(a, p) == At(b, p) {
        BoxMatches(r, p);
        RowMajor.PointAtOfOffset(r.Box(), p);
        assert At(a, RowMajor.PointAt(r.Box(), RowMajor.Offset(r.Box(), p))) == At(b, RowMajor.PointAt(r.Box(), RowMajor.Offset(r.Box(), p)));
      }
    }
    forall j | 0 <= j < r.Box().Size() ensures r.Contains(RowMajor.PointAt(r.Box(), j)) {
      BoxMatches(r, RowMajor.PointAt(r.Box(), j));
    }
  }

  /** A matrix with an ordered area compares equal to itself. */
  lemma CompareSelf<T>(a: Matrix<T>)
    requires a.Valid() && a.area.Ordered()
    ensures Compare(a, a) == Ok(true)
  {
    IntersectSelf(a.area);
  }

  /** Ordered matrices that do not meet make `compare` throw at its first
      cell. */
  lemma CompareMissThrows<T>(a: Matrix<T>, b: Matrix<T>)
    requires a.Valid() && b.Valid() && a.area.Ordered() && b.area.Ordered() && !Meet(a.area, b.area)
    ensures Compare(a, b).Err?
  {
    var r := Intersect(a.area, b.area);
    IntersectGap(a.area, b.area);
    OrderedNonEmpty(r);
    assert RowMajor.PointAt(r.Box(), 0) == Point(r.x1, r.y1);
  }

  /** `transfer(to, from)`: the cells of the intersection take `from`'s values
      and every other cell of `to` is unchanged; a cell of the intersection
      outside either matrix throws. */
  function Transfer<T>(to: Matrix<T>, from: Matrix<T>): (r: Result<Matrix<T>>)
    requires to.Valid() && from.Valid()
    ensures r.Ok? <==> forall p | Intersect(to.area, from.area).Contains(p) :: to.area.Contains(p) && from.area.Contains(p)
    ensures r.Ok? ==> r.value.Valid() && r.value.area == to.area
    ensures r.Ok? ==> forall p | to.area.Contains(p) ::
      At(r.value, p) == if Intersect(to.area, from.area).Contains(p) then At(from, p) else At(to, p)
  {
    var area := Intersect(to.area, from.area);
    WithinMeansCells(area, to.area);
    WithinMeansCells(area, from.area);
    if Within(area, to.area) && Within(area, from.area) then
      forall p | to.area.Box().Has(p) ensures to.area.Contains(p) {
        BoxMatches(to.area, p);
      }
      Ok(Matrix(to.area, RowMajor.BuildWithin(to.area.Box(), p requires to.area.Contains(p) && (area.Contains(p) ==> from.area.Contains(p)) =>
        if area.Contains(p) then At(from, p).value else At(to, p).value)))
    else Err(OutOfRange)
  }

  /** Matrices that meet always transfer. */
  lemma TransferMeeting<T>(to: Matrix<T>, from: Matrix<T>)
    requires to.Valid() && from.Valid() && Meet(to.area, from.area)
    ensures Transfer(to, from).Ok?
  {
    forall p | Intersect(to.area, from.area).Contains(p) ensures to.area.Contains(p) && from.area.Contains(p) {
      IntersectMeeting(to.area, from.area, p);
    }
  }

  /** `copy(mat, cast)`: a matrix over the same area holding each value
      passed through `cast`. */
  function Copy<Ta, Tb>(mat: Matrix<Tb>, cast: Tb -> Ta): (r: Matrix<Ta>)
    requires mat.Valid()
    ensures r.Valid() && r.area == mat.area
    ensures forall p | mat.area.Contains(p) :: At(r, p) == Ok(cast(At(mat, p).value))
  {
    var r := Matrix(mat.area, seq(|mat.cells|, i requires 0 <= i < |mat.cells| => cast(mat.cells[i])));
    assert forall p | mat.area.Contains(p) :: At(r, p) == Ok(cast(At(mat, p).value)) by {
      forall p | mat.area.Contains(p) ensures At(r, p) == Ok(cast(At(mat, p).value)) {
        BoxMatches(mat.area, p);
      }
    }
    r
  }

  /** Copying with the identity gives the matrix back. */
  lemma CopyIdentity<T>(mat: Matrix<T>)
    requires mat.Valid()
    ensures Copy(mat, (v: T) => v) == mat
  {
    ReadsAlike(Copy(mat, (v: T) => v), mat);
  }

  /** `fill(mat, area, fill_obj)`: the cells of the intersection with `area`
      take the value and no other cell changes; a cell of the intersection
      outside the matrix throws. */
  function FillArea<T>(mat: Matrix<T>, area: Area, obj: T): (r: Result<Matrix<T>>)
    requires mat.Valid()
    ensures r.Ok? <==> forall p | Intersect(mat.area, area).Contains(p) :: mat.area.Contains(p)
    ensures r.Ok? ==> r.value.Valid() && r.value.area == mat.area
    ensures r.Ok? ==> forall p | mat.area.Contains(p) ::
      At(r.value, p) == if Intersect(mat.area, area).Contains(p) then Ok(obj) else At(mat, p)
  {
    SubFill(mat, SubMatrix(Intersect(mat.area, area)), obj)
  }

  /** A request that meets the matrix fills exactly the common cells. */
  lemma FillAreaMeeting<T>(mat: Matrix<T>, area: Area, obj: T, p: Point)
    requires mat.Valid() && Meet(mat.area, area) && mat.area.Contains(p)
    ensures FillArea(mat, area, obj).Ok?
    ensures At(FillArea(mat, area, obj).value, p) == if area.Contains(p) then Ok(obj) else At(mat, p)
  {
    forall q | Intersect(mat.area, area).Contains(q) ensures mat.area.Contains(q) {
      IntersectMeeting(mat.area, area, q);
    }
    IntersectMeeting(mat.area, area, p);
  }

  // ---------------------------------------------------------------------
  // Cellular automaton

  /** The cell whose value `cellularAutomata` reads for step `d` from `p`:
      `wrapPoint` (a clamp) when `wrap_position` is set, `clampPoint` (an
      origin-free wrap) otherwise. */
  function Probe(mask: Matrix<bool>, p: Point, d: Point, wrapPosition: bool): Point
    requires mask.area.Ordered()
  {
    if wrapPosition then WrapPoint(Add(p, d), mask.area) else ClampPoint(Add(p, d), mask.area)
  }

  /** The live count over the listed steps; reading a probe outside the mask
      throws. */
  function Count(mask: Matrix<bool>, p: Point, dirs: seq<Point>, wrapPosition: bool): (r: Result<nat>)
    requires mask.Valid() && mask.area.Ordered()
    ensures r.Ok? <==> forall d | d in dirs :: mask.area.Contains(Probe(mask, p, d, wrapPosition))
    ensures r.Ok? ==> r.value <= |dirs|
  {
    if dirs == [] then Ok(0)
    else
      var live :- At(mask, Probe(mask, p, dirs[0], wrapPosition));
      var rest :- Count(mask, p, dirs[1..], wrapPosition);
      Ok(rest + if live then 1 else 0)
  }

  /** Every cell of the mask can be counted without throwing. */
  predicate Countable(mask: Matrix<bool>, wrapPosition: bool)
    requires mask.Valid() && mask.area.Ordered()
  {
    forall i | 0 <= i < mask.area.Box().Size() ::
      Count(mask, RowMajor.PointAt(mask.area.Box(), i), NEIGHBORHOOD8, wrapPosition).Ok?
  }

  lemma CountableMeansEveryCell(mask: Matrix<bool>, wrapPosition: bool)
    requires mask.Valid() && mask.area.Ordered()
    ensures Countable(mask, wrapPosition) <==>
      forall p | mask.area.Contains(p) :: Count(mask, p, NEIGHBORHOOD8, wrapPosition).Ok?
  {
    var box := mask.area.Box();
    if Countable(mask, wrapPosition) {
      forall p | mask.area.Contains(p) ensures Count(mask, p, NEIGHBORHOOD8, wrapPosition).Ok? {
        BoxMatches(mask.area, p);
        RowMajor.PointAtOfOffset(box, p);
      }
    } else {
      var i :| 0 <= i < box.Size() && !Count(mask, RowMajor.PointAt(box, i), NEIGHBORHOOD8, wrapPosition).Ok?;
      BoxMatches(mask.area, RowMajor.PointAt(box, i));
    }
  }

  /** The value a cell takes: live when its count reaches the birth rate. */
  function NextState(mask: Matrix<bool>, p: Point, birthRate: int, wrapPosition: bool): bool
    requires mask.Valid() && mask.area.Ordered()
  {
    var c := Count(mask, p, NEIGHBORHOOD8, wrapPosition);
    c.Ok? && c.value >= birthRate
  }

  /** The second pass of the step: every cell set to its next state. */
  function NextGeneration(mask: Matrix<bool>, birthRate: int, wrapPosition: bool): (r: Matrix<bool>)
    requires mask.Valid() && mask.area.Ordered()
    ensures r.Valid() && r.area == mask.area
    ensures forall p | mask.area.Contains(p) :: At(r, p) == Ok(NextState(mask, p, birthRate, wrapPosition))
  {
    var r := Matrix(mask.area, RowMajor.Build(mask.area.Box(), p => NextState(mask, p, birthRate, wrapPosition)));
    ReadsAs(r, p => NextState(mask, p, birthRate, wrapPosition));
    r
  }

  /** `cellularAutomata(mask, birth_rate, wrap_position)`: every count is
      taken from the mask before any cell is written, over all nine entries
      of `neighborhood8` including the cell itself, and each cell then
      becomes `count >= birth_rate`. Both walks go through `region()`,
      whose iterator divides by `width()` as soon as it is built: a mask of
      zero width, such as `MatrixContainer(0, h)`, is undefined behaviour.
      A mask of positive width and zero height has no cell to walk and is
      left as it is. */
  function CellularAutomata(mask: Matrix<bool>, birthRate: int, wrapPosition: bool): (r: Result<Matrix<bool>>)
    requires mask.Valid()
    ensures mask.area.Width() == 0 ==> r == Err(Indeterminate)
    ensures mask.area.Width() > 0 && mask.area.Height() == 0 ==> r == Ok(mask)
    ensures mask.area.Ordered() ==>
      (r.Ok? <==> forall p | mask.area.Contains(p) :: Count(mask, p, NEIGHBORHOOD8, wrapPosition).Ok?)
    ensures r.Ok? ==> r.value.Valid() && r.value.area == mask.area
    ensures r.Ok? && mask.area.Ordered() ==> forall p | mask.area.Contains(p) ::
      At(r.value, p) == Ok(Count(mask, p, NEIGHBORHOOD8, wrapPosition).value >= birthRate)
  {
    if mask.area.Width() == 0 then Err(Indeterminate)
    else if !mask.area.Ordered() then Ok(mask)
    else
      CountableMeansEveryCell(mask, wrapPosition);
      if Countable(mask, wrapPosition) then Ok(NextGeneration(mask, birthRate, wrapPosition))
      else Err(OutOfRange)
  }

  /** A mask of positive width and zero height has no cell, so the step
      changes nothing. */
  lemma CellularAutomataEmpty(w: nat, cells: seq<bool>, birthRate: int, wrapPosition: bool)
    requires w > 0 && cells == []
    ensures Matrix(Sized(w, 0), cells).Valid()
    ensures CellularAutomata(Matrix(Sized(w, 0), cells), birthRate, wrapPosition) == Ok(Matrix(Sized(w, 0), cells))
  {
  }

  /** A mask of zero width, whatever its height, makes the step undefined:
      building the first iterator divides by zero. */
  lemma CellularAutomataZeroWidth(h: nat, cells: seq<bool>, birthRate: int, wrapPosition: bool)
    requires cells == []
    ensures Matrix(Sized(0, h), cells).Valid()
    ensures CellularAutomata(Matrix(Sized(0, h), cells), birthRate, wrapPosition) == Err(Indeterminate)
  {
  }

  /** With clamped probes the step never throws; a birth rate of at most zero
      makes every cell live and one above nine makes every cell dead. */
  lemma CellularAutomataThresholds(mask: Matrix<bool>, birthRate: int, p: Point)
    requires mask.Valid() && mask.area.Ordered() && mask.area.Contains(p)
    ensures CellularAutomata(mask, birthRate, true).Ok?
    ensures birthRate <= 0 ==> At(CellularAutomata(mask, birthRate, true).value, p) == Ok(true)
    ensures birthRate > 9 ==> At(CellularAutomata(mask, birthRate, true).value, p) == Ok(false)
  {
    assert |NEIGHBORHOOD8| == 9;
  }

  /** With origin-free wrapped probes the step never throws on a mask whose
      origin is `(0, 0)`, and throws on one placed at least its own width to
      the right of the origin. */
  lemma CellularAutomataWrapOrigin(mask: Matrix<bool>, birthRate: int)
    requires mask.Valid() && mask.area.Ordered()
    ensures mask.area.x1 == 0 && mask.area.y1 == 0 ==> CellularAutomata(mask, birthRate, false).Ok?
    ensures mask.area.x1 >= mask.area.Width() ==> CellularAutomata(mask, birthRate, false).Err?
  {
    if mask.area.x1 >= mask.area.Width() {
      var c := Point(mask.area.x1, mask.area.y1);
      assert mask.area.Contains(c);
      assert NEIGHBORHOOD8[0] in NEIGHBORHOOD8;
      assert !mask.area.Contains(Probe(mask, c, NEIGHBORHOOD8[0], false));
    }
  }

  /** The count of a cell includes the cell itself: in a mask full of live
      cells every count is nine. */
  lemma CountIncludesSelf(mask: Matrix<bool>, p: Point)
    requires mask.Valid() && mask.area.Ordered() && mask.area.Contains(p)
    requires forall q | mask.area.Contains(q) :: At(mask, q) == Ok(true)
    ensures Count(mask, p, NEIGHBORHOOD8, true) == Ok(9)
  {
    assert |NEIGHBORHOOD8| == 9;
    CountAllLive(mask, p, NEIGHBORHOOD8);
  }

  lemma {:induction false} CountAllLive(mask: Matrix<bool>, p: Point, dirs: seq<Point>)
    requires mask.Valid() && mask.area.Ordered()
    requires forall q | mask.area.Contains(q) :: At(mask, q) == Ok(true)
    ensures Count(mask, p, dirs, true) == Ok(|dirs|)
  {
    if dirs != [] {
      CountAllLive(mask, p, dirs[1..]);
    }
  }
}

=== FILE: htl_area.dfy ===
/** `hArea` and `hArea_iterable` of `include/htl/hrzn.h`: a rectangle with
    inclusive bounds that, unlike the older `Area`, keeps its corners as
    given. An area whose corners are inverted is not `valid()` and has no
    cells; the default area is the empty one. */
module HtlArea {
  import opened Common
  import RowMajor

  datatype HArea = HArea(x1: int, y1: int, x2: int, y2: int) {
    /** `valid()` and `operator bool`. */
    predicate Valid() { x1 <= x2 && y1 <= y2 }

    /** `width()`: never negative. */
    function Width(): nat { Max(x2 - x1 + 1, 0) }

    function Height(): nat { Max(y2 - y1 + 1, 0) }

    function Size(): nat { Width() * Height() }

    predicate Contains(p: Point) {
      x1 <= p.x <= x2 && y1 <= p.y <= y2
    }

    /** `center()`: C++ division truncates toward zero. */
    function Center(): Point {
      Point(TDiv(x2 - x1, 2) + x1, TDiv(y2 - y1, 2) + y1)
    }

    function Box(): RowMajor.Box {
      RowMajor.Box(x1, y1, Width(), Height())
    }
  }

  /** `hArea()`: the extreme corners, inverted. */
  const EMPTY: HArea := HArea(INT_MAX, INT_MAX, INT_MIN, INT_MIN)

  /** The cells of any area are the cells of its row-major box, and an area
      that is not valid has none. */
  lemma BoxMatches(a: HArea, p: Point)
    ensures a.Contains(p) <==> a.Box().Has(p)
    ensures a.Size() == a.Box().Size()
    ensures !a.Valid() ==> a.Size() == 0 && !a.Contains(p)
  {
  }

  /** The default area is invalid and empty. */
  lemma EmptyIsEmpty(p: Point)
    ensures !EMPTY.Valid() && EMPTY.Size() == 0 && !EMPTY.Contains(p)
  {
  }

  /** `hArea(w, h)`: the cells `[0, w) x [0, h)`. */
  function Sized(w: nat, h: nat): (r: HArea)
    ensures r.Width() == w && r.Height() == h
    ensures forall p :: r.Contains(p) <==> 0 <= p.x < w && 0 <= p.y < h
  {
    HArea(0, 0, w - 1, h - 1)
  }

  /** `resize(x_1, y_1, x_2, y_2)`: unlike the constructor, this orders the
      corners, so the area holds exactly the points between them. */
  function Resize(xa: int, ya: int, xb: int, yb: int): (r: HArea)
    ensures r.Valid()
    ensures forall p :: r.Contains(p) <==> (Min(xa, xb) <= p.x <= Max(xa, xb) && Min(ya, yb) <= p.y <= Max(ya, yb))
  {
    HArea(Min(xa, xb), Min(ya, yb), Max(xa, xb), Max(ya, yb))
  }

  lemma ResizeValidIdentity(a: HArea)
    requires a.Valid()
    ensures Resize(a.x1, a.y1, a.x2, a.y2) == a
  {
  }

  /** `normalize()`: a valid area moved to the origin, keeping its size; an
      invalid one becomes the default. */
  function Normalize(a: HArea): (r: HArea)
    ensures a.Valid() ==> r.Valid() && r.x1 == 0 && r.y1 == 0 && r.Width() == a.Width() && r.Height() == a.Height()
    ensures !a.Valid() ==> r == EMPTY
  {
    if a.Valid() then HArea(0, 0, a.x2 - a.x1, a.y2 - a.y1) else EMPTY
  }

  /** Normalizing twice is normalizing once. */
  lemma NormalizeIdempotent(a: HArea)
    ensures Normalize(Normalize(a)) == Normalize(a)
  {
  }

  /** `clamp(pt)`: the nearest point of a valid area. */
  function Clamp(a: HArea, pt: Point): (r: Point)
    ensures a.Valid() ==> a.Contains(r)
    ensures a.Contains(pt) ==> r == pt
  {
    Point(Min(a.x2, Max(a.x1, pt.x)), Min(a.y2, Max(a.y1, pt.y)))
  }

  /** `wrap(pt)`: the point of the area congruent to `pt` modulo the width and
      height; a contained point is its own wrap. */
  function Wrap(a: HArea, pt: Point): (r: Point)
    requires a.Valid()
    ensures a.Contains(r)
    ensures (r.x - pt.x) % a.Width() == 0 && (r.y - pt.y) % a.Height() == 0
  {
    Point(WrapCoordinate(pt.x, a.x1, a.Width()), WrapCoordinate(pt.y, a.y1, a.Height()))
  }

  /** Within one period there is one congruent value: the wrap of a
      contained point is the point itself. */
  lemma WrapContained(a: HArea, pt: Point)
    requires a.Valid() && a.Contains(pt)
    ensures Wrap(a, pt) == pt
  {
    var r := Wrap(a, pt);
    CongruentInPeriod(r.x - a.x1, pt.x - a.x1, a.Width());
    CongruentInPeriod(r.y - a.y1, pt.y - a.y1, a.Height());
  }

  /** `buildBoundary(pts)`: starting from the default area, each point widens
      the bounds to include it. */
  function BuildBoundary(pts: seq<Point>): (r: HArea)
    requires forall i | 0 <= i < |pts| :: InIntRange(pts[i].x) && InIntRange(pts[i].y)
    ensures forall i | 0 <= i < |pts| :: r.Contains(pts[i])
    ensures pts == [] ==> r == EMPTY
    ensures pts != [] ==> r.Valid()
  {
    if pts == [] then EMPTY
    else
      var r := BuildBoundary(pts[..|pts| - 1]);
      var p := pts[|pts| - 1];
      assert forall i | 0 <= i < |pts| - 1 :: pts[..|pts| - 1][i] == pts[i];
      HArea(Min(r.x1, p.x), Min(r.y1, p.y), Max(r.x2, p.x), Max(r.y2, p.y))
  }

  /** The boundary is the least area holding every listed point. */
  lemma {:induction false} BuildBoundaryLeast(pts: seq<Point>, c: HArea)
    requires forall i | 0 <= i < |pts| :: InIntRange(pts[i].x) && InIntRange(pts[i].y)
    requires pts != [] && forall i | 0 <= i < |pts| :: c.Contains(pts[i])
    ensures c.x1 <= BuildBoundary(pts).x1 && BuildBoundary(pts).x2 <= c.x2
    ensures c.y1 <= BuildBoundary(pts).y1 && BuildBoundary(pts).y2 <= c.y2
  {
    if |pts| > 1 {
      assert forall i | 0 <= i < |pts| - 1 :: pts[..|pts| - 1][i] == pts[i];
      BuildBoundaryLeast(pts[..|pts| - 1], c);
    }
  }

  /** `intersect`: the overlap bounds, not reordered. */
  function Intersect(a: HArea, b: HArea): (r: HArea)
    ensures forall p :: r.Contains(p) <==> a.Contains(p) && b.Contains(p)
  {
    HArea(Max(a.x1, b.x1), Max(a.y1, b.y1), Min(a.x2, b.x2), Min(a.y2, b.y2))
  }

  lemma IntersectSymmetric(a: HArea, b: HArea)
    ensures Intersect(a, b) == Intersect(b, a)
  {
  }

  /** Areas with no common cell intersect in an invalid, empty area. */
  lemma IntersectDisjoint(a: HArea, b: HArea)
    requires forall p :: !(a.Contains(p) && b.Contains(p))
    ensures !Intersect(a, b).Valid() && Intersect(a, b).Size() == 0
  {
    var r := Intersect(a, b);
    if r.Valid() {
      assert r.Contains(Point(r.x1, r.y1));
    }
  }

  /** `iterable().begin()`. */
  function Begin(a: HArea): RowMajor.Cursor {
    RowMajor.Cursor(0, a.Width(), a.x1, a.y1)
  }

  /** `iterable().end()`: the cursor after `area()` steps. */
  function End(a: HArea): (e: RowMajor.Cursor)
    ensures e.i == a.Size()
  {
    RowMajor.Cursor(a.Width() * a.Height(), a.Width(), a.x1, a.y1)
  }

  /** The `k`-th step of the walk over a valid area is the `k`-th cell of its
      row-major layout, and the walk meets `end()` exactly after `area()`
      steps. */
  lemma WalkIsRowMajor(a: HArea, k: nat)
    requires a.Valid()
    ensures Begin(a).Advance(k).Equal(End(a)) <==> k == a.Size()
    ensures k < a.Size() ==> Begin(a).Advance(k).Position() == RowMajor.PointAt(a.Box(), k)
  {
  }

  /** `iterate_x(y)`: the row at height `y` across the area's columns. */
  function IterateX(a: HArea, y: int): (r: HArea)
    ensures forall p :: r.Contains(p) <==> a.x1 <= p.x <= a.x2 && p.y == y
    ensures r.Width() == a.Width() && (a.Width() > 0 ==> r.Height() == 1)
  {
    HArea(a.x1, y, a.x2, y)
  }

  /** `iterate_y(x)`: the column at `x` across the area's rows. */
  function IterateY(a: HArea, x: int): (r: HArea)
    ensures forall p :: r.Contains(p) <==> a.y1 <= p.y <= a.y2 && p.x == x
    ensures r.Height() == a.Height() && (a.Height() > 0 ==> r.Width() == 1)
  {
    HArea(x, a.y1, x, a.y2)
  }

  /** A row or column through the area holds exactly the area's cells on it. */
  lemma IterateWithin(a: HArea, y: int, x: int, p: Point)
    requires a.y1 <= y <= a.y2 && a.x1 <= x <= a.x2
    ensures IterateX(a, y).Contains(p) <==> a.Contains(p) && p.y == y
    ensures IterateY(a, x).Contains(p) <==> a.Contains(p) && p.x == x
  {
  }
}

=== FILE: htl_containers.dfy ===
/** The containers of `include/htl/containers.h` over half-open `point_area`
    rectangles: `IMap` addressing, filling, swapping and iteration, the
    `HMapRef` view, the owning `HMap`, the boolean operators and `copy`.
    A map stores `area()` cells row-major; when the rectangle is inverted
    none of them is addressable. The header spells its rectangle `hArea`,
    the inclusive type of `include/htl/hrzn.h`, but every loop in it runs
    `for y in [y1, y2), for x in [x1, x2)` and its maps are built over
    `point_area`, so the rectangle is read as `point_area` here. */
module HtlContainers {
  import opened Common
  import RowMajor
  import opened PointArea

  /** `HMap<T>`: a rectangle and its `area()` cells in row-major order. */
  datatype Map<T> = Map(area: Rect, cells: seq<T>) {
    predicate Valid() { |cells| == area.Size() }
  }

  /** `IMap::f_index`: the storage index of a contained point, or
      `out_of_range`. */
  function Index(a: Rect, p: Point): (r: Result<nat>)
    ensures r.Ok? <==> a.Contains(p)
    ensures r.Ok? ==> r.value < a.Size() && RowMajor.PointAt(a.Box(), r.value) == p
  {
    if a.Contains(p) then
      BoxMatches(a, p);
      RowMajor.PointAtOfOffset(a.Box(), p);
      Ok(RowMajor.Offset(a.Box(), p))
    else Err(OutOfRange)
  }

  /** The index is `(x - x1) + (y - y1) * width()` and tells contained
      points apart. */
  lemma IndexInjective(a: Rect, p: Point, q: Point)
    requires a.Contains(p) && a.Contains(q)
    ensures Index(a, p).value == (p.x - a.x1) + (p.y - a.y1) * a.Width()
    ensures Index(a, p) == Index(a, q) <==> p == q
  {
  }

  /** `HMap::at`. */
  function At<T>(m: Map<T>, p: Point): (r: Result<T>)
    requires m.Valid()
    ensures r.Ok? <==> m.area.Contains(p)
  {
    var i :- Index(m.area, p);
    Ok(m.cells[i])
  }

  /** Storage whose contained cells hold `f`: each read is `f`. */
  lemma ReadsAs<T>(m: Map<T>, f: Point --> T)
    requires m.Valid()
    requires forall p | m.area.Contains(p) :: f.requires(p)
    requires forall p | m.area.Contains(p) :: m.cells[RowMajor.Offset(m.area.Box(), p)] == f(p)
    ensures forall p | m.area.Contains(p) :: At(m, p) == Ok(f(p))
  {
  }

  /** Two maps over the same ordered rectangle that read alike are equal. */
  lemma ReadsAlike<T>(m: Map<T>, n: Map<T>)
    requires m.Valid() && n.Valid() && m.area == n.area && m.area.Ordered()
    requires forall p | m.area.Contains(p) :: At(m, p) == At(n, p)
    ensures m == n
  {
    forall p | m.area.Box().Has(p)
      ensures m.cells[RowMajor.Offset(m.area.Box(), p)] == n.cells[RowMajor.Offset(m.area.Box(), p)]
    {
      BoxMatches(m.area, p);
      assert At(m, p) == At(n, p);
    }
    RowMajor.Extensional(m.area.Box(), m.cells, n.cells);
  }

  /** Storage in which every contained cell holds `f` and every other cell
      of the block keeps `base`: what a loop over the rectangle's points
      leaves behind. */
  function Overwrite<T>(a: Rect, base: seq<T>, f: Point --> T): (s: seq<T>)
    requires |base| == a.Size()
    requires forall p | a.Contains(p) :: f.requires(p)
    ensures |s| == a.Size()
    ensures forall p | a.Contains(p) :: s[RowMajor.Offset(a.Box(), p)] == f(p)
    ensures forall i | 0 <= i < |s| && !a.Contains(RowMajor.PointAt(a.Box(), i)) :: s[i] == base[i]
  {
    var b := a.Box();
    var s := seq(a.Size(), i requires 0 <= i < a.Size() =>
      if a.Contains(RowMajor.PointAt(b, i)) then f(RowMajor.PointAt(b, i)) else base[i]);
    assert forall p | a.Contains(p) :: s[RowMajor.Offset(b, p)] == f(p) by {
      forall p | a.Contains(p) ensures s[RowMajor.Offset(b, p)] == f(p) {
        RowMajor.PointAtOfOffset(b, p);
      }
    }
    s
  }

  /** `HMap::set`: the value is read back at `p`, every other point reads as
      before, and a point outside the rectangle throws. */
  function Set<T>(m: Map<T>, p: Point, v: T): (r: Result<Map<T>>)
    requires m.Valid()
    ensures r.Ok? <==> m.area.Contains(p)
    ensures r.Ok? ==> r.value.Valid() && r.value.area == m.area
    ensures r.Ok? ==> At(r.value, p) == Ok(v)
    ensures r.Ok? ==> forall q | q != p :: At(r.value, q) == At(m, q)
  {
    if m.area.Contains(p) then
      var b := m.area.Box();
      var r := Map(m.area, RowMajor.Write(b, m.cells, p, v));
      assert forall q | q != p :: At(r, q) == At(m, q) by {
        forall q | q != p && m.area.Contains(q) ensures At(r, q) == At(m, q) {
          RowMajor.OffsetInjective(b, p, q);
        }
      }
      Ok(r)
    else Err(OutOfRange)
  }

  // ---------------------------------------------------------------------
  // IMap members

  /** `IMap::swap(a, b)`: the two values exchanged and nothing else changed;
      either point outside throws before anything is written. */
  function Swap<T>(m: Map<T>, a: Point, b: Point): (r: Result<Map<T>>)
    requires m.Valid()
    ensures r.Ok? <==> m.area.Contains(a) && m.area.Contains(b)
    ensures r.Ok? ==> r.value.Valid() && r.value.area == m.area
    ensures r.Ok? ==> At(r.value, a) == At(m, b) && At(r.value, b) == At(m, a)
    ensures r.Ok? ==> forall q | q != a && q != b :: At(r.value, q) == At(m, q)
  {
    var value :- At(m, a);
    var vb :- At(m, b);
    var m1 := Set(m, a, vb).value;
    Set(m1, b, value)
  }

  /** Swapping a cell with itself changes nothing, and swapping twice
      restores the map. */
  lemma SwapInvolution<T>(m: Map<T>, a: Point, b: Point)
    requires m.Valid() && m.area.Contains(a) && m.area.Contains(b)
    ensures m.area.Ordered() ==> Swap(m, a, a) == Ok(m)
    ensures m.area.Ordered() ==> Swap(Swap(m, a, b).value, a, b) == Ok(m)
  {
    BoxMatches(m.area, a);
    if m.area.Ordered() {
      ReadsAlike(Swap(m, a, a).value, m);
      ReadsAlike(Swap(Swap(m, a, b).value, a, b).value, m);
    }
  }

  /** `IMap::fill(obj)`: row by row, every cell of `[x1, x2) x [y1, y2)` is
      set to `obj`. An inverted rectangle is left as it is. */
  method Fill<T>(m: Map<T>, obj: T) returns (r: Map<T>)
    requires m.Valid()
    ensures r.Valid() && r.area == m.area
    ensures forall p | m.area.Contains(p) :: At(r, p) == Ok(obj)
    ensures !m.area.Ordered() ==> r == m
  {
    var a := m.area;
    r := m;
    var y := a.y1;
    while y < a.y2
      invariant r.Valid() && r.area == a
      invariant a.y1 <= y <= Max(a.y1, a.y2)
      invariant forall p | a.Contains(p) :: At(r, p) == if p.y < y then Ok(obj) else At(m, p)
      invariant !a.Ordered() ==> r == m
    {
      r := FillRow(r, y, obj);
      y := y + 1;
    }
  }

  /** The inner loop of `fill`: the cells of row `y`, left to right. */
  method FillRow<T>(m: Map<T>, y: int, obj: T) returns (r: Map<T>)
    requires m.Valid() && m.area.y1 <= y < m.area.y2
    ensures r.Valid() && r.area == m.area
    ensures forall p | m.area.Contains(p) :: At(r, p) == if p.y == y then Ok(obj) else At(m, p)
    ensures m.area.x2 < m.area.x1 ==> r == m
  {
    var a := m.area;
    r := m;
    var x := a.x1;
    while x < a.x2
      invariant r.Valid() && r.area == a
      invariant a.x1 <= x <= Max(a.x1, a.x2)
      invariant forall p | a.Contains(p) :: At(r, p) == if p.y == y && p.x < x then Ok(obj) else At(m, p)
      invariant a.x2 < a.x1 ==> r == m
    {
      r := Set(r, Point(x, y), obj).value;
      x := x + 1;
    }
  }

  /** `IMap::fill(fill_func)`: the generator is called once per cell in
      row-major order, so the cell at index `k` holds the `k`-th result. */
  function FillFrom<T>(m: Map<T>, gen: nat -> T): (r: Map<T>)
    requires m.Valid()
    ensures r.Valid() && r.area == m.area
    ensures forall p | m.area.Contains(p) :: At(r, p) == Ok(gen(Index(m.area, p).value))
  {
    Map(m.area, Overwrite(m.area, m.cells, p requires m.area.Contains(p) => gen(Index(m.area, p).value)))
  }

  // ---------------------------------------------------------------------
  // IMap::Iterator

  /** `begin()`, as written: the point `(x1, x1)`. */
  function Begin(a: Rect): Point { a.First() }

  /** `end()`: the first column one row past the last. */
  function End(a: Rect): Point { Point(a.x1, a.y2) }

  /** `Iterator::operator++`: step right, and from the last column back to
      `x1` one row down. The column is `(x - x1 + 1) % width()` with an
      unsigned width. */
  function Next(a: Rect, p: Point): (r: Point)
    requires a.Width() > 0
    ensures a.Contains(p) && p.x < a.x2 - 1 && a.Width() < SIZE_MODULUS ==> r == Point(p.x + 1, p.y)
    ensures a.Contains(p) && p.x == a.x2 - 1 && a.Width() < SIZE_MODULUS ==> r == Point(a.x1, p.y + 1)
  {
    var k := p.x - a.x1 + 1;
    var r := Point(ToSize(k) % a.Width() + a.x1, p.y + (if p.x == a.x2 - 1 then 1 else 0));
    if a.Contains(p) && a.Width() < SIZE_MODULUS then
      assert a.Width() == a.x2 - a.x1 && ToSize(k) == k;
      ModInPeriod(k, a.Width());
      r
    else r
  }

  /** `begin()` is the first cell only when `x1 == y1`. */
  lemma BeginAsWritten(a: Rect)
    ensures Begin(a) == Point(a.x1, a.y1) <==> a.x1 == a.y1
  {
  }

  /** The point reached after `n` increments from `(x1, y1)`. */
  function Walk(a: Rect, n: nat): Point
    requires a.Width() > 0
  {
    if n == 0 then Point(a.x1, a.y1) else Next(a, Walk(a, n - 1))
  }

  /** One increment from the `k`-th cell reaches the next cell, or `end()`
      from the last. */
  lemma NextIsRowMajor(a: Rect, k: nat)
    requires a.Valid() && a.Width() < SIZE_MODULUS && k < a.Size()
    ensures Next(a, RowMajor.PointAt(a.Box(), k)) ==
      if k + 1 < a.Size() then RowMajor.PointAt(a.Box(), k + 1) else End(a)
  {
    var b, w, h := a.Box(), a.Width(), a.Height();
    var p := RowMajor.PointAt(b, k);
    RowMajor.OffsetOfPointAt(b, k);
    BoxMatches(a, p);
    var n := Next(a, p);
    if p.x < a.x2 - 1 {
      assert RowMajor.Offset(b, n) == k + 1;
      RowMajor.PointAtOfOffset(b, n);
    } else if p.y < a.y2 - 1 {
      assert (p.y + 1 - a.y1) * w == (p.y - a.y1) * w + w;
      assert RowMajor.Offset(b, n) == k + 1;
      RowMajor.PointAtOfOffset(b, n);
    } else {
      assert (h - 1) * w == w * h - w;
      assert k + 1 == a.Size();
    }
  }

  /** From the first cell, the `n`-th increment reaches the `n`-th cell in
      row-major order, and increment `area()` reaches `end()`. */
  lemma {:induction false} WalkIsRowMajor(a: Rect, n: nat)
    requires a.Valid() && a.Width() < SIZE_MODULUS && n <= a.Size()
    ensures n < a.Size() ==> Walk(a, n) == RowMajor.PointAt(a.Box(), n)
    ensures n == a.Size() ==> Walk(a, n) == End(a)
  {
    if n == 0 {
      assert RowMajor.PointAt(a.Box(), 0) == Point(a.x1, a.y1);
    } else {
      WalkIsRowMajor(a, n - 1);
      NextIsRowMajor(a, n - 1);
    }
  }

  // ---------------------------------------------------------------------
  // HMapRef

  /** `HMapRef<T>`: a view over a rectangle of a source map, which every
      operation takes explicitly. */
  datatype MapRef = MapRef(area: Rect)

  /** `HMapRef::at` forwards to the source without consulting the view. */
  function RefAt<T>(src: Map<T>, view: MapRef, p: Point): (r: Result<T>)
    requires src.Valid()
    ensures r.Ok? <==> src.area.Contains(p)
  {
    At(src, p)
  }

  /** `HMapRef::set` forwards in the same way. */
  function RefSet<T>(src: Map<T>, view: MapRef, p: Point, v: T): (r: Result<Map<T>>)
    requires src.Valid()
    ensures r.Ok? <==> src.area.Contains(p)
    ensures r.Ok? ==> r.value.Valid() && r.value.area == src.area && At(r.value, p) == Ok(v)
    ensures r.Ok? ==> forall q | q != p :: At(r.value, q) == At(src, q)
  {
    Set(src, p, v)
  }

  lemma RefAtIgnoresView<T>(src: Map<T>, v: MapRef, w: MapRef, p: Point)
    requires src.Valid()
    ensures RefAt(src, v, p) == RefAt(src, w, p) == At(src, p)
  {
  }

  /** `GetReferenceArea(area, map)`: a view of the part of `area` inside the
      map. */
  function GetReferenceArea<T>(area: Rect, src: Map<T>): (v: MapRef)
    ensures forall p :: v.area.Contains(p) <==> area.Contains(p) && src.area.Contains(p)
  {
    MapRef(Intersect(area, src.area))
  }

  /** Every cell of `inner` is a cell of `outer`, decided on the bounds. */
  predicate Within(inner: Rect, outer: Rect) {
    !inner.Valid() ||
    (outer.x1 <= inner.x1 && inner.x2 <= outer.x2 && outer.y1 <= inner.y1 && inner.y2 <= outer.y2)
  }

  lemma WithinMeansCells(inner: Rect, outer: Rect)
    ensures Within(inner, outer) <==> forall p | inner.Contains(p) :: outer.Contains(p)
  {
    if !Within(inner, outer) {
      var c := if outer.Contains(Point(inner.x1, inner.y1)) then Point(inner.x2 - 1, inner.y2 - 1) else Point(inner.x1, inner.y1);
      assert inner.Contains(c) && !outer.Contains(c);
    }
  }

  /** `IMap::fill(obj)` through a view: the view's cells of the source are
      set and no other cell changes; a view cell outside the source throws. */
  function RefFill<T>(src: Map<T>, view: MapRef, obj: T): (r: Result<Map<T>>)
    requires src.Valid()
    ensures r.Ok? <==> forall p | view.area.Contains(p) :: src.area.Contains(p)
    ensures r.Ok? ==> r.value.Valid() && r.value.area == src.area
    ensures r.Ok? ==> forall p | src.area.Contains(p) ::
      At(r.value, p) == if view.area.Contains(p) then Ok(obj) else At(src, p)
  {
    WithinMeansCells(view.area, src.area);
    if Within(view.area, src.area) then
      var f := p requires src.area.Contains(p) => if view.area.Contains(p) then obj else At(src, p).value;
      var r := Map(src.area, Overwrite(src.area, src.cells, f));
      ReadsAs(r, f);
      Ok(r)
    else Err(OutOfRange)
  }

  /** Filling through `GetReferenceArea(area, map)` never throws and changes
      exactly the map's cells inside `area`. */
  lemma FillThroughReference<T>(src: Map<T>, area: Rect, obj: T)
    requires src.Valid()
    ensures RefFill(src, GetReferenceArea(area, src), obj).Ok?
    ensures forall p | src.area.Contains(p) ::
      At(RefFill(src, GetReferenceArea(area, src), obj).value, p) == if area.Contains(p) then Ok(obj) else At(src, p)
  {
  }

  /** `HMapRef::resize`: the request is intersected with the view and the
      result reordered. */
  function RefResize(view: MapRef, xa: int, ya: int, xb: int, yb: int): (r: MapRef)
    ensures r.area.Ordered()
  {
    var i := Intersect(view.area, Rect(xa, ya, xb, yb));
    MapRef(PointArea.Resize(i.x1, i.y1, i.x2, i.y2))
  }

  /** When the request meets the view in an ordered rectangle, the view can
      only shrink, to the common cells. */
  lemma RefResizeShrinks(view: MapRef, xa: int, ya: int, xb: int, yb: int)
    requires Intersect(view.area, Rect(xa, ya, xb, yb)).Ordered()
    ensures forall p :: RefResize(view, xa, ya, xb, yb).area.Contains(p) <==>
      view.area.Contains(p) && Rect(xa, ya, xb, yb).Contains(p)
  {
    ResizeOrderedIdentity(Intersect(view.area, Rect(xa, ya, xb, yb)));
  }

  /** A request beside the view reorders the inverted intersection into the
      gap between them, so the view takes in cells it did not have. */
  lemma RefResizeMissGrows()
    ensures RefResize(MapRef(Rect(0, 0, 2, 2)), 5, 5, 7, 7).area == Rect(2, 2, 5, 5)
    ensures !Rect(0, 0, 2, 2).Contains(Point(3, 3)) && Rect(2, 2, 5, 5).Contains(Point(3, 3))
  {
  }

  // ---------------------------------------------------------------------
  // HMap

  /** `HMap(rect, obj)`, and `HMap(w, h, obj)` with `Sized(w, h)`: every one
      of the `area()` cells holds `obj`. */
  function Filled<T>(a: Rect, obj: T): (m: Map<T>)
    ensures m.Valid() && m.area == a
    ensures forall p | a.Contains(p) :: At(m, p) == Ok(obj)
    ensures forall i | 0 <= i < |m.cells| :: m.cells[i] == obj
  {
    Map(a, seq(a.Size(), _ => obj))
  }

  /** `HMap::resize(xa, ya, xb, yb, fill_obj)`. The block is allocated and
      filled for the rectangle as given, then the corners are reordered. For
      an inverted request with a non-zero area, no cell of the block is
      written, so its contents are indeterminate. Otherwise a point of both
      rectangles keeps its value and a new point holds `fill_obj`. */
  function Resize<T>(m: Map<T>, xa: int, ya: int, xb: int, yb: int, fill: T): (r: Result<Map<T>>)
    requires m.Valid()
    ensures r.Ok? <==> (xa <= xb && ya <= yb) || Rect(xa, ya, xb, yb).Size() == 0
    ensures r.Ok? ==> r.value.Valid() && r.value.area == PointArea.Resize(xa, ya, xb, yb)
    ensures r.Ok? ==> forall p | r.value.area.Contains(p) ::
      At(r.value, p) == if m.area.Contains(p) then At(m, p) else Ok(fill)
  {
    var a := PointArea.Resize(xa, ya, xb, yb);
    if (xa <= xb && ya <= yb) || Rect(xa, ya, xb, yb).Size() == 0 then
      var f := p => if m.area.Contains(p) then At(m, p).value else fill;
      var r := Map(a, Overwrite(a, seq(a.Size(), _ => fill), f));
      ReadsAs(r, f);
      Ok(r)
    else Err(Indeterminate)
  }

  /** Resizing an ordered map to its own corners gives it back. */
  lemma ResizeToSelf<T>(m: Map<T>, fill: T)
    requires m.Valid() && m.area.Ordered()
    ensures Resize(m, m.area.x1, m.area.y1, m.area.x2, m.area.y2, fill) == Ok(m)
  {
    ResizeOrderedIdentity(m.area);
    ReadsAlike(Resize(m, m.area.x1, m.area.y1, m.area.x2, m.area.y2, fill).value, m);
  }

  /** `copy(map)` and the copy constructor: a fresh map over the same
      rectangle holding the same values. */
  function Copy<T>(m: Map<T>): (r: Map<T>)
    requires m.Valid()
    ensures r.Valid() && r.area == m.area
    ensures forall p | m.area.Contains(p) :: At(r, p) == At(m, p)
  {
    var f := p requires m.area.Contains(p) => At(m, p).value;
    var r := Map(m.area, Overwrite(m.area, m.cells, f));
    ReadsAs(r, f);
    r
  }

  /** `HMap::operator=`: the target takes all `area()` cells of `other` in
      storage order and then `resize`s itself to `other`'s corners, so it
      ends ordered even when `other` is inverted, and then addresses cells
      `other` could not. */
  function Assign<T>(other: Map<T>): (r: Map<T>)
    requires other.Valid()
    ensures r.Valid() && r.area == Sorted(other.area) && r.area.Ordered()
    ensures forall p | other.area.Contains(p) :: At(r, p) == At(other, p)
    ensures other.area.Ordered() ==> r == other
  {
    Map(Sorted(other.area), other.cells)
  }

  /** Assigning a map over the inverted `point_area(0, 4, 4, 0)`, which
      holds no point, gives a map over `(0, 0, 4, 4)` whose sixteen cells
      are all addressable. */
  lemma AssignInverted<T>(cells: seq<T>)
    requires |cells| == 16
    ensures Map(Rect(0, 4, 4, 0), cells).Valid()
    ensures forall p :: !Rect(0, 4, 4, 0).Contains(p)
    ensures Assign(Map(Rect(0, 4, 4, 0), cells)).area == Rect(0, 0, 4, 4)
    ensures At(Assign(Map(Rect(0, 4, 4, 0), cells)), Point(0, 0)) == Ok(cells[0])
  {
  }

  /** The copy of an ordered map is the map itself. */
  lemma CopyIsIdentity<T>(m: Map<T>)
    requires m.Valid() && m.area.Ordered()
    ensures Copy(m) == m
  {
    ReadsAlike(Copy(m), m);
  }

  // ---------------------------------------------------------------------
  // Boolean operators

  function Conjunction(x: bool, y: bool): bool { x && y }

  function Disjunction(x: bool, y: bool): bool { x || y }

  /** The shared shape of `&`, `|` and `^`: a fresh map over
      `intersect(a, b)` whose cells are `op` of the inputs' cells. The
      intersection holds only common cells, so no read throws. */
  function Combine(a: Map<bool>, b: Map<bool>, op: (bool, bool) -> bool): (r: Map<bool>)
    requires a.Valid() && b.Valid()
    ensures r.Valid() && r.area == Intersect(a.area, b.area)
    ensures forall p | r.area.Contains(p) ::
      a.area.Contains(p) && b.area.Contains(p) && At(r, p) == Ok(op(At(a, p).value, At(b, p).value))
  {
    var area := Intersect(a.area, b.area);
    var f := p requires area.Contains(p) => op(At(a, p).value, At(b, p).value);
    var r := Map(area, Overwrite(area, seq(area.Size(), _ => false), f));
    ReadsAs(r, f);
    r
  }

  /** `operator &`. */
  function And(a: Map<bool>, b: Map<bool>): (r: Map<bool>)
    requires a.Valid() && b.Valid()
    ensures r.Valid() && r.area == Intersect(a.area, b.area)
    ensures forall p | r.area.Contains(p) :: At(r, p) == Ok(At(a, p).value && At(b, p).value)
  {
    Combine(a, b, Conjunction)
  }

  /** `operator |`. */
  function Or(a: Map<bool>, b: Map<bool>): (r: Map<bool>)
    requires a.Valid() && b.Valid()
    ensures r.Valid() && r.area == Intersect(a.area, b.area)
    ensures forall p | r.area.Contains(p) :: At(r, p) == Ok(At(a, p).value || At(b, p).value)
  {
    Combine(a, b, Disjunction)
  }

  /** `operator ^` as written: its loop sets `a.at(x, y) && b.at(x, y)`. */
  function Xor(a: Map<bool>, b: Map<bool>): (r: Map<bool>)
    requires a.Valid() && b.Valid()
    ensures r.Valid() && r.area == Intersect(a.area, b.area)
    ensures forall p | r.area.Contains(p) :: At(r, p) == Ok(At(a, p).value && At(b, p).value)
  {
    Combine(a, b, Conjunction)
  }

  /** `operator ~`: a map over `a`'s own rectangle, every cell negated. */
  function Not(a: Map<bool>): (r: Map<bool>)
    requires a.Valid()
    ensures r.Valid() && r.area == a.area
    ensures forall p | a.area.Contains(p) :: At(r, p) == Ok(!At(a, p).value)
  {
    var f := p requires a.area.Contains(p) => !At(a, p).value;
    var r := Map(a.area, Overwrite(a.area, seq(a.area.Size(), _ => false), f));
    ReadsAs(r, f);
    r
  }

  /** `~` twice reads as the original map. */
  lemma NotInvolution(a: Map<bool>)
    requires a.Valid()
    ensures forall p | a.area.Contains(p) :: At(Not(Not(a)), p) == At(a, p)
  {
  }

  /** `^` of a map with itself reads as the map, where exclusive or would
      read false everywhere. */
  lemma XorWithSelf(a: Map<bool>)
    requires a.Valid()
    ensures Xor(a, a).area == a.area
    ensures forall p | a.area.Contains(p) :: At(Xor(a, a), p) == At(a, p)
  {
    assert Intersect(a.area, a.area) == a.area;
  }

  function Difference(x: bool, y: bool): bool { x != y }

  /** The exclusive or that `operator ^` is documented to compute. */
  function ExclusiveOr(a: Map<bool>, b: Map<bool>): (r: Map<bool>)
    requires a.Valid() && b.Valid()
    ensures r.Valid() && r.area == Intersect(a.area, b.area)
    ensures forall p | r.area.Contains(p) ::
      At(r, p) == Ok(At(Or(a, b), p).value && !At(And(a, b), p).value)
  {
    Combine(a, b, Difference)
  }

  /** Exclusive or clears a map combined with itself, and is symmetric. */
  lemma ExclusiveOrProperties(a: Map<bool>, b: Map<bool>)
    requires a.Valid() && b.Valid()
    ensures ExclusiveOr(a, a).area == a.area
    ensures forall p | a.area.Contains(p) :: At(ExclusiveOr(a, a), p) == Ok(false)
    ensures ExclusiveOr(a, b).area == ExclusiveOr(b, a).area
    ensures forall p | ExclusiveOr(a, b).area.Contains(p) :: At(ExclusiveOr(a, b), p) == At(ExclusiveOr(b, a), p)
  {
    assert Intersect(a.area, a.area) == a.area;
    IntersectSymmetric(a.area, b.area);
  }
}

=== FILE: htl_flip.dfy ===
/** The in-place reflections of `IMap` in `include/htl/containers.h`:
    `flipX`, `flipY` and `reverse`, each a double loop of `swap` calls. A
    swap of a point outside the rectangle throws, which happens exactly when
    the loops run over an inverted rectangle. */
module HtlFlip {
  import opened Common
  import opened PointArea
  import opened HtlContainers

  /** The cell opposite `p` across the vertical centre line. */
  function MirrorX(a: Rect, p: Point): Point { Point(a.x1 + a.x2 - 1 - p.x, p.y) }

  /** The cell opposite `p` across the horizontal centre line. */
  function MirrorY(a: Rect, p: Point): Point { Point(p.x, a.y1 + a.y2 - 1 - p.y) }

  /** The cell opposite `p` through the centre. */
  function Opposite(a: Rect, p: Point): Point { MirrorX(a, MirrorY(a, p)) }

  /** Each mirror maps the rectangle onto itself and undoes itself. */
  lemma MirrorsInvolutions(a: Rect, p: Point)
    ensures MirrorX(a, MirrorX(a, p)) == p && MirrorY(a, MirrorY(a, p)) == p
    ensures Opposite(a, Opposite(a, p)) == p
    ensures a.Contains(p) ==> a.Contains(MirrorX(a, p)) && a.Contains(MirrorY(a, p)) && a.Contains(Opposite(a, p))
  {
  }

  // ---------------------------------------------------------------------
  // flipX

  /** `flipX()`: on every row, the cell `k` from the left takes the value of
      the cell `k` from the right. */
  method FlipX<T>(m: Map<T>) returns (r: Result<Map<T>>)
    requires m.Valid()
    ensures r.Ok? <==> !(m.area.y1 < m.area.y2 && m.area.Width() / 2 > 0 && m.area.x2 < m.area.x1)
    ensures r.Ok? ==> r.value.Valid() && r.value.area == m.area
    ensures r.Ok? ==> forall p {:trigger At(r.value, p)} | m.area.Contains(p) :: At(r.value, p) == At(m, MirrorX(m.area, p))
  {
    var a := m.area;
    var cur := m;
    var y := a.y1;
    while y < a.y2
      invariant cur.Valid() && cur.area == a
      invariant a.y1 <= y <= Max(a.y1, a.y2)
      invariant a.Width() / 2 > 0 && a.x2 < a.x1 ==> y == a.y1
      invariant forall p {:trigger At(cur, p)} | a.Contains(p) :: At(cur, p) == if p.y < y then At(m, MirrorX(a, p)) else At(m, p)
    {
      var row := FlipRowX(cur, y);
      if row.Err? {
        return row;
      }
      assert forall p | a.Contains(p) && p.y == y :: a.Contains(MirrorX(a, p));
      cur := row.value;
      y := y + 1;
    }
    return Ok(cur);
  }

  /** The inner loop of `flipX` on row `y`. */
  method FlipRowX<T>(m: Map<T>, y: int) returns (r: Result<Map<T>>)
    requires m.Valid() && m.area.y1 <= y < m.area.y2
    ensures r.Ok? <==> !(m.area.Width() / 2 > 0 && m.area.x2 < m.area.x1)
    ensures r.Ok? ==> r.value.Valid() && r.value.area == m.area
    ensures r.Ok? ==> forall p {:trigger At(r.value, p)} | m.area.Contains(p) ::
      At(r.value, p) == if p.y == y then At(m, MirrorX(m.area, p)) else At(m, p)
  {
    var a := m.area;
    var w := a.Width();
    var cur := m;
    var x := 0;
    while x < w / 2
      invariant cur.Valid() && cur.area == a
      invariant 0 <= x <= w / 2
      invariant a.x2 < a.x1 ==> x == 0
      invariant forall p {:trigger At(cur, p)} | a.Contains(p) ::
        At(cur, p) == (if p.y == y && (p.x - a.x1 < x || a.x2 - 1 - p.x < x) then At(m, MirrorX(a, p)) else At(m, p))
    {
      var left, right := Point(a.x1 + x, y), Point(a.x2 - x - 1, y);
      var s := Swap(cur, left, right);
      if s.Err? {
        return s;
      }
      assert left.x < right.x && MirrorX(a, left) == right && MirrorX(a, right) == left;
      forall p | a.Contains(p) ensures At(s.value, p) ==
        if p.y == y && (p.x - a.x1 < x + 1 || a.x2 - 1 - p.x < x + 1) then At(m, MirrorX(a, p)) else At(m, p)
      {
        if p != left && p != right {
          assert At(s.value, p) == At(cur, p);
        }
      }
      cur := s.value;
      x := x + 1;
    }
    forall p | a.Contains(p) && p.y == y ensures At(cur, p) == At(m, MirrorX(a, p)) {
      if !(p.x - a.x1 < x || a.x2 - 1 - p.x < x) {
        assert MirrorX(a, p) == p;
      }
    }
    return Ok(cur);
  }

  /** Flipping twice gives back the map. */
  method FlipXTwice<T>(m: Map<T>) returns (r: Result<Map<T>>)
    requires m.Valid() && m.area.Ordered()
    ensures r == Ok(m)
  {
    var once := FlipX(m);
    r := FlipX(once.value);
    forall p | m.area.Contains(p) ensures At(r.value, p) == At(m, p) {
      MirrorsInvolutions(m.area, p);
    }
    ReadsAlike(r.value, m);
  }

  // ---------------------------------------------------------------------
  // flipY

  /** `flipY()`: on every column, the cell `k` from the top takes the value of
      the cell `k` from the bottom. */
  method FlipY<T>(m: Map<T>) returns (r: Result<Map<T>>)
    requires m.Valid()
    ensures r.Ok? <==> !(m.area.x1 < m.area.x2 && m.area.Height() / 2 > 0 && m.area.y2 < m.area.y1)
    ensures r.Ok? ==> r.value.Valid() && r.value.area == m.area
    ensures r.Ok? ==> forall p {:trigger At(r.value, p)} | m.area.Contains(p) :: At(r.value, p) == At(m, MirrorY(m.area, p))
  {
    var a := m.area;
    var cur := m;
    var x := a.x1;
    while x < a.x2
      invariant cur.Valid() && cur.area == a
      invariant a.x1 <= x <= Max(a.x1, a.x2)
      invariant a.Height() / 2 > 0 && a.y2 < a.y1 ==> x == a.x1
      invariant forall p {:trigger At(cur, p)} | a.Contains(p) :: At(cur, p) == if p.x < x then At(m, MirrorY(a, p)) else At(m, p)
    {
      var col := FlipColumnY(cur, x);
      if col.Err? {
        return col;
      }
      assert forall p | a.Contains(p) && p.x == x :: a.Contains(MirrorY(a, p));
      cur := col.value;
      x := x + 1;
    }
    return Ok(cur);
  }

  /** The inner loop of `flipY` on column `x`. */
  method FlipColumnY<T>(m: Map<T>, x: int) returns (r: Result<Map<T>>)
    requires m.Valid() && m.area.x1 <= x < m.area.x2
    ensures r.Ok? <==> !(m.area.Height() / 2 > 0 && m.area.y2 < m.area.y1)
    ensures r.Ok? ==> r.value.Valid() && r.value.area == m.area
    ensures r.Ok? ==> forall p {:trigger At(r.value, p)} | m.area.Contains(p) ::
      At(r.value, p) == if p.x == x then At(m, MirrorY(m.area, p)) else At(m, p)
  {
    var a := m.area;
    var h := a.Height();
    var cur := m;
    var y := 0;
    while y < h / 2
      invariant cur.Valid() && cur.area == a
      invariant 0 <= y <= h / 2
      invariant a.y2 < a.y1 ==> y == 0
      invariant forall p {:trigger At(cur, p)} | a.Contains(p) ::
        At(cur, p) == (if p.x == x && (p.y - a.y1 < y || a.y2 - 1 - p.y < y) then At(m, MirrorY(a, p)) else At(m, p))
    {
      var top, bottom := Point(x, a.y1 + y), Point(x, a.y2 - y - 1);
      var s := Swap(cur, top, bottom);
      if s.Err? {
        return s;
      }
      assert top.y < bottom.y && MirrorY(a, top) == bottom && MirrorY(a, bottom) == top;
      forall p | a.Contains(p) ensures At(s.value, p) ==
        if p.x == x && (p.y - a.y1 < y + 1 || a.y2 - 1 - p.y < y + 1) then At(m, MirrorY(a, p)) else At(m, p)
      {
        if p != top && p != bottom {
          assert At(s.value, p) == At(cur, p);
        }
      }
      cur := s.value;
      y := y + 1;
    }
    forall p | a.Contains(p) && p.x == x ensures At(cur, p) == At(m, MirrorY(a, p)) {
      if !(p.y - a.y1 < y || a.y2 - 1 - p.y < y) {
        assert MirrorY(a, p) == p;
      }
    }
    return Ok(cur);
  }

  /** Flipping twice gives back the map. */
  method FlipYTwice<T>(m: Map<T>) returns (r: Result<Map<T>>)
    requires m.Valid() && m.area.Ordered()
    ensures r == Ok(m)
  {
    var once := FlipY(m);
    r := FlipY(once.value);
    forall p | m.area.Contains(p) ensures At(r.value, p) == At(m, p) {
      MirrorsInvolutions(m.area, p);
    }
    ReadsAlike(r.value, m);
  }

  // ---------------------------------------------------------------------
  // reverse

  /** `p`, or the cell opposite it, lies in row `j` of the upper-left
      quadrant that `reverse` walks: the first `height() / 2` rows and
      `width() / 2` columns. */
  predicate Paired(a: Rect, j: int, p: Point) {
    (p.y - a.y1 == j && p.x - a.x1 < a.Width() / 2) ||
    (a.y2 - 1 - p.y == j && a.x2 - 1 - p.x < a.Width() / 2)
  }

  /** `reverse()` as written: each cell of the upper-left quadrant is
      exchanged with its opposite in the lower-right one. The other two
      quadrants, and the middle row and column of an odd size, keep their
      values, so this is a half-turn only where they agree. */
  method Reverse<T>(m: Map<T>) returns (r: Result<Map<T>>)
    requires m.Valid()
    ensures r.Ok? <==> !(m.area.Height() / 2 > 0 && m.area.Width() / 2 > 0 && !m.area.Valid())
    ensures r.Ok? ==> r.value.Valid() && r.value.area == m.area
    ensures r.Ok? ==> forall p {:trigger At(r.value, p)} | m.area.Contains(p) ::
      At(r.value, p) == (if (p.y - m.area.y1 < m.area.Height() / 2 && p.x - m.area.x1 < m.area.Width() / 2) ||
         (m.area.y2 - 1 - p.y < m.area.Height() / 2 && m.area.x2 - 1 - p.x < m.area.Width() / 2)
      then At(m, Opposite(m.area, p)) else At(m, p))
  {
    var a := m.area;
    var h, w := a.Height(), a.Width();
    var cur := m;
    var y := 0;
    while y < h / 2
      invariant cur.Valid() && cur.area == a
      invariant 0 <= y <= h / 2
      invariant w / 2 > 0 && !a.Valid() ==> y == 0
      invariant forall p {:trigger At(cur, p)} | a.Contains(p) ::
        At(cur, p) == (if (p.y - a.y1 < y && p.x - a.x1 < w / 2) || (a.y2 - 1 - p.y < y && a.x2 - 1 - p.x < w / 2)
        then At(m, Opposite(a, p)) else At(m, p))
    {
      var row := ReverseRow(cur, y);
      if row.Err? {
        return row;
      }
      assert forall p | a.Contains(p) && Paired(a, y, p) :: a.Contains(Opposite(a, p)) && Paired(a, y, Opposite(a, p));
      cur := row.value;
      y := y + 1;
    }
    return Ok(cur);
  }

  /** The inner loop of `reverse` on quadrant row `j`. */
  method ReverseRow<T>(m: Map<T>, j: int) returns (r: Result<Map<T>>)
    requires m.Valid() && 0 <= j < m.area.Height() / 2
    ensures r.Ok? <==> !(m.area.Width() / 2 > 0 && !m.area.Valid())
    ensures r.Ok? ==> r.value.Valid() && r.value.area == m.area
    ensures r.Ok? ==> forall p {:trigger At(r.value, p)} | m.area.Contains(p) ::
      At(r.value, p) == if Paired(m.area, j, p) then At(m, Opposite(m.area, p)) else At(m, p)
  {
    var a := m.area;
    var w := a.Width();
    var cur := m;
    var x := 0;
    while x < w / 2
      invariant cur.Valid() && cur.area == a
      invariant 0 <= x <= w / 2
      invariant !a.Valid() ==> x == 0
      invariant forall p {:trigger At(cur, p)} | a.Contains(p) ::
        At(cur, p) == (if (p.y - a.y1 == j && p.x - a.x1 < x) || (a.y2 - 1 - p.y == j && a.x2 - 1 - p.x < x)
        then At(m, Opposite(a, p)) else At(m, p))
    {
      var near, far := Point(a.x1 + x, a.y1 + j), Point(a.x2 - x - 1, a.y2 - j - 1);
      var s := Swap(cur, near, far);
      if s.Err? {
        return s;
      }
      assert near.y < far.y && Opposite(a, near) == far && Opposite(a, far) == near;
      forall p | a.Contains(p) ensures At(s.value, p) ==
        if (p.y - a.y1 == j && p.x - a.x1 < x + 1) || (a.y2 - 1 - p.y == j && a.x2 - 1 - p.x < x + 1)
        then At(m, Opposite(a, p)) else At(m, p)
      {
        if p != near && p != far {
          assert At(s.value, p) == At(cur, p);
        }
      }
      cur := s.value;
      x := x + 1;
    }
    return Ok(cur);
  }

  /** On a valid map at least two cells each way, the upper-right corner
      keeps its value, where a half-turn would move the lower-left corner's
      value there. */
  method ReverseKeepsCorner<T>(m: Map<T>) returns (r: Result<Map<T>>)
    requires m.Valid() && m.area.Valid() && m.area.Width() >= 2 && m.area.Height() >= 2
    ensures r.Ok? && r.value.Valid() && At(r.value, Point(m.area.x2 - 1, m.area.y1)) == At(m, Point(m.area.x2 - 1, m.area.y1))
    ensures Opposite(m.area, Point(m.area.x2 - 1, m.area.y1)) == Point(m.area.x1, m.area.y2 - 1)
  {
    r := Reverse(m);
  }
}

=== FILE: htl_flood_fill.dfy ===
/** `floodFill` of `include/htl/utility.h`: the recursive fill that marks, in
    a boolean map, the cells connected to a seed through equal values of a
    region map. The result map is threaded through the recursion as a
    value; a call that throws returns `Err`. */
module HtlFloodFill {
  import opened Common
  import RowMajor
  import opened PointArea
  import opened HtlContainers

  // ---------------------------------------------------------------------
  // The steps and the scope of one fill

  /** The steps the loop tries: the first four entries of `h_neighborhood4`,
      or the first eight of `h_neighborhood8`. Neither includes `{0, 0}`. */
  function Directions(use8: bool): (dirs: seq<Point>)
    ensures |dirs| == if use8 then 8 else 4
    ensures forall i | 0 <= i < |dirs| :: dirs[i] == (if use8 then NEIGHBORHOOD8[i] else NEIGHBORHOOD4[i])
  {
    if use8 then NEIGHBORHOOD8[..8] else NEIGHBORHOOD4[..4]
  }

  /** The steps are exactly the king moves with `use8` and the rook moves of
      length one without it. */
  lemma DirectionsAreSteps(use8: bool, d: Point)
    ensures d in Directions(use8) <==>
      d != Point(0, 0) && if use8 then -1 <= d.x <= 1 && -1 <= d.y <= 1 else Abs(d.x) + Abs(d.y) == 1
  {
    NeighborhoodsComplete(d);
    assert NEIGHBORHOOD8 == Directions(true) + [Point(0, 0)];
    assert NEIGHBORHOOD4 == Directions(false) + [Point(0, 0)];
  }

  /** What stays fixed through a fill and its recursive calls: the region
      map, the rectangle `intersect(region, result)` the loop tests, the
      steps and the `edge` flag. */
  datatype Scope<T> = Scope(region: Map<T>, area: Rect, dirs: seq<Point>, edge: bool) {
    predicate Valid() { region.Valid() }
  }

  function ScopeOf<T>(region: Map<T>, resultArea: Rect, edge: bool, use8: bool): (sc: Scope<T>)
    ensures forall p :: sc.area.Contains(p) <==> region.area.Contains(p) && resultArea.Contains(p)
  {
    Scope(region, Intersect(region.area, resultArea), Directions(use8), edge)
  }

  // ---------------------------------------------------------------------
  // Components

  /** A path of steps inside the area along which the region holds the value
      of its first point. */
  predicate IsPath<T(==)>(sc: Scope<T>, path: seq<Point>)
    requires sc.Valid()
  {
    && |path| > 0
    && (forall k | 0 <= k < |path| :: sc.area.Contains(path[k]) && At(sc.region, path[k]) == At(sc.region, path[0]))
    && (forall k | 0 <= k < |path| - 1 :: Sub(path[k + 1], path[k]) in sc.dirs)
  }

  /** `b` lies in the equal-valued component of `a`. */
  ghost predicate Connected<T>(sc: Scope<T>, a: Point, b: Point)
    requires sc.Valid()
  {
    exists path :: IsPath(sc, path) && path[0] == a && path[|path| - 1] == b
  }

  /** `p` is a step away from the component of `a` and holds another value:
      what `edge` adds to the fill. */
  ghost predicate Fringe<T>(sc: Scope<T>, a: Point, p: Point)
    requires sc.Valid()
  {
    sc.area.Contains(p) && At(sc.region, p) != At(sc.region, a) &&
    exists q :: Connected(sc, a, q) && Sub(p, q) in sc.dirs
  }

  lemma ConnectedSelf<T>(sc: Scope<T>, a: Point)
    requires sc.Valid() && sc.area.Contains(a)
    ensures Connected(sc, a, a)
  {
    assert IsPath(sc, [a]);
  }

  /** A component reached through an equal-valued neighbour is part of the
      component of the starting point. */
  lemma ConnectedExtend<T>(sc: Scope<T>, first: Point, pos: Point, p: Point)
    requires sc.Valid() && sc.area.Contains(first) && Sub(pos, first) in sc.dirs
    requires At(sc.region, pos) == At(sc.region, first)
    requires Connected(sc, pos, p)
    ensures Connected(sc, first, p)
  {
    var path :| IsPath(sc, path) && path[0] == pos && path[|path| - 1] == p;
    var longer := [first] + path;
    assert forall k | 0 < k < |longer| :: longer[k] == path[k - 1];
    assert IsPath(sc, longer);
  }

  lemma FringeExtend<T>(sc: Scope<T>, first: Point, pos: Point, p: Point)
    requires sc.Valid() && sc.area.Contains(first) && Sub(pos, first) in sc.dirs
    requires At(sc.region, pos) == At(sc.region, first)
    requires Fringe(sc, pos, p)
    ensures Fringe(sc, first, p)
  {
    var q :| Connected(sc, pos, q) && Sub(p, q) in sc.dirs;
    ConnectedExtend(sc, first, pos, q);
  }

  // ---------------------------------------------------------------------
  // Marks

  /** Every mark of `a` is still set in `b`. */
  ghost predicate Grows(a: Map<bool>, b: Map<bool>) {
    a.Valid() && b.Valid() && a.area == b.area &&
    forall p {:trigger At(b, p)} | a.area.Contains(p) :: At(a, p) == Ok(true) ==> At(b, p) == Ok(true)
  }

  lemma GrowsTransitive(a: Map<bool>, b: Map<bool>, c: Map<bool>)
    requires Grows(a, b) && Grows(b, c)
    ensures Grows(a, c)
  {
    forall p | a.area.Contains(p) && At(a, p) == Ok(true) ensures At(c, p) == Ok(true) {
      assert At(b, p) == Ok(true);
    }
  }

  /** `p` was clear in `a` and is marked in `b`. */
  predicate Newly(a: Map<bool>, b: Map<bool>, p: Point)
    requires a.Valid() && b.Valid()
  {
    At(a, p) == Ok(false) && At(b, p) == Ok(true)
  }

  lemma MarkIsBool(m: Map<bool>, p: Point)
    requires m.Valid() && m.area.Contains(p)
    ensures At(m, p) == Ok(true) || At(m, p) == Ok(false)
  {
    var v := At(m, p).value;
    assert At(m, p) == Ok(v);
  }

  /** No cell of the map is marked. */
  ghost predicate Blank(m: Map<bool>)
    requires m.Valid()
  {
    forall p | m.area.Contains(p) :: At(m, p) == Ok(false)
  }

  /** The number of `false` entries. */
  function FalseCount(s: seq<bool>): (n: nat)
    ensures n <= |s|
  {
    if |s| == 0 then 0 else (if s[0] then 0 else 1) + FalseCount(s[1..])
  }

  /** Setting entries never adds a `false`, and setting a `false` one
      removes one. */
  lemma {:induction false} FalseCountMonotone(s: seq<bool>, t: seq<bool>)
    requires |s| == |t| && forall i | 0 <= i < |s| :: s[i] ==> t[i]
    ensures FalseCount(t) <= FalseCount(s)
    ensures (exists i | 0 <= i < |s| :: !s[i] && t[i]) ==> FalseCount(t) < FalseCount(s)
  {
    if |s| > 0 {
      FalseCountMonotone(s[1..], t[1..]);
      if exists i | 0 <= i < |s| :: !s[i] && t[i] {
        var i :| 0 <= i < |s| && !s[i] && t[i];
        if i > 0 {
          assert !s[1..][i - 1] && t[1..][i - 1];
        }
      }
    }
  }

  /** The unmarked cells a fill can still visit; an inverted rectangle has
      none it can address. */
  function Unmarked(m: Map<bool>): nat {
    if m.area.Ordered() then FalseCount(m.cells) else 0
  }

  /** Growing never adds unmarked cells, and marking a clear cell removes
      one: the measure the recursion decreases. */
  lemma UnmarkedShrinks(a: Map<bool>, b: Map<bool>, p: Point)
    requires Grows(a, b)
    ensures Unmarked(b) <= Unmarked(a)
    ensures Newly(a, b, p) ==> Unmarked(b) < Unmarked(a)
  {
    if a.area.Ordered() {
      var box := a.area.Box();
      forall i | 0 <= i < |a.cells| && a.cells[i] ensures b.cells[i] {
        var q := RowMajor.PointAt(box, i);
        BoxMatches(a.area, q);
        RowMajor.OffsetOfPointAt(box, i);
        assert At(a, q) == Ok(true);
        assert At(b, q) == Ok(true);
      }
      if Newly(a, b, p) {
        BoxMatches(a.area, p);
        var i := Index(a.area, p).value;
        assert !a.cells[i] && b.cells[i];
      }
      FalseCountMonotone(a.cells, b.cells);
    }
  }

  // ---------------------------------------------------------------------
  // What a call leaves behind

  /** The loop's test for one neighbour `x` of `q` has been passed: `x` is
      outside the area, marked, or (without `edge`) of another value. */
  predicate Handled<T(==)>(sc: Scope<T>, out: Map<bool>, q: Point, x: Point)
    requires sc.Valid() && out.Valid()
  {
    sc.area.Contains(x) ==> At(out, x) == Ok(true) || (!sc.edge && At(sc.region, x) != At(sc.region, q))
  }

  /** Every neighbour of `q` has been handled. */
  predicate Closed<T(==)>(sc: Scope<T>, out: Map<bool>, q: Point)
    requires sc.Valid() && out.Valid()
  {
    forall i | 0 <= i < |sc.dirs| :: Handled(sc, out, q, Add(q, sc.dirs[i]))
  }

  lemma HandledGrows<T>(sc: Scope<T>, a: Map<bool>, b: Map<bool>, q: Point, x: Point)
    requires sc.Valid() && Grows(a, b) && Handled(sc, a, q, x)
    ensures Handled(sc, b, q, x)
  {
    if sc.area.Contains(x) && At(a, x) == Ok(true) {
      assert a.area.Contains(x);
    }
  }

  lemma ClosedGrows<T>(sc: Scope<T>, a: Map<bool>, b: Map<bool>, q: Point)
    requires sc.Valid() && Grows(a, b) && Closed(sc, a, q)
    ensures Closed(sc, b, q)
  {
    forall i | 0 <= i < |sc.dirs| ensures Handled(sc, b, q, Add(q, sc.dirs[i])) {
      HandledGrows(sc, a, b, q, Add(q, sc.dirs[i]));
    }
  }

  /** Every cell newly marked, other than the seed, is in the seed's
      component or, with `edge`, on its fringe. */
  ghost predicate Sound<T>(sc: Scope<T>, first: Point, a: Map<bool>, b: Map<bool>)
    requires sc.Valid() && a.Valid() && b.Valid()
  {
    forall p {:trigger Newly(a, b, p)} | Newly(a, b, p) && p != first ::
      Connected(sc, first, p) || (sc.edge && Fringe(sc, first, p))
  }

  /** Every cell newly marked, other than the seed, that holds the seed's
      value has had all its neighbours handled. */
  ghost predicate Expanded<T>(sc: Scope<T>, first: Point, a: Map<bool>, b: Map<bool>)
    requires sc.Valid() && a.Valid() && b.Valid()
  {
    forall q {:trigger Newly(a, b, q)} | Newly(a, b, q) && q != first && At(sc.region, q) == At(sc.region, first) ::
      Closed(sc, b, q)
  }

  /** The seed's first `n` neighbours are marked wherever the area holds
      them. */
  predicate NeighboursMarked<T(==)>(sc: Scope<T>, m: Map<bool>, first: Point, n: nat)
    requires sc.Valid() && m.Valid()
  {
    forall j | 0 <= j < n && j < |sc.dirs| && sc.area.Contains(Add(first, sc.dirs[j])) ::
      At(m, Add(first, sc.dirs[j])) == Ok(true)
  }

  // ---------------------------------------------------------------------
  // The fill

  /** The measure of a call: the clear cells, plus one unless the seed is
      itself a clear cell. */
  function Budget(first: Point, result: Map<bool>): nat
    requires result.Valid()
  {
    Unmarked(result) + if At(result, first) == Ok(false) then 0 else 1
  }

  /** `floodFill(first, region, result, edge, use8)`. The seed is marked
      first, so a seed outside `result` throws; `region.at(first)` is read
      only once a clear neighbour in `intersect(region, result)` is found,
      so a seed outside `region` throws exactly when it has one. Marks only
      grow, and a fill of a blank result marks exactly the seed, its
      equal-valued component and, with `edge`, that component's fringe. */
  method FloodFill<T(==)>(first: Point, region: Map<T>, result: Map<bool>, edge: bool, use8: bool)
    returns (r: Result<Map<bool>>)
    requires region.Valid() && result.Valid()
    ensures !result.area.Contains(first) ==> r.Err?
    ensures result.area.Contains(first) && region.area.Contains(first) ==> r.Ok?
    ensures result.area.Contains(first) && !region.area.Contains(first) ==>
      (r.Ok? <==> NeighboursMarked(ScopeOf(region, result.area, edge, use8), result, first, |Directions(use8)|))
    ensures r.Ok? ==> Grows(result, r.value) && At(r.value, first) == Ok(true)
    ensures r.Ok? ==> Sound(ScopeOf(region, result.area, edge, use8), first, result, r.value)
    ensures r.Ok? ==> Closed(ScopeOf(region, result.area, edge, use8), r.value, first)
    ensures r.Ok? ==> Expanded(ScopeOf(region, result.area, edge, use8), first, result, r.value)
    ensures r.Ok? && Blank(result) ==>
      forall p | result.area.Contains(p) ::
        At(r.value, p) == Ok(p == first || Connected(ScopeOf(region, result.area, edge, use8), first, p) ||
                             (edge && Fringe(ScopeOf(region, result.area, edge, use8), first, p)))
    decreases Budget(first, result)
  {
    var sc := ScopeOf(region, result.area, edge, use8);
    var s := Set(result, first, true);
    if s.Err? {
      return Err(s.error);
    }
    var cur := s.value;
    MarkSeed(sc, result, cur, first);
    var i := 0;
    while i < |sc.dirs|
      invariant 0 <= i <= |sc.dirs|
      invariant Progress(sc, first, result, s.value, cur, i, Budget(first, result))
    {
      var pos := Add(first, sc.dirs[i]);
      if sc.area.Contains(pos) && At(cur, pos) == Ok(false) {
        var here := At(region, first);
        if here.Err? {
          assert !NeighboursMarked(sc, result, first, |sc.dirs|) by {
            assert At(result, pos) == At(cur, pos);
          }
          return Err(here.error);
        }
        if At(region, pos) == here {
          var sub := FloodFill(pos, region, cur, edge, use8);
          RecurseStep(sc, first, result, s.value, cur, sub.value, i, Budget(first, result));
          cur := sub.value;
        } else if edge {
          var next := Set(cur, pos, true).value;
          FringeStep(sc, first, result, s.value, cur, next, i, Budget(first, result));
          cur := next;
        } else {
          KeepStep(sc, first, result, s.value, cur, i, Budget(first, result));
        }
      } else {
        SkipStep(sc, first, result, s.value, cur, i, Budget(first, result));
      }
      i := i + 1;
    }
    r := Ok(cur);
    if Blank(result) {
      FillIsExact(sc, first, result, cur);
    }
  }

  /** The state of a call after `i` neighbours: the marks have grown from
      `result` within the budget, the new marks are sound and expanded, the
      first `i` neighbours are handled and, while the seed is outside the
      region, only the seed has been marked. */
  ghost predicate Progress<T>(sc: Scope<T>, first: Point, result: Map<bool>, seeded: Map<bool>, cur: Map<bool>, i: nat, budget: nat) {
    && sc.Valid() && result.Valid() && seeded.Valid() && i <= |sc.dirs|
    && (forall p :: sc.area.Contains(p) <==> sc.region.area.Contains(p) && result.area.Contains(p))
    && Grows(result, cur) && At(cur, first) == Ok(true) && Unmarked(cur) < budget
    && Sound(sc, first, result, cur) && Expanded(sc, first, result, cur)
    && (forall j | 0 <= j < i :: Handled(sc, cur, first, Add(first, sc.dirs[j])))
    && (!sc.region.area.Contains(first) ==> cur == seeded && NeighboursMarked(sc, result, first, i))
  }

  /** Marking the seed starts the loop. */
  lemma MarkSeed<T>(sc: Scope<T>, result: Map<bool>, cur: Map<bool>, first: Point)
    requires sc.Valid() && result.Valid() && cur.Valid() && cur.area == result.area
    requires forall p :: sc.area.Contains(p) <==> sc.region.area.Contains(p) && result.area.Contains(p)
    requires At(cur, first) == Ok(true)
    requires forall q | q != first :: At(cur, q) == At(result, q)
    ensures Progress(sc, first, result, cur, cur, 0, Budget(first, result))
  {
    assert Grows(result, cur);
    UnmarkedShrinks(result, cur, first);
  }

  /** A neighbour outside the area or already marked is passed over. */
  lemma SkipStep<T>(sc: Scope<T>, first: Point, result: Map<bool>, seeded: Map<bool>, cur: Map<bool>, i: nat, budget: nat)
    requires Progress(sc, first, result, seeded, cur, i, budget) && i < |sc.dirs|
    requires seeded.area == result.area && forall q | q != first :: At(seeded, q) == At(result, q)
    requires !(sc.area.Contains(Add(first, sc.dirs[i])) && At(cur, Add(first, sc.dirs[i])) == Ok(false))
    ensures Progress(sc, first, result, seeded, cur, i + 1, budget)
  {
    var pos := Add(first, sc.dirs[i]);
    if sc.area.Contains(pos) {
      MarkIsBool(cur, pos);
      if !sc.region.area.Contains(first) {
        assert pos != first && At(result, pos) == At(cur, pos);
      }
    }
    assert Handled(sc, cur, first, pos);
  }

  /** Without `edge`, a clear neighbour of another value is left alone. */
  lemma KeepStep<T>(sc: Scope<T>, first: Point, result: Map<bool>, seeded: Map<bool>, cur: Map<bool>, i: nat, budget: nat)
    requires Progress(sc, first, result, seeded, cur, i, budget) && i < |sc.dirs| && !sc.edge
    requires sc.region.area.Contains(first)
    requires At(sc.region, Add(first, sc.dirs[i])) != At(sc.region, first)
    ensures Progress(sc, first, result, seeded, cur, i + 1, budget)
  {
    assert Handled(sc, cur, first, Add(first, sc.dirs[i]));
  }

  /** The neighbours handled so far stay handled as marks grow. */
  lemma HandledPrefixGrows<T>(sc: Scope<T>, first: Point, cur: Map<bool>, next: Map<bool>, i: nat)
    requires sc.Valid() && Grows(cur, next) && i <= |sc.dirs|
    requires forall j | 0 <= j < i :: Handled(sc, cur, first, Add(first, sc.dirs[j]))
    ensures forall j | 0 <= j < i :: Handled(sc, next, first, Add(first, sc.dirs[j]))
  {
    forall j | 0 <= j < i ensures Handled(sc, next, first, Add(first, sc.dirs[j])) {
      HandledGrows(sc, cur, next, first, Add(first, sc.dirs[j]));
    }
  }

  /** A clear neighbour of the seed's value is filled by the recursive call,
      whose contract is assumed here as `next`'s description. */
  lemma RecurseStep<T>(sc: Scope<T>, first: Point, result: Map<bool>, seeded: Map<bool>, cur: Map<bool>, next: Map<bool>, i: nat, budget: nat)
    requires Progress(sc, first, result, seeded, cur, i, budget) && i < |sc.dirs|
    requires sc.area.Contains(Add(first, sc.dirs[i])) && At(cur, Add(first, sc.dirs[i])) == Ok(false)
    requires sc.region.area.Contains(first) && At(sc.region, Add(first, sc.dirs[i])) == At(sc.region, first)
    requires Grows(cur, next) && At(next, Add(first, sc.dirs[i])) == Ok(true)
    requires Sound(sc, Add(first, sc.dirs[i]), cur, next) && Expanded(sc, Add(first, sc.dirs[i]), cur, next)
    requires Closed(sc, next, Add(first, sc.dirs[i]))
    ensures Progress(sc, first, result, seeded, next, i + 1, budget)
  {
    var pos := Add(first, sc.dirs[i]);
    assert Sub(pos, first) == sc.dirs[i];
    assert sc.area.Contains(first);
    AfterRecursion(sc, first, pos, result, cur, next);
    HandledPrefixGrows(sc, first, cur, next, i);
    assert Handled(sc, next, first, pos);
    assert At(next, first) == Ok(true);
  }

  /** With `edge`, a clear neighbour of another value is marked. */
  lemma FringeStep<T>(sc: Scope<T>, first: Point, result: Map<bool>, seeded: Map<bool>, cur: Map<bool>, next: Map<bool>, i: nat, budget: nat)
    requires Progress(sc, first, result, seeded, cur, i, budget) && i < |sc.dirs| && sc.edge
    requires sc.area.Contains(Add(first, sc.dirs[i])) && At(cur, Add(first, sc.dirs[i])) == Ok(false)
    requires sc.region.area.Contains(first) && At(sc.region, Add(first, sc.dirs[i])) != At(sc.region, first)
    requires next.Valid() && next.area == cur.area && At(next, Add(first, sc.dirs[i])) == Ok(true)
    requires forall q | q != Add(first, sc.dirs[i]) :: At(next, q) == At(cur, q)
    ensures Progress(sc, first, result, seeded, next, i + 1, budget)
  {
    var pos := Add(first, sc.dirs[i]);
    assert Sub(pos, first) == sc.dirs[i];
    assert sc.area.Contains(first);
    AfterFringe(sc, first, pos, result, cur, next);
    HandledPrefixGrows(sc, first, cur, next, i);
    assert Handled(sc, next, first, pos);
    assert At(next, first) == Ok(true);
  }

  /** The invariants after a recursive call on the equal-valued neighbour
      `pos`. */
  lemma AfterRecursion<T>(sc: Scope<T>, first: Point, pos: Point, result: Map<bool>, cur: Map<bool>, next: Map<bool>)
    requires sc.Valid() && result.Valid()
    requires sc.area.Contains(first) && sc.area.Contains(pos) && Sub(pos, first) in sc.dirs
    requires At(sc.region, pos) == At(sc.region, first)
    requires Grows(result, cur) && Grows(cur, next) && At(cur, pos) == Ok(false) && At(next, pos) == Ok(true)
    requires Sound(sc, first, result, cur) && Expanded(sc, first, result, cur)
    requires Sound(sc, pos, cur, next) && Expanded(sc, pos, cur, next) && Closed(sc, next, pos)
    ensures Grows(result, next)
    ensures Sound(sc, first, result, next) && Expanded(sc, first, result, next)
    ensures Unmarked(next) < Unmarked(cur)
  {
    GrowsTransitive(result, cur, next);
    UnmarkedShrinks(cur, next, pos);
    forall p | Newly(result, next, p) && p != first
      ensures Connected(sc, first, p) || (sc.edge && Fringe(sc, first, p))
    {
      SoundAfterRecursion(sc, first, pos, result, cur, next, p);
    }
    forall q | Newly(result, next, q) && q != first && At(sc.region, q) == At(sc.region, first)
      ensures Closed(sc, next, q)
    {
      ExpandedAfterRecursion(sc, first, pos, result, cur, next, q);
    }
  }

  lemma SoundAfterRecursion<T>(sc: Scope<T>, first: Point, pos: Point, result: Map<bool>, cur: Map<bool>, next: Map<bool>, p: Point)
    requires sc.Valid() && result.Valid()
    requires sc.area.Contains(first) && sc.area.Contains(pos) && Sub(pos, first) in sc.dirs
    requires At(sc.region, pos) == At(sc.region, first)
    requires Grows(result, cur) && Grows(cur, next)
    requires Sound(sc, first, result, cur) && Sound(sc, pos, cur, next)
    requires Newly(result, next, p) && p != first
    ensures Connected(sc, first, p) || (sc.edge && Fringe(sc, first, p))
  {
    if At(cur, p) == Ok(true) {
      assert Newly(result, cur, p);
    } else if p == pos {
      ConnectedSelf(sc, pos);
      ConnectedExtend(sc, first, pos, p);
    } else {
      assert result.area.Contains(p);
      MarkIsBool(cur, p);
      assert Newly(cur, next, p);
      if Connected(sc, pos, p) {
        ConnectedExtend(sc, first, pos, p);
      } else {
        FringeExtend(sc, first, pos, p);
      }
    }
  }

  lemma ExpandedAfterRecursion<T>(sc: Scope<T>, first: Point, pos: Point, result: Map<bool>, cur: Map<bool>, next: Map<bool>, q: Point)
    requires sc.Valid() && result.Valid()
    requires At(sc.region, pos) == At(sc.region, first)
    requires Grows(result, cur) && Grows(cur, next)
    requires Expanded(sc, first, result, cur)
    requires Expanded(sc, pos, cur, next) && Closed(sc, next, pos)
    requires Newly(result, next, q) && q != first && At(sc.region, q) == At(sc.region, first)
    ensures Closed(sc, next, q)
  {
    if At(cur, q) == Ok(true) {
      assert Newly(result, cur, q);
      ClosedGrows(sc, cur, next, q);
    } else if q != pos {
      assert result.area.Contains(q);
      MarkIsBool(cur, q);
      assert Newly(cur, next, q);
    }
  }

  /** The invariants after marking the differing neighbour `pos` with
      `edge`. */
  lemma AfterFringe<T>(sc: Scope<T>, first: Point, pos: Point, result: Map<bool>, cur: Map<bool>, next: Map<bool>)
    requires sc.Valid() && result.Valid() && sc.edge
    requires sc.area.Contains(first) && sc.area.Contains(pos) && Sub(pos, first) in sc.dirs
    requires At(sc.region, pos) != At(sc.region, first)
    requires Grows(result, cur) && At(cur, pos) == Ok(false)
    requires next.Valid() && next.area == cur.area && At(next, pos) == Ok(true)
    requires forall q | q != pos :: At(next, q) == At(cur, q)
    requires Sound(sc, first, result, cur) && Expanded(sc, first, result, cur)
    ensures Grows(cur, next) && Grows(result, next)
    ensures Sound(sc, first, result, next) && Expanded(sc, first, result, next)
    ensures Unmarked(next) < Unmarked(cur)
  {
    assert Grows(cur, next);
    GrowsTransitive(result, cur, next);
    UnmarkedShrinks(cur, next, pos);
    ConnectedSelf(sc, first);
    assert Fringe(sc, first, pos);
    forall p | Newly(result, next, p) && p != first && p != pos
      ensures Connected(sc, first, p) || (sc.edge && Fringe(sc, first, p))
    {
      assert Newly(result, cur, p);
    }
    forall q | Newly(result, next, q) && q != first && At(sc.region, q) == At(sc.region, first)
      ensures Closed(sc, next, q)
    {
      assert Newly(result, cur, q);
      ClosedGrows(sc, cur, next, q);
    }
  }

  /** In a fill of a blank result, a step from a marked point holding the
      seed's value reaches a marked point when it stays in the area and
      either keeps the value or `edge` is set. */
  lemma StepMarked<T>(sc: Scope<T>, first: Point, result: Map<bool>, out: Map<bool>, q: Point, p: Point)
    requires sc.Valid() && Grows(result, out) && Blank(result)
    requires forall x | sc.area.Contains(x) :: result.area.Contains(x)
    requires Closed(sc, out, first) && Expanded(sc, first, result, out)
    requires sc.area.Contains(q) && At(out, q) == Ok(true) && At(sc.region, q) == At(sc.region, first)
    requires sc.area.Contains(p) && Sub(p, q) in sc.dirs
    requires sc.edge || At(sc.region, p) == At(sc.region, q)
    ensures At(out, p) == Ok(true)
  {
    if q != first {
      assert At(result, q) == Ok(false);
      assert Newly(result, out, q);
    }
    assert Closed(sc, out, q);
    var i :| 0 <= i < |sc.dirs| && sc.dirs[i] == Sub(p, q);
    assert Add(q, sc.dirs[i]) == p;
    assert Handled(sc, out, q, p);
  }

  /** Every point on a path from the seed is marked by a fill of a blank
      result. */
  lemma {:induction false} PathMarked<T>(sc: Scope<T>, first: Point, result: Map<bool>, out: Map<bool>, path: seq<Point>)
    requires sc.Valid() && Grows(result, out) && Blank(result)
    requires forall x | sc.area.Contains(x) :: result.area.Contains(x)
    requires At(out, first) == Ok(true) && Closed(sc, out, first) && Expanded(sc, first, result, out)
    requires IsPath(sc, path) && path[0] == first
    ensures At(out, path[|path| - 1]) == Ok(true)
    decreases |path|
  {
    if |path| > 1 {
      var pre := path[..|path| - 1];
      assert forall k | 0 <= k < |pre| :: pre[k] == path[k];
      assert IsPath(sc, pre);
      PathMarked(sc, first, result, out, pre);
      var q, p := path[|path| - 2], path[|path| - 1];
      assert Sub(p, q) in sc.dirs;
      StepMarked(sc, first, result, out, q, p);
    }
  }

  /** The seed, its component and, with `edge`, its fringe are marked. */
  lemma ReachedMarked<T>(sc: Scope<T>, first: Point, result: Map<bool>, out: Map<bool>, p: Point)
    requires sc.Valid() && Grows(result, out) && Blank(result)
    requires forall x | sc.area.Contains(x) :: result.area.Contains(x)
    requires At(out, first) == Ok(true) && Closed(sc, out, first) && Expanded(sc, first, result, out)
    requires p == first || Connected(sc, first, p) || (sc.edge && Fringe(sc, first, p))
    ensures At(out, p) == Ok(true)
  {
    if p == first {
    } else if Connected(sc, first, p) {
      var path :| IsPath(sc, path) && path[0] == first && path[|path| - 1] == p;
      PathMarked(sc, first, result, out, path);
    } else {
      var q :| Connected(sc, first, q) && Sub(p, q) in sc.dirs;
      var path :| IsPath(sc, path) && path[0] == first && path[|path| - 1] == q;
      PathMarked(sc, first, result, out, path);
      StepMarked(sc, first, result, out, q, p);
    }
  }

  /** Nothing else is marked: a mark other than the seed's is new, and new
      marks are sound. */
  lemma MarkedReached<T>(sc: Scope<T>, first: Point, result: Map<bool>, out: Map<bool>, p: Point)
    requires sc.Valid() && Grows(result, out) && Blank(result)
    requires Sound(sc, first, result, out)
    requires result.area.Contains(p)
    ensures At(out, p) == Ok(true) ==> p == first || Connected(sc, first, p) || (sc.edge && Fringe(sc, first, p))
  {
    if p != first && At(out, p) == Ok(true) {
      assert At(result, p) == Ok(false);
      assert Newly(result, out, p);
    }
  }

  /** A fill of a blank result marks exactly the seed, its component and,
      with `edge`, the component's fringe. */
  lemma FillIsExact<T>(sc: Scope<T>, first: Point, result: Map<bool>, out: Map<bool>)
    requires sc.Valid() && Grows(result, out) && Blank(result)
    requires forall x | sc.area.Contains(x) :: result.area.Contains(x)
    requires At(out, first) == Ok(true) && Closed(sc, out, first)
    requires Sound(sc, first, result, out) && Expanded(sc, first, result, out)
    ensures forall p | result.area.Contains(p) ::
      At(out, p) == Ok(p == first || Connected(sc, first, p) || (sc.edge && Fringe(sc, first, p)))
  {
    forall p | result.area.Contains(p)
      ensures At(out, p) == Ok(p == first || Connected(sc, first, p) || (sc.edge && Fringe(sc, first, p)))
    {
      var reached := p == first || Connected(sc, first, p) || (sc.edge && Fringe(sc, first, p));
      assert out.area.Contains(p) && At(out, p).Ok?;
      if reached {
        ReachedMarked(sc, first, result, out, p);
      } else {
        MarkedReached(sc, first, result, out, p);
        var v := At(out, p).value;
        assert At(out, p) == Ok(v);
        assert !v;
      }
    }
  }
}

=== FILE: htl_map.dfy ===
/** The containers of `include/htl/hrzn.h`: `IMap` addressing, the owning
    `HMap`, the `ISubMap` view, the bit-packed `HMask` and the boolean
    operators. Every `hArea`, valid or not, lays its cells out row-major. */
module HtlMap {
  import opened Common
  import RowMajor
  import Bits
  import opened HtlArea

  /** `HMap<T>`: an area and its cells in row-major order. */
  datatype Map<T> = Map(area: HArea, cells: seq<T>) {
    predicate Valid() { |cells| == area.Size() }
  }

  /** `IMap::f_index`: the storage index of a contained point, or
      `out_of_range`. */
  function Index(a: HArea, p: Point): (r: Result<nat>)
    ensures r.Ok? <==> a.Contains(p)
    ensures r.Ok? ==> r.value < a.Size() && RowMajor.PointAt(a.Box(), r.value) == p
  {
    if a.Contains(p) then
      RowMajor.PointAtOfOffset(a.Box(), p);
      Ok(RowMajor.Offset(a.Box(), p))
    else Err(OutOfRange)
  }

  /** `HMap::at`. */
  function At<T>(m: Map<T>, p: Point): (r: Result<T>)
    requires m.Valid()
    ensures r.Ok? <==> m.area.Contains(p)
  {
    var i :- Index(m.area, p);
    Ok(m.cells[i])
  }

  /** A map built from a function of the point reads as that function. */
  lemma ReadsAs<T>(m: Map<T>, f: Point -> T)
    requires m.Valid()
    requires forall p | m.area.Box().Has(p) :: m.cells[RowMajor.Offset(m.area.Box(), p)] == f(p)
    ensures forall p | m.area.Contains(p) :: At(m, p) == Ok(f(p))
  {
    forall p | m.area.Contains(p) ensures At(m, p) == Ok(f(p)) {
      BoxMatches(m.area, p);
    }
  }

  /** Two maps over the same area that read alike everywhere are equal. */
  lemma ReadsAlike<T>(m: Map<T>, n: Map<T>)
    requires m.Valid() && n.Valid() && m.area == n.area
    requires forall p | m.area.Contains(p) :: At(m, p) == At(n, p)
    ensures m == n
  {
    forall p | m.area.Box().Has(p)
      ensures RowMajor.Read(m.area.Box(), m.cells, p) == RowMajor.Read(m.area.Box(), n.cells, p)
    {
      BoxMatches(m.area, p);
      assert At(m, p) == At(n, p);
    }
    RowMajor.Extensional(m.area.Box(), m.cells, n.cells);
  }

  /** `HMap::set`: the value is read back at `p`, every other point reads as
      before, and a point outside the area throws. */
  function Set<T>(m: Map<T>, p: Point, v: T): (r: Result<Map<T>>)
    requires m.Valid()
    ensures r.Ok? <==> m.area.Contains(p)
    ensures r.Ok? ==> r.value.Valid() && r.value.area == m.area
    ensures r.Ok? ==> At(r.value, p) == Ok(v)
    ensures r.Ok? ==> forall q | q != p :: At(r.value, q) == At(m, q)
  {
    if m.area.Contains(p) then
      BoxMatches(m.area, p);
      var r := Map(m.area, RowMajor.Write(m.area.Box(), m.cells, p, v));
      assert forall q | q != p :: At(r, q) == At(m, q) by {
        forall q | q != p && m.area.Contains(q) ensures At(r, q) == At(m, q) {
          BoxMatches(m.area, q);
        }
      }
      Ok(r)
    else Err(OutOfRange)
  }

  /** `HMap(rect, obj)` and `HMap(w, h, obj)` (with `Sized(w, h)`): every cell
      holds `obj`; an invalid rectangle gets no cells. */
  function Filled<T>(a: HArea, obj: T): (m: Map<T>)
    ensures m.Valid() && m.area == a
    ensures forall p | a.Contains(p) :: At(m, p) == Ok(obj)
  {
    Map(a, seq(a.Width() * a.Height(), _ => obj))
  }

  /** `IMap::fill(obj)` on a map. */
  function Fill<T>(m: Map<T>, obj: T): (r: Map<T>)
    requires m.Valid()
    ensures r.Valid() && r.area == m.area
    ensures forall p | m.area.Contains(p) :: At(r, p) == Ok(obj)
  {
    Filled(m.area, obj)
  }

  /** `IMap::fill(fill_func)`: the generator is called once per cell in
      row-major order. */
  function FillFrom<T>(m: Map<T>, gen: nat -> T): (r: Map<T>)
    requires m.Valid()
    ensures r.Valid() && r.area == m.area
    ensures forall p | m.area.Contains(p) :: At(r, p) == Ok(gen(RowMajor.Offset(m.area.Box(), p)))
  {
    var n := m.area.Size();
    var r := Map(m.area, seq(n, i requires 0 <= i < n => gen(i)));
    assert forall p | m.area.Contains(p) :: At(r, p) == Ok(gen(RowMajor.Offset(m.area.Box(), p))) by {
      forall p | m.area.Contains(p) ensures At(r, p) == Ok(gen(RowMajor.Offset(m.area.Box(), p))) {
        BoxMatches(m.area, p);
        assert Index(m.area, p) == Ok(RowMajor.Offset(m.area.Box(), p));
      }
    }
    r
  }

  /** `HMap::resize(xa, ya, xb, yb, fill_obj)`. The block is allocated for the
      requested rectangle as given, but the area is then reordered; an
      inverted request leaves a block of the wrong size, which the model
      reports as indeterminate. Otherwise a point of both areas keeps its
      value and a new point holds `fill_obj`. */
  function Resize<T>(m: Map<T>, xa: int, ya: int, xb: int, yb: int, fill: T): (r: Result<Map<T>>)
    requires m.Valid()
    ensures r.Ok? <==> xa <= xb && ya <= yb
    ensures r.Ok? ==> r.value.Valid() && r.value.area == HArea(xa, ya, xb, yb)
    ensures r.Ok? ==> forall p | r.value.area.Contains(p) ::
      At(r.value, p) == if m.area.Contains(p) then At(m, p) else Ok(fill)
  {
    var a := HArea(xa, ya, xb, yb);
    if a.Valid() then
      var r := Map(a, RowMajor.Build(a.Box(), p => if m.area.Contains(p) then At(m, p).value else fill));
      ReadsAs(r, p => if m.area.Contains(p) then At(m, p).value else fill);
      Ok(r)
    else Err(Indeterminate)
  }

  /** Resizing to the map's own valid area changes nothing. */
  lemma ResizeToSelf<T>(m: Map<T>, fill: T)
    requires m.Valid() && m.area.Valid()
    ensures Resize(m, m.area.x1, m.area.y1, m.area.x2, m.area.y2, fill) == Ok(m)
  {
    ReadsAlike(Resize(m, m.area.x1, m.area.y1, m.area.x2, m.area.y2, fill).value, m);
  }

  // ---------------------------------------------------------------------
  // ISubMap

  /** `ISubMap<T>`: a view over an area of a source map, which every
      operation takes explicitly. */
  datatype SubMap = SubMap(area: HArea)

  /** `ISubMap::at` forwards to the source without consulting the view's
      area. */
  function SubAt<T>(src: Map<T>, view: SubMap, p: Point): (r: Result<T>)
    requires src.Valid()
    ensures r.Ok? <==> src.area.Contains(p)
  {
    At(src, p)
  }

  /** `ISubMap::set` forwards in the same way. */
  function SubSet<T>(src: Map<T>, view: SubMap, p: Point, v: T): (r: Result<Map<T>>)
    requires src.Valid()
    ensures r.Ok? <==> src.area.Contains(p)
    ensures r.Ok? ==> r.value.Valid() && r.value.area == src.area && At(r.value, p) == Ok(v)
    ensures r.Ok? ==> forall q | q != p :: At(r.value, q) == At(src, q)
  {
    Set(src, p, v)
  }

  lemma SubAtIgnoresView<T>(src: Map<T>, v: SubMap, w: SubMap, p: Point)
    requires src.Valid()
    ensures SubAt(src, v, p) == SubAt(src, w, p) == At(src, p)
  {
  }

  /** `IMap::fill(obj)` through a view: the view's cells of the source are set
      and no other cell changes; a view cell outside the source throws. */
  function SubFill<T>(src: Map<T>, view: SubMap, obj: T): (r: Result<Map<T>>)
    requires src.Valid()
    ensures r.Ok? <==> forall p | view.area.Contains(p) :: src.area.Contains(p)
    ensures r.Ok? ==> r.value.Valid() && r.value.area == src.area
    ensures r.Ok? ==> forall p | src.area.Contains(p) ::
      At(r.value, p) == if view.area.Contains(p) then Ok(obj) else At(src, p)
  {
    WithinMeansCells(view.area, src.area);
    if Within(view.area, src.area) then
      var f := p => if view.area.Contains(p) || !src.area.Contains(p) then obj else At(src, p).value;
      var r := Map(src.area, RowMajor.Build(src.area.Box(), f));
      ReadsAs(r, f);
      Ok(r)
    else Err(OutOfRange)
  }

  /** Every cell of `inner` is a cell of `outer`, decided on the bounds. */
  predicate Within(inner: HArea, outer: HArea) {
    !inner.Valid() ||
    (outer.x1 <= inner.x1 && inner.x2 <= outer.x2 && outer.y1 <= inner.y1 && inner.y2 <= outer.y2)
  }

  lemma WithinMeansCells(inner: HArea, outer: HArea)
    ensures Within(inner, outer) <==> forall p | inner.Contains(p) :: outer.Contains(p)
  {
    if !Within(inner, outer) {
      var c := if outer.Contains(Point(inner.x1, inner.y1)) then Point(inner.x2, inner.y2) else Point(inner.x1, inner.y1);
      assert inner.Contains(c) && !outer.Contains(c);
    }
  }

  /** `ISubMap::resize`: the request, ordered, whatever the view's current
      area; the intersection the older revision takes is not applied. */
  function SubResize(view: SubMap, xa: int, ya: int, xb: int, yb: int): (r: SubMap)
    ensures r.area.Valid()
    ensures forall p :: r.area.Contains(p) <==> (Min(xa, xb) <= p.x <= Max(xa, xb) && Min(ya, yb) <= p.y <= Max(ya, yb))
  {
    SubMap(HtlArea.Resize(xa, ya, xb, yb))
  }

  /** A view can grow past its own area: resizing the view of `(0,0)-(1,1)`
      to `(5,5)-(6,6)` moves it there. */
  lemma SubResizeUnrestricted()
    ensures SubResize(SubMap(HArea(0, 0, 1, 1)), 5, 5, 6, 6).area == HArea(5, 5, 6, 6)
  {
  }

  // ---------------------------------------------------------------------
  // HMask

  /** `HMask`: an area and its packed bits, `area / 64 + 1` blocks. */
  datatype Mask = Mask(area: HArea, blocks: seq<Bits.Block>) {
    predicate Valid() { Bits.Holds(blocks, area.Size()) }
  }

  /** `HMask::at` (the `const` overload, through `f_get`). */
  function MaskAt(k: Mask, p: Point): (r: Result<bool>)
    requires k.Valid()
    ensures r.Ok? <==> k.area.Contains(p)
  {
    if k.area.Contains(p) then
      BoxMatches(k.area, p);
      Ok(Bits.ReadCell(k.area.Box(), k.blocks, p))
    else Err(OutOfRange)
  }

  /** `HMask(w, h)` and `HMask(area)`: every cell reads false. */
  function NewMask(a: HArea): (k: Mask)
    ensures k.Valid() && k.area == a
    ensures forall p | a.Contains(p) :: MaskAt(k, p) == Ok(false)
  {
    var k := Mask(a, Bits.ZeroBlocks(a.Size()));
    assert forall p | a.Contains(p) :: MaskAt(k, p) == Ok(false) by {
      forall p | a.Contains(p) ensures MaskAt(k, p) == Ok(false) {
        BoxMatches(a, p);
        Bits.ZeroCell(a.Box(), p);
      }
    }
    k
  }

  /** `HMask::set`: the cell reads back as set and every other cell keeps its
      bit; a point outside the area throws. */
  function MaskSet(k: Mask, p: Point, v: bool): (r: Result<Mask>)
    requires k.Valid()
    ensures r.Ok? <==> k.area.Contains(p)
    ensures r.Ok? ==> r.value.Valid() && r.value.area == k.area && MaskAt(r.value, p) == Ok(v)
    ensures r.Ok? ==> forall q | q != p :: MaskAt(r.value, q) == MaskAt(k, q)
  {
    if k.area.Contains(p) then
      BoxMatches(k.area, p);
      var r := Mask(k.area, Bits.WriteCell(k.area.Box(), k.blocks, p, v));
      assert forall q | q != p :: MaskAt(r, q) == MaskAt(k, q) by {
        forall q | q != p && k.area.Contains(q) ensures MaskAt(r, q) == MaskAt(k, q) {
          BoxMatches(k.area, q);
        }
      }
      Ok(r)
    else Err(OutOfRange)
  }

  /** `HMask::fill`: every cell reads `obj`. */
  function MaskFill(k: Mask, obj: bool): (r: Mask)
    requires k.Valid()
    ensures r.Valid() && r.area == k.area
    ensures forall p | k.area.Contains(p) :: MaskAt(r, p) == Ok(obj)
  {
    var r := Mask(k.area, Bits.FillBlocks(k.blocks, obj));
    assert forall p | k.area.Contains(p) :: MaskAt(r, p) == Ok(obj) by {
      forall p | k.area.Contains(p) ensures MaskAt(r, p) == Ok(obj) {
        BoxMatches(k.area, p);
        Bits.FillCell(k.area.Box(), k.blocks, p, obj);
      }
    }
    r
  }

  /** `HMask::flip`: every cell reads negated. */
  function MaskFlip(k: Mask): (r: Mask)
    requires k.Valid()
    ensures r.Valid() && r.area == k.area
    ensures forall p | k.area.Contains(p) :: MaskAt(r, p) == Ok(!MaskAt(k, p).value)
  {
    var r := Mask(k.area, Bits.FlipBlocks(k.blocks));
    assert forall p | k.area.Contains(p) :: MaskAt(r, p) == Ok(!MaskAt(k, p).value) by {
      forall p | k.area.Contains(p) ensures MaskAt(r, p) == Ok(!MaskAt(k, p).value) {
        BoxMatches(k.area, p);
        Bits.FlipCell(k.area.Box(), k.blocks, p);
      }
    }
    r
  }

  /** `HMask::NOT`: a copy, flipped. */
  function MaskNot(k: Mask): (r: Mask)
    requires k.Valid()
    ensures r.Valid() && r.area == k.area
    ensures forall p | k.area.Contains(p) :: MaskAt(r, p) == Ok(!MaskAt(k, p).value)
  {
    MaskFlip(k)
  }

  /** Applying `NOT` twice gives the mask back, block for block. */
  lemma MaskNotInvolution(k: Mask)
    requires k.Valid()
    ensures MaskNot(MaskNot(k)) == k
  {
    var r := MaskNot(MaskNot(k));
    assert r.blocks == k.blocks by {
      forall j | 0 <= j < |k.blocks| ensures r.blocks[j] == k.blocks[j] {
        assert !!k.blocks[j] == k.blocks[j];
      }
    }
  }

  /** `HMask(const IMap<bool>&)`: freshly allocated blocks, whose initial
      contents `scratch` the constructor leaves unspecified, then one `set`
      per cell in row-major order; the mask reads exactly as the map. */
  function MaskFromMap(m: Map<bool>, scratch: seq<Bits.Block>): (k: Mask)
    requires m.Valid() && Bits.Holds(scratch, m.area.Size())
    ensures k.Valid() && k.area == m.area
    ensures forall p :: MaskAt(k, p) == At(m, p)
  {
    BoxMatches(m.area, Point(0, 0));
    var k := Mask(m.area, Bits.Encode(scratch, m.cells, |m.cells|));
    assert forall p :: MaskAt(k, p) == At(m, p) by {
      forall p | m.area.Contains(p) ensures MaskAt(k, p) == At(m, p) {
        BoxMatches(m.area, p);
        Bits.EncodeCell(m.area.Box(), scratch, m.cells, p);
      }
    }
    k
  }

  /** `HMask::expand`: a dense map over the same area reading as the mask. */
  function Expand(k: Mask): (m: Map<bool>)
    requires k.Valid()
    ensures m.Valid() && m.area == k.area
    ensures forall p :: At(m, p) == MaskAt(k, p)
  {
    BoxMatches(k.area, Point(0, 0));
    var m := Map(k.area, Bits.Cells(k.area.Box(), k.blocks));
    assert forall p :: At(m, p) == MaskAt(k, p) by {
      forall p | k.area.Contains(p) ensures At(m, p) == MaskAt(k, p) {
        BoxMatches(k.area, p);
      }
    }
    m
  }

  /** Packing a map and expanding it again gives the map back. */
  lemma ExpandMaskFromMap(m: Map<bool>, scratch: seq<Bits.Block>)
    requires m.Valid() && Bits.Holds(scratch, m.area.Size())
    ensures Expand(MaskFromMap(m, scratch)) == m
  {
    ReadsAlike(Expand(MaskFromMap(m, scratch)), m);
  }

  // ---------------------------------------------------------------------
  // Boolean operators

  function Conjunction(x: bool, y: bool): bool { x && y }

  function Disjunction(x: bool, y: bool): bool { x || y }

  /** The shared shape of `&`, `|` and `^`: a fresh mask over
      `hArea::intersect(a, b)` whose cells are set to `op` of the inputs'
      cells. The intersection holds only common cells, so no read throws. */
  function Combine(a: Map<bool>, b: Map<bool>, op: (bool, bool) -> bool): (r: Mask)
    requires a.Valid() && b.Valid()
    ensures r.Valid() && r.area == Intersect(a.area, b.area)
    ensures forall p | r.area.Contains(p) ::
      a.area.Contains(p) && b.area.Contains(p) && MaskAt(r, p) == Ok(op(At(a, p).value, At(b, p).value))
  {
    var area := Intersect(a.area, b.area);
    var f := p => if a.area.Contains(p) && b.area.Contains(p) then op(At(a, p).value, At(b, p).value) else false;
    var dense := Map(area, RowMajor.Build(area.Box(), f));
    ReadsAs(dense, f);
    MaskFromMap(dense, Bits.ZeroBlocks(area.Size()))
  }

  /** `operator &`. */
  function And(a: Map<bool>, b: Map<bool>): (r: Mask)
    requires a.Valid() && b.Valid()
    ensures r.Valid() && r.area == Intersect(a.area, b.area)
    ensures forall p | r.area.Contains(p) ::
      a.area.Contains(p) && b.area.Contains(p) && MaskAt(r, p) == Ok(At(a, p).value && At(b, p).value)
  {
    Combine(a, b, Conjunction)
  }

  /** `operator |`. */
  function Or(a: Map<bool>, b: Map<bool>): (r: Mask)
    requires a.Valid() && b.Valid()
    ensures r.Valid() && r.area == Intersect(a.area, b.area)
    ensures forall p | r.area.Contains(p) ::
      a.area.Contains(p) && b.area.Contains(p) && MaskAt(r, p) == Ok(At(a, p).value || At(b, p).value)
  {
    Combine(a, b, Disjunction)
  }

  /** `operator ^` as written: its loop sets `a.at(x, y) && b.at(x, y)`. */
  function Xor(a: Map<bool>, b: Map<bool>): (r: Mask)
    requires a.Valid() && b.Valid()
    ensures r.Valid() && r.area == Intersect(a.area, b.area)
    ensures forall p | r.area.Contains(p) ::
      a.area.Contains(p) && b.area.Contains(p) && MaskAt(r, p) == Ok(At(a, p).value && At(b, p).value)
  {
    Combine(a, b, Conjunction)
  }

  /** `operator ~`: a mask over `a`'s own area, every cell negated. */
  function Not(a: Map<bool>): (r: Mask)
    requires a.Valid()
    ensures r.Valid() && r.area == a.area
    ensures forall p | a.area.Contains(p) :: MaskAt(r, p) == Ok(!At(a, p).value)
  {
    var f := p => if a.area.Contains(p) then !At(a, p).value else false;
    var dense := Map(a.area, RowMajor.Build(a.area.Box(), f));
    ReadsAs(dense, f);
    MaskFromMap(dense, Bits.ZeroBlocks(a.area.Size()))
  }

  /** `^` of a map with itself reads as the map, where exclusive or would read
      false everywhere. */
  lemma XorWithSelf(a: Map<bool>)
    requires a.Valid()
    ensures Xor(a, a).area == a.area
    ensures forall p | a.area.Contains(p) :: MaskAt(Xor(a, a), p) == At(a, p)
  {
    assert Intersect(a.area, a.area) == a.area;
  }

  /** Maps with no common cell combine into an empty mask. */
  lemma CombineDisjoint(a: Map<bool>, b: Map<bool>, op: (bool, bool) -> bool)
    requires a.Valid() && b.Valid()
    requires forall p :: !(a.area.Contains(p) && b.area.Contains(p))
    ensures Combine(a, b, op).area.Size() == 0
  {
    IntersectDisjoint(a.area, b.area);
  }
}

=== FILE: htl_tuples.dfy ===
/** The integer parts of `tuple2<int>` (`point2`) in
    `include/htl/basic_types.h`: component access, swizzling and negation,
    and the corner table. Points themselves, with `+` and `-`, are
    `Common.Point`. */
module HtlTuples {
  import opened Common

  /** `operator[]`: index 0 reads `x`, index 1 reads `y`, and any other index
      throws `out_of_range`. */
  function Component(t: Point, i: int): (r: Result<int>)
    ensures r.Ok? <==> i == 0 || i == 1
  {
    if i == 0 then Ok(t.x)
    else if i == 1 then Ok(t.y)
    else Err(OutOfRange)
  }

  /** The two valid indices between them determine the tuple. */
  lemma ComponentsDetermine(t: Point, u: Point)
    ensures (Component(t, 0) == Component(u, 0) && Component(t, 1) == Component(u, 1)) <==> t == u
  {
  }

  /** `swizzle()`, the free `swizzle(tuple2)` and `operator ~`: the two
      components exchanged. */
  function Swizzle(t: Point): (r: Point)
    ensures Component(r, 0) == Component(t, 1) && Component(r, 1) == Component(t, 0)
  {
    Point(t.y, t.x)
  }

  lemma SwizzleInvolution(t: Point)
    ensures Swizzle(Swizzle(t)) == t
  {
  }

  /** Unary `operator -`: the additive inverse. */
  function Negate(t: Point): (r: Point)
    ensures Add(t, r) == Point(0, 0)
  {
    Point(-t.x, -t.y)
  }

  lemma NegateInvolution(t: Point)
    ensures Negate(Negate(t)) == t
    ensures Sub(Point(0, 0), t) == Negate(t)
  {
  }

  /** `operator *(tuple2, scalar)`. */
  function Scale(t: Point, k: int): Point {
    Point(t.x * k, t.y * k)
  }

  /** `h_corner`: the unit square's corners, clockwise from the origin. */
  const H_CORNER: seq<Point> := [Point(0, 0), Point(1, 0), Point(1, 1), Point(0, 1)]

  /** The corner table holds each offset with coordinates in `{0, 1}` exactly
      once. */
  lemma CornersComplete(d: Point)
    ensures d in H_CORNER <==> (d.x == 0 || d.x == 1) && (d.y == 0 || d.y == 1)
    ensures forall i, j | 0 <= i < j < |H_CORNER| :: H_CORNER[i] != H_CORNER[j]
  {
  }
}

=== FILE: htl_utility.dfy ===
/** The integer algorithms of `include/htl/utility.h`. That file names its
    types `rectangle`, `Map` and `MapContainer`; here they are `point_area`
    (`PointArea.Rect`), and `IMap` and `HMap` (`HtlContainers.Map`). The
    loops it runs over a map are `for y in [y1, y2), for x in [x1, x2)`, so
    they visit exactly the contained points. */
module HtlUtility {
  import opened Common
  import RowMajor
  import opened HtlTuples
  import opened PointArea
  import opened HtlContainers
  import HtlFlip

  // ---------------------------------------------------------------------
  // Rectangles

  /** The smaller near corner and the larger far corner of two rectangles. */
  function Join(a: Rect, b: Rect): Rect {
    Rect(Min(a.x1, b.x1), Min(a.y1, b.y1), Max(a.x2, b.x2), Max(a.y2, b.y2))
  }

  /** `make_boundary(areas)`: the extreme corners of the list, folded from
      the first rectangle (which is read unconditionally, so the list may not
      be empty). Each bound is attained by some listed rectangle. */
  function MakeBoundary(areas: seq<Rect>): (r: Rect)
    requires |areas| > 0
    ensures forall i | 0 <= i < |areas| ::
      r.x1 <= areas[i].x1 && r.y1 <= areas[i].y1 && areas[i].x2 <= r.x2 && areas[i].y2 <= r.y2
    ensures exists i | 0 <= i < |areas| :: r.x1 == areas[i].x1
    ensures exists i | 0 <= i < |areas| :: r.y1 == areas[i].y1
    ensures exists i | 0 <= i < |areas| :: r.x2 == areas[i].x2
    ensures exists i | 0 <= i < |areas| :: r.y2 == areas[i].y2
  {
    if |areas| == 1 then areas[0]
    else
      var init := areas[..|areas| - 1];
      var rest := MakeBoundary(init);
      assert forall i | 0 <= i < |init| :: init[i] == areas[i];
      Join(rest, areas[|areas| - 1])
  }

  /** Every cell of every listed rectangle lies in the boundary. */
  lemma MakeBoundaryContains(areas: seq<Rect>, i: int, p: Point)
    requires |areas| > 0 && 0 <= i < |areas| && areas[i].Contains(p)
    ensures MakeBoundary(areas).Contains(p)
  {
  }

  /** `make_boundary(pts)` as written. It starts from `rectangle(w, h)` with
      the first point's coordinates as `w` and `h`, which is `(0, 0)` to that
      point, and then widens the corners by the other points' coordinates.
      So the origin is always inside the bounds, the first point only bounds
      the far corner, and the largest coordinates become exclusive far
      edges. */
  function MakeBoundaryPoints(pts: seq<Point>): (r: Rect)
    requires |pts| > 0
    ensures r.x1 <= 0 && r.y1 <= 0 && pts[0].x <= r.x2 && pts[0].y <= r.y2
    ensures forall i | 1 <= i < |pts| :: r.x1 <= pts[i].x <= r.x2 && r.y1 <= pts[i].y <= r.y2
  {
    if |pts| == 1 then Rect(0, 0, pts[0].x, pts[0].y)
    else
      var init := pts[..|pts| - 1];
      var r := MakeBoundaryPoints(init);
      var p := pts[|pts| - 1];
      assert forall i | 0 <= i < |init| :: init[i] == pts[i];
      Rect(Min(r.x1, p.x), Min(r.y1, p.y), Max(r.x2, p.x), Max(r.y2, p.y))
  }

  /** The boundary of a single point misses the point, and a point with
      negative coordinates is left outside. */
  lemma MakeBoundaryPointsAsWritten()
    ensures MakeBoundaryPoints([Point(2, 2)]) == Rect(0, 0, 2, 2)
    ensures !MakeBoundaryPoints([Point(2, 2)]).Contains(Point(2, 2))
    ensures MakeBoundaryPoints([Point(-3, -3), Point(1, 1)]) == Rect(0, 0, 1, 1)
    ensures !MakeBoundaryPoints([Point(-3, -3), Point(1, 1)]).Contains(Point(-3, -3))
  {
    assert [Point(-3, -3), Point(1, 1)][..1] == [Point(-3, -3)];
  }

  /** The rectangle the function is documented to build: the smallest one
      containing every listed point, each far edge one past the largest
      coordinate. */
  function PointsBoundary(pts: seq<Point>): (r: Rect)
    requires |pts| > 0
    ensures r.Valid()
    ensures forall i | 0 <= i < |pts| :: r.Contains(pts[i])
    ensures exists i | 0 <= i < |pts| :: pts[i].x == r.x1
    ensures exists i | 0 <= i < |pts| :: pts[i].y == r.y1
    ensures exists i | 0 <= i < |pts| :: pts[i].x == r.x2 - 1
    ensures exists i | 0 <= i < |pts| :: pts[i].y == r.y2 - 1
  {
    if |pts| == 1 then Rect(pts[0].x, pts[0].y, pts[0].x + 1, pts[0].y + 1)
    else
      var init := pts[..|pts| - 1];
      var r := PointsBoundary(init);
      var p := pts[|pts| - 1];
      assert forall i | 0 <= i < |init| :: init[i] == pts[i];
      Rect(Min(r.x1, p.x), Min(r.y1, p.y), Max(r.x2, p.x + 1), Max(r.y2, p.y + 1))
  }

  /** No smaller rectangle holds all the points: any valid rectangle that
      contains them contains the whole boundary. */
  lemma PointsBoundaryLeast(pts: seq<Point>, c: Rect, q: Point)
    requires |pts| > 0
    requires forall i | 0 <= i < |pts| :: c.Contains(pts[i])
    requires PointsBoundary(pts).Contains(q)
    ensures c.Contains(q)
  {
    var r := PointsBoundary(pts);
    var i1 :| 0 <= i1 < |pts| && pts[i1].x == r.x1;
    var j1 :| 0 <= j1 < |pts| && pts[j1].y == r.y1;
    var i2 :| 0 <= i2 < |pts| && pts[i2].x == r.x2 - 1;
    var j2 :| 0 <= j2 < |pts| && pts[j2].y == r.y2 - 1;
    assert c.Contains(pts[i1]) && c.Contains(pts[j1]) && c.Contains(pts[i2]) && c.Contains(pts[j2]);
  }

  /** `split(area)`: cut at `center()` along y when the rectangle has more
      than one row and more rows than columns, otherwise along x when it has
      more than one column; anything else comes back as two copies. Both
      halves keep the cut coordinate as a bound, the first as its exclusive
      far edge and the second as its near edge. */
  function Split(a: Rect): (r: (Rect, Rect))
    ensures a.Height() > 1 && a.Height() > a.Width() ==>
      r.0.x1 == r.1.x1 == a.x1 && r.0.x2 == r.1.x2 == a.x2 && r.0.y1 == a.y1 && r.1.y2 == a.y2 && r.0.y2 == r.1.y1
    ensures !(a.Height() > 1 && a.Height() > a.Width()) && a.Width() > 1 ==>
      r.0.y1 == r.1.y1 == a.y1 && r.0.y2 == r.1.y2 == a.y2 && r.0.x1 == a.x1 && r.1.x2 == a.x2 && r.0.x2 == r.1.x1
    ensures a.Width() <= 1 && a.Height() <= 1 ==> r == (a, a)
  {
    var cp := a.Center();
    if a.Height() > 1 && a.Height() > a.Width() then (a.(y2 := cp.y), a.(y1 := cp.y))
    else if a.Width() > 1 then (a.(x2 := cp.x), a.(x1 := cp.x))
    else (a, a)
  }

  /** The centre lies strictly inside an axis of more than one cell, on
      either orientation. */
  lemma CenterStrictlyInside(lo: int, hi: int)
    requires Abs(hi - lo) > 1
    ensures lo < hi ==> lo < TDiv(hi - lo, 2) + lo < hi
    ensures hi < lo ==> hi < TDiv(hi - lo, 2) + lo < lo
  {
  }

  /** Whenever `split` cuts, the halves share no cell; on an ordered
      rectangle they are exactly its cells, and on a valid one each is valid
      and strictly smaller. */
  lemma SplitPartition(a: Rect)
    requires a.Width() > 1 || a.Height() > 1
    ensures forall p :: !(Split(a).0.Contains(p) && Split(a).1.Contains(p))
    ensures a.Ordered() ==> forall p :: a.Contains(p) <==> Split(a).0.Contains(p) || Split(a).1.Contains(p)
    ensures a.Valid() ==> Split(a).0.Valid() && Split(a).1.Valid()
    ensures a.Valid() ==> Split(a).0.Size() < a.Size() && Split(a).1.Size() < a.Size()
  {
    var r := Split(a);
    if a.Height() > 1 && a.Height() > a.Width() {
      CenterStrictlyInside(a.y1, a.y2);
      if a.Valid() {
        assert r.0.Size() == a.Width() * r.0.Height() && r.1.Size() == a.Width() * r.1.Height();
        MulStrict(a.Width(), r.0.Height(), a.Height());
        MulStrict(a.Width(), r.1.Height(), a.Height());
      }
    } else {
      CenterStrictlyInside(a.x1, a.x2);
      if a.Valid() {
        assert r.0.Size() == r.0.Width() * a.Height() && r.1.Size() == r.1.Width() * a.Height();
        MulStrict(a.Height(), r.0.Width(), a.Width());
        MulStrict(a.Height(), r.1.Width(), a.Width());
      }
    }
  }

  lemma MulStrict(k: nat, a: nat, b: nat)
    requires k > 0 && a < b
    ensures k * a < k * b && a * k < b * k
  {
  }

  // ---------------------------------------------------------------------
  // Storage helpers

  /** Two maps over one rectangle are equal when they read alike and agree
      on the cells no point addresses. */
  lemma SameStorage<T>(m: Map<T>, n: Map<T>)
    requires m.Valid() && n.Valid() && m.area == n.area
    requires forall p | m.area.Contains(p) :: At(m, p) == At(n, p)
    requires forall i | 0 <= i < |m.cells| && !m.area.Contains(RowMajor.PointAt(m.area.Box(), i)) ::
      m.cells[i] == n.cells[i]
    ensures m == n
  {
    var b := m.area.Box();
    forall i | 0 <= i < |m.cells| ensures m.cells[i] == n.cells[i] {
      var p := RowMajor.PointAt(b, i);
      if m.area.Contains(p) {
        RowMajor.OffsetOfPointAt(b, i);
        assert At(m, p) == At(n, p);
      }
    }
  }

  // ---------------------------------------------------------------------
  // Copying, filling and selecting

  /** `copy_into(from, to, cast)`: every point of `intersect(from, to)` takes
      the converted value from `from`, and every other cell of `to` keeps
      its value. The conversion is a function from the source's cell type
      to the target's. */
  function CopyInto<A, B>(from: Map<A>, to: Map<B>, cast: A -> B): (r: Map<B>)
    requires from.Valid() && to.Valid()
    ensures r.Valid() && r.area == to.area
    ensures forall p | Intersect(from.area, to.area).Contains(p) :: At(r, p) == Ok(cast(At(from, p).value))
    ensures forall p | to.area.Contains(p) && !from.area.Contains(p) :: At(r, p) == At(to, p)
    ensures forall i | 0 <= i < |r.cells| && !to.area.Contains(RowMajor.PointAt(to.area.Box(), i)) ::
      r.cells[i] == to.cells[i]
  {
    var f := p requires to.area.Contains(p) =>
      if from.area.Contains(p) then cast(At(from, p).value) else At(to, p).value;
    var r := Map(to.area, Overwrite(to.area, to.cells, f));
    ReadsAs(r, f);
    r
  }

  /** Copying again changes nothing, and copying a map into itself
      unconverted gives it back. */
  lemma CopyIntoIdempotent<A, B>(from: Map<A>, to: Map<B>, cast: A -> B)
    requires from.Valid() && to.Valid()
    ensures CopyInto(from, CopyInto(from, to, cast), cast) == CopyInto(from, to, cast)
    ensures CopyInto(to, to, x => x) == to
  {
    SameStorage(CopyInto(from, CopyInto(from, to, cast), cast), CopyInto(from, to, cast));
    SameStorage(CopyInto(to, to, x => x), to);
  }

  /** `copy_each(map, cast)`: a new map over the same rectangle holding each
      converted value. */
  function CopyEach<A, B>(m: Map<A>, cast: A -> B): (r: Map<B>)
    requires m.Valid()
    ensures r.Valid() && r.area == m.area
    ensures forall p | m.area.Contains(p) :: At(r, p) == Ok(cast(At(m, p).value))
  {
    Map(m.area, seq(|m.cells|, i requires 0 <= i < |m.cells| => cast(m.cells[i])))
  }

  /** Converting twice reads as converting once by the composition, and
      is that map when the rectangle is ordered (an inverted one has storage
      no point reads, which `copy_each` leaves uninitialised); the
      unconverted copy reads as `copy(map)`. */
  lemma CopyEachComposes<A, B, C>(m: Map<A>, f: A -> B, g: B -> C)
    requires m.Valid()
    ensures CopyEach(CopyEach(m, f), g).area == m.area
    ensures forall p | m.area.Contains(p) :: At(CopyEach(CopyEach(m, f), g), p) == At(CopyEach(m, x => g(f(x))), p)
    ensures m.area.Ordered() ==> CopyEach(CopyEach(m, f), g) == CopyEach(m, x => g(f(x)))
    ensures forall p | m.area.Contains(p) :: At(CopyEach(m, x => x), p) == At(Copy(m), p)
  {
  }

  /** `fill(map, obj)`: every contained point holds `obj`. */
  function FillMap<T>(m: Map<T>, obj: T): (r: Map<T>)
    requires m.Valid()
    ensures r.Valid() && r.area == m.area
    ensures forall p | m.area.Contains(p) :: At(r, p) == Ok(obj)
    ensures forall i | 0 <= i < |r.cells| && !m.area.Contains(RowMajor.PointAt(m.area.Box(), i)) ::
      r.cells[i] == m.cells[i]
  {
    var f := (p: Point) => obj;
    var r := Map(m.area, Overwrite(m.area, m.cells, f));
    ReadsAs(r, f);
    r
  }

  /** `fill(map, area, obj)`: exactly the points of `intersect(map, area)`
      hold `obj`; the rest of the map is unchanged. */
  function FillArea<T>(m: Map<T>, area: Rect, obj: T): (r: Map<T>)
    requires m.Valid()
    ensures r.Valid() && r.area == m.area
    ensures forall p | Intersect(m.area, area).Contains(p) :: At(r, p) == Ok(obj)
    ensures forall p | m.area.Contains(p) && !area.Contains(p) :: At(r, p) == At(m, p)
    ensures forall i | 0 <= i < |r.cells| && !m.area.Contains(RowMajor.PointAt(m.area.Box(), i)) ::
      r.cells[i] == m.cells[i]
  {
    var f := p requires m.area.Contains(p) => if area.Contains(p) then obj else At(m, p).value;
    var r := Map(m.area, Overwrite(m.area, m.cells, f));
    ReadsAs(r, f);
    r
  }

  /** Filling an area that covers the map is filling the map, and filling
      the same area twice is filling it once. */
  lemma FillAreaCovering<T>(m: Map<T>, area: Rect, obj: T)
    requires m.Valid()
    ensures (forall p | m.area.Contains(p) :: area.Contains(p)) ==> FillArea(m, area, obj) == FillMap(m, obj)
    ensures FillArea(FillArea(m, area, obj), area, obj) == FillArea(m, area, obj)
  {
    if forall p | m.area.Contains(p) :: area.Contains(p) {
      SameStorage(FillArea(m, area, obj), FillMap(m, obj));
    }
    SameStorage(FillArea(FillArea(m, area, obj), area, obj), FillArea(m, area, obj));
  }

  /** `fill_mask(map, obj, mask)`: a point of both maps whose mask cell is
      true holds `obj`; every other cell is unchanged. */
  function FillMask<T>(m: Map<T>, obj: T, mask: Map<bool>): (r: Map<T>)
    requires m.Valid() && mask.Valid()
    ensures r.Valid() && r.area == m.area
    ensures forall p | m.area.Contains(p) ::
      At(r, p) == if mask.area.Contains(p) && At(mask, p).value then Ok(obj) else At(m, p)
    ensures forall i | 0 <= i < |r.cells| && !m.area.Contains(RowMajor.PointAt(m.area.Box(), i)) ::
      r.cells[i] == m.cells[i]
  {
    var f := p requires m.area.Contains(p) =>
      if mask.area.Contains(p) && At(mask, p).value then obj else At(m, p).value;
    var r := Map(m.area, Overwrite(m.area, m.cells, f));
    ReadsAs(r, f);
    r
  }

  /** A mask that is true everywhere fills its whole rectangle. */
  lemma FillMaskAllTrue<T>(m: Map<T>, obj: T, mask: Map<bool>)
    requires m.Valid() && mask.Valid()
    requires forall p | mask.area.Contains(p) :: At(mask, p) == Ok(true)
    ensures FillMask(m, obj, mask) == FillArea(m, mask.area, obj)
  {
    SameStorage(FillMask(m, obj, mask), FillArea(m, mask.area, obj));
  }

  /** `select(map, i)`: a boolean map over the same rectangle, true exactly
      where the map holds `i`. */
  function Select<T(==)>(m: Map<T>, i: T): (r: Map<bool>)
    requires m.Valid()
    ensures r.Valid() && r.area == m.area
    ensures forall p | m.area.Contains(p) :: At(r, p) == Ok(At(m, p).value == i)
  {
    Map(m.area, seq(|m.cells|, k requires 0 <= k < |m.cells| => m.cells[k] == i))
  }

  /** Filling through the selection of `before` replaces every `before`
      with `after` and nothing else. */
  lemma ReplaceThroughSelect<T>(m: Map<T>, before: T, after: T)
    requires m.Valid()
    ensures forall p | m.area.Contains(p) ::
      At(FillMask(m, after, Select(m, before)), p) == if At(m, p) == Ok(before) then Ok(after) else At(m, p)
  {
  }

  // ---------------------------------------------------------------------
  // Lists

  /** The `i`-th point of the ray from `first` along `direction`. */
  function Ray(first: Point, direction: Point, i: int): Point {
    Add(first, Scale(direction, i))
  }

  /** `projectFromPoint(map, first, length, direction)`: the values along
      the ray, stopping at `length` values or at the first point outside
      the map, whichever comes first. */
  method ProjectFromPoint<T>(m: Map<T>, first: Point, length: int, direction: Point) returns (list: seq<T>)
    requires m.Valid()
    ensures |list| <= Max(length, 0)
    ensures forall k | 0 <= k < |list| ::
      m.area.Contains(Ray(first, direction, k)) && list[k] == At(m, Ray(first, direction, k)).value
    ensures |list| < length ==> !m.area.Contains(Ray(first, direction, |list|))
    ensures list == Projection(m, first, length, direction, 0)
  {
    list := [];
    var i := 0;
    while i < length
      invariant 0 <= i <= Max(length, 0) && |list| == i
      invariant forall k | 0 <= k < i ::
        m.area.Contains(Ray(first, direction, k)) && list[k] == At(m, Ray(first, direction, k)).value
    {
      var pt := Ray(first, direction, i);
      if m.area.Contains(pt) {
        list := list + [At(m, pt).value];
      } else {
        ProjectionFrom(m, first, length, direction, 0);
        ProjectionUnique(m, first, length, direction, list, Projection(m, first, length, direction, 0));
        return;
      }
      i := i + 1;
    }
    ProjectionFrom(m, first, length, direction, 0);
    ProjectionUnique(m, first, length, direction, list, Projection(m, first, length, direction, 0));
  }

  /** What `projectFromPoint` promises of its list, for the ray read from
      its `from`-th point on: entry `k` is the cell at
      `first + (from + k) * direction`, and the list stops after point
      `length - 1` or just before the first point outside the map. */
  ghost predicate ProjectsFrom<T>(m: Map<T>, first: Point, length: int, direction: Point, from: nat, list: seq<T>)
    requires m.Valid()
  {
    && |list| <= Max(length - from, 0)
    && (forall k | 0 <= k < |list| :: At(m, Ray(first, direction, from + k)) == Ok(list[k]))
    && (|list| < length - from ==> !m.area.Contains(Ray(first, direction, from + |list|)))
  }

  /** The values along the ray from its `from`-th point on: a reference
      definition of the list, one point at a time. */
  function Projection<T>(m: Map<T>, first: Point, length: int, direction: Point, from: nat): seq<T>
    requires m.Valid()
    decreases Max(length - from, 0)
  {
    if from >= length || !m.area.Contains(Ray(first, direction, from)) then []
    else [At(m, Ray(first, direction, from)).value] + Projection(m, first, length, direction, from + 1)
  }

  /** The reference list keeps the promise. */
  lemma {:induction false} ProjectionFrom<T>(m: Map<T>, first: Point, length: int, direction: Point, from: nat)
    requires m.Valid()
    ensures ProjectsFrom(m, first, length, direction, from, Projection(m, first, length, direction, from))
    decreases Max(length - from, 0)
  {
    var list := Projection(m, first, length, direction, from);
    if from < length && m.area.Contains(Ray(first, direction, from)) {
      ProjectionFrom(m, first, length, direction, from + 1);
      var rest := Projection(m, first, length, direction, from + 1);
      assert list == [At(m, Ray(first, direction, from)).value] + rest;
      forall k | 0 <= k < |list|
        ensures At(m, Ray(first, direction, from + k)) == Ok(list[k])
      {
        if k > 0 {
          assert list[k] == rest[k - 1];
          assert (from + 1) + (k - 1) == from + k;
        }
      }
      assert from + |list| == (from + 1) + |rest|;
    }
  }

  /** The promise pins the list down: two lists that both keep it are
      equal, so the projection is determined by the map and the ray. */
  lemma ProjectionUnique<T>(m: Map<T>, first: Point, length: int, direction: Point, a: seq<T>, b: seq<T>)
    requires m.Valid()
    requires ProjectsFrom(m, first, length, direction, 0, a)
    requires ProjectsFrom(m, first, length, direction, 0, b)
    ensures a == b
  {
    // The shorter list stops at a point the longer one still reads.
    var n := Min(|a|, |b|);
    ProjectionReads(m, first, length, direction, 0, a, n);
    ProjectionReads(m, first, length, direction, 0, b, n);
  }

  /** A list that keeps the promise holds the cell of every ray point it
      reaches. */
  lemma ProjectionReads<T>(m: Map<T>, first: Point, length: int, direction: Point, from: nat, list: seq<T>, k: nat)
    requires m.Valid()
    requires ProjectsFrom(m, first, length, direction, from, list)
    ensures k < |list| ==> m.area.Contains(Ray(first, direction, from + k))
  {
    if k < |list| {
      assert At(m, Ray(first, direction, from + k)) == Ok(list[k]);
    }
  }

  /** `transposeListToMap(area, first, last)`: a new map whose cells are
      written in iterator order from the list until either runs out. The
      iterator starts at `begin()`, which is `(x1, x1)`; a `begin()` other
      than `end()` outside the rectangle throws at the first write, and
      cells the list does not reach keep the fresh storage `scratch`. */
  method TransposeListToMap<T>(area: Rect, list: seq<T>, scratch: seq<T>) returns (r: Result<Map<T>>)
    requires |scratch| == area.Size()
    requires InIntRange(area.x1) && InIntRange(area.x2)
    ensures r.Ok? <==> |list| == 0 || Begin(area) == End(area) || area.Contains(Begin(area))
    ensures r.Ok? ==> r.value.Valid() && r.value.area == area
    ensures r.Ok? && !area.Contains(Begin(area)) ==> r.value == Map(area, scratch)
    ensures r.Ok? && area.Contains(Begin(area)) ==> forall p | area.Contains(p) ::
      At(r.value, p) == Ok(Transposed(area, list, scratch, p))
  {
    var b := area.Box();
    var m := Map(area, scratch);
    var p := Begin(area);
    var start := if area.Contains(p) then BoxMatches(area, p); RowMajor.Offset(b, p) else 0;
    var k := 0;
    if area.Contains(p) {
      RowMajor.PointAtOfOffset(b, p);
    }
    while p != End(area) && k < |list|
      invariant 0 <= k <= |list| && m.Valid() && m.area == area
      invariant !area.Contains(Begin(area)) ==> k == 0 && p == Begin(area) && m == Map(area, scratch)
      invariant area.Contains(Begin(area)) ==> start + k <= area.Size()
      invariant area.Contains(Begin(area)) ==> (p == End(area) <==> start + k == area.Size())
      invariant area.Contains(Begin(area)) && start + k < area.Size() ==> p == RowMajor.PointAt(b, start + k)
      invariant area.Contains(Begin(area)) ==> forall q {:trigger At(m, q)} | area.Contains(q) ::
        At(m, q) == Ok(Written(area, list, scratch, start, k, q))
      decreases |list| - k
    {
      var s := Set(m, p, list[k]);
      if s.Err? {
        return Err(s.error);
      }
      NextIsRowMajor(area, start + k);
      WrittenStep(area, list, scratch, start, k, m, s.value);
      m := s.value;
      p := Next(area, p);
      k := k + 1;
      if area.Contains(Begin(area)) && start + k < area.Size() {
        BoxMatches(area, RowMajor.PointAt(b, start + k));
      }
    }
    if area.Contains(Begin(area)) {
      forall q | area.Contains(q) ensures At(m, q) == Ok(Transposed(area, list, scratch, q)) {
        BoxMatches(area, q);
      }
    }
    return Ok(m);
  }

  /** One more write, at the point `start + k` in walk order, extends the
      cells `Written` describes by one. */
  lemma WrittenStep<T>(area: Rect, list: seq<T>, scratch: seq<T>, start: nat, k: nat, m: Map<T>, s: Map<T>)
    requires |scratch| == area.Size() && k < |list| && start + k < area.Size()
    requires m.Valid() && s.Valid() && m.area == area && s.area == area
    requires forall q {:trigger At(m, q)} | area.Contains(q) :: At(m, q) == Ok(Written(area, list, scratch, start, k, q))
    requires At(s, RowMajor.PointAt(area.Box(), start + k)) == Ok(list[k])
    requires forall q {:trigger At(s, q)} | q != RowMajor.PointAt(area.Box(), start + k) :: At(s, q) == At(m, q)
    ensures forall q {:trigger At(s, q)} | area.Contains(q) :: At(s, q) == Ok(Written(area, list, scratch, start, k + 1, q))
  {
    var b := area.Box();
    var p := RowMajor.PointAt(b, start + k);
    RowMajor.OffsetOfPointAt(b, start + k);
    forall q | area.Contains(q) ensures At(s, q) == Ok(Written(area, list, scratch, start, k + 1, q)) {
      BoxMatches(area, q);
      if q != p {
        RowMajor.PointAtOfOffset(b, q);
        assert At(m, q) == Ok(Written(area, list, scratch, start, k, q));
      }
    }
  }

  /** The value the first `k` writes from offset `start` leave at `q`. */
  function Written<T>(area: Rect, list: seq<T>, scratch: seq<T>, start: nat, k: nat, q: Point): T
    requires |scratch| == area.Size() && area.Contains(q) && k <= |list|
  {
    BoxMatches(area, q);
    var j := RowMajor.Offset(area.Box(), q);
    if start <= j < start + k then list[j - start] else scratch[j]
  }

  /** The value a finished transposition leaves at `q`: the list is laid out
      from the offset of `begin()`, in row-major order. */
  function Transposed<T>(area: Rect, list: seq<T>, scratch: seq<T>, q: Point): T
    requires |scratch| == area.Size() && area.Contains(q) && area.Contains(Begin(area))
  {
    BoxMatches(area, q);
    BoxMatches(area, Begin(area));
    var start := RowMajor.Offset(area.Box(), Begin(area));
    var j := RowMajor.Offset(area.Box(), q);
    if start <= j < start + |list| then list[j - start] else scratch[j]
  }

  /** As written, `begin()` of `point_area(8, 3, 97, 53)` is `(8, 8)`, five
      rows in: a list with an entry for every cell still leaves the cell at
      the near corner `(8, 3)` as fresh storage. */
  lemma TransposeSkipsRowsAsWritten<T>(list: seq<T>, scratch: seq<T>)
    requires |scratch| == Rect(8, 3, 97, 53).Size() && |list| >= |scratch|
    ensures Begin(Rect(8, 3, 97, 53)) == Point(8, 8) && Rect(8, 3, 97, 53).Contains(Point(8, 8))
    ensures Rect(8, 3, 97, 53).Contains(Point(8, 3))
    ensures Transposed(Rect(8, 3, 97, 53), list, scratch, Point(8, 3)) == scratch[0]
  {
  }

  /** The layout `begin()` evidently intends: the list laid out from the
      near corner `(x1, y1)`, at offset 0, as far as it reaches. */
  function TransposedFromCorner<T>(area: Rect, list: seq<T>, scratch: seq<T>, q: Point): T
    requires |scratch| == area.Size() && area.Contains(q)
  {
    Written(area, list, scratch, 0, Min(|list|, area.Size()), q)
  }

  /** Laid out from the near corner, a list with an entry for every cell
      fills every cell, each with the entry at its row-major offset; and
      where `x1 == y1` the as-written walk is this layout. */
  lemma TransposedFromCornerFillsAll<T>(area: Rect, list: seq<T>, scratch: seq<T>)
    requires |scratch| == area.Size() && |list| >= area.Size()
    ensures forall q | area.Contains(q) ::
      TransposedFromCorner(area, list, scratch, q) == list[Index(area, q).value]
    ensures area.x1 == area.y1 ==> forall q | area.Contains(q) ::
      Transposed(area, list, scratch, q) == TransposedFromCorner(area, list, scratch, q)
  {
  }

  /** `transposeListToMap(width, height, first, last)`: the same over
      `rectangle(width, height)`, whose `begin()` is the origin. With a
      width of zero and a height that is not, `begin()` is outside and
      differs from `end()`, so a non-empty list throws. A list of exactly
      `area()` values becomes the storage itself. */
  method TransposeListToSized<T>(w: nat, h: nat, list: seq<T>, scratch: seq<T>) returns (r: Result<Map<T>>)
    requires w <= INT_MAX && h <= INT_MAX && |scratch| == w * h
    ensures r.Ok? <==> |list| == 0 || w > 0 || h == 0
    ensures r.Ok? ==> r.value.Valid() && r.value.area == Sized(w, h)
    ensures r.Ok? ==> forall p | Sized(w, h).Contains(p) ::
      At(r.value, p) == Ok(var k := SizedIndex(w, h, p); if k < |list| then list[k] else scratch[k])
    ensures |list| == w * h ==> r == Ok(Map(Sized(w, h), list))
  {
    var area := Sized(w, h);
    assert area.Size() == w * h;
    r := TransposeListToMap(area, list, scratch);
    if r.Ok? && area.Contains(Begin(area)) {
      forall p | area.Contains(p) ensures
        At(r.value, p) == Ok(var k := SizedIndex(w, h, p); if k < |list| then list[k] else scratch[k])
      {
        SizedTransposed(w, h, list, scratch, p);
      }
      if |list| == w * h {
        SizedWhole(w, h, list, r.value);
      }
    } else if r.Ok? && |list| == w * h {
      assert w == 0 || h == 0;
      assert |list| == 0 && |scratch| == 0;
    }
  }

  /** The storage index of `p` in `rectangle(w, h)`: `x + y * w`. */
  function SizedIndex(w: nat, h: nat, p: Point): (k: nat)
    requires Sized(w, h).Contains(p)
    ensures k < w * h
  {
    RowMajor.ProductBound(p.x, p.y, w, h);
    p.x + p.y * w
  }

  /** Over `rectangle(w, h)` the list starts at storage index zero, and the
      index of `p` is `x + y * w`. */
  lemma SizedTransposed<T>(w: nat, h: nat, list: seq<T>, scratch: seq<T>, p: Point)
    requires |scratch| == w * h && Sized(w, h).Contains(p)
    ensures Sized(w, h).Contains(Begin(Sized(w, h)))
    ensures Transposed(Sized(w, h), list, scratch, p) ==
      var k := SizedIndex(w, h, p); if k < |list| then list[k] else scratch[k]
  {
    var area := Sized(w, h);
    BoxMatches(area, p);
    BoxMatches(area, Begin(area));
    assert RowMajor.Offset(area.Box(), Begin(area)) == 0;
    assert RowMajor.Offset(area.Box(), p) == p.x + p.y * w;
  }

  /** A list that fills `rectangle(w, h)` becomes its storage. */
  lemma SizedWhole<T>(w: nat, h: nat, list: seq<T>, m: Map<T>)
    requires |list| == w * h
    requires m.Valid() && m.area == Sized(w, h)
    requires forall p | Sized(w, h).Contains(p) :: At(m, p) == Ok(list[SizedIndex(w, h, p)])
    ensures m == Map(Sized(w, h), list)
  {
    var area := Sized(w, h);
    var n := Map(area, list);
    forall p | area.Contains(p) ensures At(m, p) == At(n, p) {
      BoxMatches(area, p);
      assert RowMajor.Offset(area.Box(), p) == p.x + p.y * w;
    }
    ReadsAlike(m, n);
  }

  // ---------------------------------------------------------------------
  // Transposition and rotation

  /** `swizzle_map(map)`: a new map over the swizzled rectangle in which the
      cell at `(y, x)` holds the old value at `(x, y)`. Cells no point
      addresses are left as the input's storage, which has the same size. */
  function SwizzleMap<T>(m: Map<T>): (r: Map<T>)
    requires m.Valid()
    ensures r.Valid() && r.area == SwizzleArea(m.area)
    ensures forall q {:trigger At(r, q)} | r.area.Contains(q) :: At(r, q) == At(m, Swizzle(q))
  {
    var a := SwizzleArea(m.area);
    assert a.Size() == m.area.Size() by {
      assert a.Width() * a.Height() == m.area.Height() * m.area.Width();
    }
    var f := q requires a.Contains(q) => At(m, Swizzle(q)).value;
    var r := Map(a, Overwrite(a, m.cells, f));
    ReadsAs(r, f);
    r
  }

  /** Swizzling twice reads as the original map, and gives it back when it
      is ordered. */
  lemma SwizzleMapInvolution<T>(m: Map<T>)
    requires m.Valid()
    ensures SwizzleMap(SwizzleMap(m)).area == m.area
    ensures forall p | m.area.Contains(p) :: At(SwizzleMap(SwizzleMap(m)), p) == At(m, p)
    ensures m.area.Ordered() ==> SwizzleMap(SwizzleMap(m)) == m
  {
    var once := SwizzleMap(m);
    var twice := SwizzleMap(once);
    forall p | m.area.Contains(p) ensures At(twice, p) == At(m, p) {
      assert Swizzle(Swizzle(p)) == p && once.area.Contains(Swizzle(p));
    }
    if m.area.Ordered() {
      ReadsAlike(twice, m);
    }
  }

  /** `rotate_map` reduces `turns` with C++ `%` into `0..3`: the
      mathematical residue modulo four. */
  function QuarterTurns(turns: int): (t: int)
    ensures 0 <= t < 4 && t == turns % 4
  {
    TModBounds(turns, 4);
    TModBounds(TMod(turns, 4) + 4, 4);
    TMod(TMod(turns, 4) + 4, 4)
  }

  /** Turning by `-turns` makes up the rest of a full turn. */
  lemma QuarterTurnsOpposite(turns: int)
    ensures (QuarterTurns(turns) + QuarterTurns(-turns)) % 4 == 0
  {
    assert (turns % 4 + (-turns) % 4) % 4 == 0;
  }

  /** `rotate_map(map, turns)`: one turn is the swizzled map flipped on x,
      three turns the swizzled map flipped on y, two turns `reverse()` of a
      copy (so, as written, only two quadrants move), and no turn a copy.
      For one, two and three turns the intermediate map is assigned to a
      local `MapContainer`, and `HMap::operator=` orders its corners, so
      the flips and `reverse()` always walk an ordered rectangle and never
      throw. */
  method RotateMap<T>(m: Map<T>, turns: int) returns (r: Result<Map<T>>)
    requires m.Valid()
    ensures QuarterTurns(turns) == 0 ==> r.Ok? && r.value.Valid() && r.value.area == m.area
    ensures QuarterTurns(turns) == 0 ==> forall p {:trigger At(r.value, p)} | m.area.Contains(p) :: At(r.value, p) == At(m, p)
    ensures QuarterTurns(turns) == 1 ==> QuarterTurn(m, r)
    ensures QuarterTurns(turns) == 2 ==> HalfTurn(m, r)
    ensures QuarterTurns(turns) == 3 ==> ThreeQuarterTurn(m, r)
  {
    var t := QuarterTurns(turns);
    if t == 1 {
      r := RotateOnce(m);
    } else if t == 3 {
      r := RotateThrice(m);
    } else if t == 2 {
      r := RotateTwice(m);
    } else {
      r := Ok(Copy(m));
    }
  }

  /** What one turn produces: a map over the swizzled rectangle with its
      corners ordered. For an ordered map its cell `q` holds the old value
      at `(q.y, y1 + y2 - 1 - q.x)`; for an inverted one the rectangle
      addresses storage the source never wrote, so no value is stated. */
  ghost predicate QuarterTurn<T>(m: Map<T>, r: Result<Map<T>>)
    requires m.Valid()
  {
    r.Ok? && r.value.Valid() && r.value.area == Sorted(SwizzleArea(m.area)) &&
    (m.area.Ordered() ==> forall q {:trigger At(r.value, q)} | r.value.area.Contains(q) ::
      At(r.value, q) == At(m, Point(q.y, m.area.y1 + m.area.y2 - 1 - q.x)))
  }

  /** What three turns produce: a map over the swizzled rectangle with its
      corners ordered. For an ordered map its cell `q` holds the old value
      at `(x1 + x2 - 1 - q.y, q.x)`. */
  ghost predicate ThreeQuarterTurn<T>(m: Map<T>, r: Result<Map<T>>)
    requires m.Valid()
  {
    r.Ok? && r.value.Valid() && r.value.area == Sorted(SwizzleArea(m.area)) &&
    (m.area.Ordered() ==> forall q {:trigger At(r.value, q)} | r.value.area.Contains(q) ::
      At(r.value, q) == At(m, Point(m.area.x1 + m.area.x2 - 1 - q.y, q.x)))
  }

  /** What two turns produce: a map over the rectangle with its corners
      ordered, reading as `reverse()` of the map at every point the map
      holds. */
  ghost predicate HalfTurn<T>(m: Map<T>, r: Result<Map<T>>)
    requires m.Valid()
  {
    r.Ok? && r.value.Valid() && r.value.area == Sorted(m.area) &&
    (forall q {:trigger At(r.value, q)} | m.area.Contains(q) ::
      At(r.value, q) == if (q.y - m.area.y1 < m.area.Height() / 2 && q.x - m.area.x1 < m.area.Width() / 2) ||
           (m.area.y2 - 1 - q.y < m.area.Height() / 2 && m.area.x2 - 1 - q.x < m.area.Width() / 2)
        then At(m, HtlFlip.Opposite(m.area, q)) else At(m, q))
  }

  /** The case `turns == 1`. */
  method RotateOnce<T>(m: Map<T>) returns (r: Result<Map<T>>)
    requires m.Valid()
    ensures QuarterTurn(m, r)
  {
    var s := SwizzleMap(m);
    var a := Assign(s);
    r := HtlFlip.FlipX(a);
    FlippedXIsQuarterTurn(m, a, r);
  }

  /** `flipX` of the assigned swizzled map `s` is a quarter turn of the
      map. */
  lemma FlippedXIsQuarterTurn<T>(m: Map<T>, s: Map<T>, r: Result<Map<T>>)
    requires m.Valid() && s.Valid() && s.area == Sorted(SwizzleArea(m.area))
    requires m.area.Ordered() ==> forall p {:trigger At(s, p)} | s.area.Contains(p) :: At(s, p) == At(m, Swizzle(p))
    requires r.Ok? <==> !(s.area.y1 < s.area.y2 && s.area.Width() / 2 > 0 && s.area.x2 < s.area.x1)
    requires r.Ok? ==> r.value.Valid() && r.value.area == s.area
    requires r.Ok? ==> forall p {:trigger At(r.value, p)} | s.area.Contains(p) ::
      At(r.value, p) == At(s, HtlFlip.MirrorX(s.area, p))
    ensures QuarterTurn(m, r)
  {
    if m.area.Ordered() {
      forall q | r.value.area.Contains(q)
        ensures At(r.value, q) == At(m, Point(q.y, m.area.y1 + m.area.y2 - 1 - q.x))
      {
        FlippedXSwizzleRead(m, s, r.value, q);
      }
    }
  }

  /** A cell of the swizzled map `s` flipped on x. */
  lemma FlippedXSwizzleRead<T>(m: Map<T>, s: Map<T>, f: Map<T>, q: Point)
    requires m.Valid() && s.Valid() && f.Valid()
    requires s.area == SwizzleArea(m.area) && f.area == s.area && f.area.Contains(q)
    requires forall p {:trigger At(s, p)} | s.area.Contains(p) :: At(s, p) == At(m, Swizzle(p))
    requires At(f, q) == At(s, HtlFlip.MirrorX(s.area, q))
    ensures At(f, q) == At(m, Point(q.y, m.area.y1 + m.area.y2 - 1 - q.x))
  {
    var mq := HtlFlip.MirrorX(s.area, q);
    assert s.area.Contains(mq);
    assert Swizzle(mq) == Point(q.y, m.area.y1 + m.area.y2 - 1 - q.x);
  }

  /** The case `turns == 3`. */
  method RotateThrice<T>(m: Map<T>) returns (r: Result<Map<T>>)
    requires m.Valid()
    ensures ThreeQuarterTurn(m, r)
  {
    var s := SwizzleMap(m);
    var a := Assign(s);
    r := HtlFlip.FlipY(a);
    FlippedYIsThreeQuarterTurn(m, a, r);
  }

  /** `flipY` of the assigned swizzled map `s` is three quarter turns of
      the map. */
  lemma FlippedYIsThreeQuarterTurn<T>(m: Map<T>, s: Map<T>, r: Result<Map<T>>)
    requires m.Valid() && s.Valid() && s.area == Sorted(SwizzleArea(m.area))
    requires m.area.Ordered() ==> forall p {:trigger At(s, p)} | s.area.Contains(p) :: At(s, p) == At(m, Swizzle(p))
    requires r.Ok? <==> !(s.area.x1 < s.area.x2 && s.area.Height() / 2 > 0 && s.area.y2 < s.area.y1)
    requires r.Ok? ==> r.value.Valid() && r.value.area == s.area
    requires r.Ok? ==> forall p {:trigger At(r.value, p)} | s.area.Contains(p) ::
      At(r.value, p) == At(s, HtlFlip.MirrorY(s.area, p))
    ensures ThreeQuarterTurn(m, r)
  {
    if m.area.Ordered() {
      forall q | r.value.area.Contains(q)
        ensures At(r.value, q) == At(m, Point(m.area.x1 + m.area.x2 - 1 - q.y, q.x))
      {
        FlippedYSwizzleRead(m, s, r.value, q);
      }
    }
  }

  /** A cell of the swizzled map `s` flipped on y. */
  lemma FlippedYSwizzleRead<T>(m: Map<T>, s: Map<T>, f: Map<T>, q: Point)
    requires m.Valid() && s.Valid() && f.Valid()
    requires s.area == SwizzleArea(m.area) && f.area == s.area && f.area.Contains(q)
    requires forall p {:trigger At(s, p)} | s.area.Contains(p) :: At(s, p) == At(m, Swizzle(p))
    requires At(f, q) == At(s, HtlFlip.MirrorY(s.area, q))
    ensures At(f, q) == At(m, Point(m.area.x1 + m.area.x2 - 1 - q.y, q.x))
  {
    var mq := HtlFlip.MirrorY(s.area, q);
    assert s.area.Contains(mq);
    assert Swizzle(mq) == Point(m.area.x1 + m.area.x2 - 1 - q.y, q.x);
  }

  /** The case `turns == 2`. */
  method RotateTwice<T>(m: Map<T>) returns (r: Result<Map<T>>)
    requires m.Valid()
    ensures HalfTurn(m, r)
  {
    var a := m.area;
    var c := Copy(m);
    var d := Assign(c);
    r := HtlFlip.Reverse(d);
    if a.Ordered() {
      forall q | a.Contains(q) ensures At(d, HtlFlip.Opposite(a, q)) == At(m, HtlFlip.Opposite(a, q)) {
        HtlFlip.MirrorsInvolutions(a, q);
      }
    }
  }

  /** A quarter turn followed by a quarter turn back (`-1`, which reduces to
      three) gives back an ordered map. */
  method RotateAndBack<T>(m: Map<T>) returns (r: Result<Map<T>>)
    requires m.Valid() && m.area.Ordered()
    ensures r == Ok(m)
  {
    var once := RotateMap(m, 1);
    TurnCountsOfOneAndBack();
    r := RotateMap(once.value, -1);
    TurnBack(m, once, r);
  }

  /** A turn of one and a turn of minus one reduce to one and three
      quarter turns, through the truncating `%`. */
  lemma TurnCountsOfOneAndBack()
    ensures QuarterTurns(1) == 1 && QuarterTurns(-1) == 3
  {
    assert 1 % 4 == 1 && -1 % 4 == 3;
  }

  /** A quarter turn followed by three more restores every cell. */
  lemma TurnBack<T>(m: Map<T>, once: Result<Map<T>>, back: Result<Map<T>>)
    requires m.Valid() && m.area.Ordered()
    requires QuarterTurn(m, once) && ThreeQuarterTurn(once.value, back)
    ensures back == Ok(m)
  {
    var a := m.area;
    var turned := once.value;
    SwizzleAreaInvolution(a);
    assert turned.area == SwizzleArea(a) && turned.area.Ordered();
    assert back.value.area == a;
    forall q | a.Contains(q) ensures At(back.value, q) == At(m, q) {
      var q1 := TurnedPoint(a, q);
      assert At(back.value, q) == At(turned, q1);
    }
    ReadsAlike(back.value, m);
  }

  /** The cell of the once-turned map that a cell of the map turned back
      reads. */
  function TurnedPoint(a: Rect, q: Point): (q1: Point)
    requires a.Contains(q)
    ensures SwizzleArea(a).Contains(q1)
    ensures q1 == Point(SwizzleArea(a).x1 + SwizzleArea(a).x2 - 1 - q.y, q.x)
    ensures Point(q1.y, a.y1 + a.y2 - 1 - q1.x) == q
  {
    Point(a.y1 + a.y2 - 1 - q.y, q.x)
  }

  // ---------------------------------------------------------------------
  // Cellular automaton

  /** The cell `cellularAutomata` reads for step `d` from `p`: `wrap_point`
      (modulo the size, without the corner) when `wrap_position` is set,
      `clamp_point` otherwise. */
  function Probe(mask: Map<bool>, p: Point, d: Point, wrapPosition: bool): Point
    requires mask.area.Valid()
  {
    if wrapPosition then WrapPoint(Add(p, d), mask.area) else ClampPoint(Add(p, d), mask.area)
  }

  /** The live count over the listed steps; reading a probe outside the
      mask throws. */
  function Count(mask: Map<bool>, p: Point, dirs: seq<Point>, wrapPosition: bool): (r: Result<nat>)
    requires mask.Valid() && mask.area.Valid()
    ensures r.Ok? <==> forall d | d in dirs :: mask.area.Contains(Probe(mask, p, d, wrapPosition))
    ensures r.Ok? ==> r.value <= |dirs|
  {
    if dirs == [] then Ok(0)
    else
      var live :- At(mask, Probe(mask, p, dirs[0], wrapPosition));
      var rest :- Count(mask, p, dirs[1..], wrapPosition);
      Ok(rest + if live then 1 else 0)
  }

  /** Every cell of the mask can be counted without throwing. */
  predicate Countable(mask: Map<bool>, wrapPosition: bool)
    requires mask.Valid() && mask.area.Valid()
  {
    forall i | 0 <= i < mask.area.Box().Size() ::
      Count(mask, RowMajor.PointAt(mask.area.Box(), i), NEIGHBORHOOD8, wrapPosition).Ok?
  }

  lemma CountableMeansEveryCell(mask: Map<bool>, wrapPosition: bool)
    requires mask.Valid() && mask.area.Valid()
    ensures Countable(mask, wrapPosition) <==>
      forall p | mask.area.Contains(p) :: Count(mask, p, NEIGHBORHOOD8, wrapPosition).Ok?
  {
    var box := mask.area.Box();
    if Countable(mask, wrapPosition) {
      forall p | mask.area.Contains(p) ensures Count(mask, p, NEIGHBORHOOD8, wrapPosition).Ok? {
        BoxMatches(mask.area, p);
        RowMajor.PointAtOfOffset(box, p);
      }
    } else {
      var i :| 0 <= i < box.Size() && !Count(mask, RowMajor.PointAt(box, i), NEIGHBORHOOD8, wrapPosition).Ok?;
      BoxMatches(mask.area, RowMajor.PointAt(box, i));
    }
  }

  /** The value a cell takes: live when its count reaches the birth rate. */
  function NextState(mask: Map<bool>, p: Point, birthRate: int, wrapPosition: bool): bool
    requires mask.Valid() && mask.area.Valid()
  {
    var c := Count(mask, p, NEIGHBORHOOD8, wrapPosition);
    c.Ok? && c.value >= birthRate
  }

  /** `cellularAutomata(mask, birth_rate, wrap_position)`: every count is
      taken from the mask before any cell is written, over all nine entries
      of `h_neighborhood8` including the cell itself, and each cell then
      becomes `count >= birth_rate`. A rectangle with no cells is left as it
      is. */
  function CellularAutomata(mask: Map<bool>, birthRate: int, wrapPosition: bool): (r: Result<Map<bool>>)
    requires mask.Valid()
    ensures !mask.area.Valid() ==> r == Ok(mask)
    ensures mask.area.Valid() ==>
      (r.Ok? <==> forall p | mask.area.Contains(p) :: Count(mask, p, NEIGHBORHOOD8, wrapPosition).Ok?)
    ensures r.Ok? ==> r.value.Valid() && r.value.area == mask.area
    ensures r.Ok? && mask.area.Valid() ==> forall p | mask.area.Contains(p) ::
      At(r.value, p) == Ok(Count(mask, p, NEIGHBORHOOD8, wrapPosition).value >= birthRate)
  {
    if !mask.area.Valid() then Ok(mask)
    else if Countable(mask, wrapPosition) then
      var f := p requires mask.area.Contains(p) => NextState(mask, p, birthRate, wrapPosition);
      var r := Map(mask.area, Overwrite(mask.area, mask.cells, f));
      ReadsAs(r, f);
      CountableMeansEveryCell(mask, wrapPosition);
      Ok(r)
    else
      CountableMeansEveryCell(mask, wrapPosition);
      Err(OutOfRange)
  }

  /** With clamped probes the step never throws; a birth rate of at most
      zero makes every cell live and one above nine makes every cell dead. */
  lemma CellularAutomataThresholds(mask: Map<bool>, birthRate: int, p: Point)
    requires mask.Valid() && mask.area.Contains(p)
    ensures CellularAutomata(mask, birthRate, false).Ok?
    ensures birthRate <= 0 ==> At(CellularAutomata(mask, birthRate, false).value, p) == Ok(true)
    ensures birthRate > 9 ==> At(CellularAutomata(mask, birthRate, false).value, p) == Ok(false)
  {
    assert |NEIGHBORHOOD8| == 9;
  }

  /** Every probe lands in the mask when it is clamped, or wrapped on a
      mask whose corner is the origin. */
  lemma ProbesInside(mask: Map<bool>, wrapPosition: bool)
    requires mask.Valid() && mask.area.Valid()
    requires wrapPosition ==> mask.area.x1 == 0 && mask.area.y1 == 0
    ensures forall p, d :: mask.area.Contains(Probe(mask, p, d, wrapPosition))
  {
    if wrapPosition {
      assert mask.area == Normalized(mask.area);
    }
  }

  /** With wrapped probes the step never throws on a mask whose corner is
      the origin, and throws on one whose corner lies to the right of or
      below the origin. */
  lemma CellularAutomataWrapOrigin(mask: Map<bool>, birthRate: int)
    requires mask.Valid() && mask.area.Valid()
    requires InIntRange(mask.area.x1) && InIntRange(mask.area.y1)
    ensures mask.area.x1 == 0 && mask.area.y1 == 0 ==> CellularAutomata(mask, birthRate, true).Ok?
    ensures mask.area.x1 > 0 || mask.area.y1 > 0 ==> CellularAutomata(mask, birthRate, true).Err?
  {
    var a := mask.area;
    if a.x1 == 0 && a.y1 == 0 {
      ProbesInside(mask, true);
    } else if a.x1 > 0 || a.y1 > 0 {
      var c := Point(a.x1, a.y1);
      var d := CornerEscape(mask);
      assert a.Contains(c);
      assert !Count(mask, c, NEIGHBORHOOD8, true).Ok?;
    }
  }

  /** A step in the neighbourhood whose wrapped probe from a corner to the
      right of (or below) the origin leaves the mask: one step left (or
      up). */
  function CornerEscape(mask: Map<bool>): (d: Point)
    requires mask.Valid() && mask.area.Valid()
    requires InIntRange(mask.area.x1) && InIntRange(mask.area.y1)
    requires mask.area.x1 > 0 || mask.area.y1 > 0
    ensures d in NEIGHBORHOOD8
    ensures !mask.area.Contains(Probe(mask, Point(mask.area.x1, mask.area.y1), d, true))
  {
    var a := mask.area;
    var c := Point(a.x1, a.y1);
    var d := if a.x1 > 0 then Point(-1, 0) else Point(0, -1);
    var p := Add(c, d);
    NeighborhoodsComplete(d);
    if a.x1 > 0 then WrapNoGreater(p.x, a.Width()); d
    else WrapNoGreater(p.y, a.Height()); d
  }

  /** Wrapping a coordinate that is not negative never increases it. */
  lemma WrapNoGreater(v: int, w: nat)
    requires 0 <= v < SIZE_MODULUS && w > 0
    ensures UnsignedWrap(v, w) <= v
  {
    assert UnsignedWrap(v, w) == v % w;
    if v < w {
      RowMajor.DivModUnique(v, 0, w);
    }
  }

  /** A mask full of live cells stays full under any birth rate up to nine:
      each count includes the cell itself, and every count is nine. */
  lemma CellularAutomataFullMask(mask: Map<bool>, birthRate: int, wrapPosition: bool, p: Point)
    requires mask.Valid() && mask.area.Contains(p) && birthRate <= 9
    requires forall q | mask.area.Contains(q) :: At(mask, q) == Ok(true)
    requires wrapPosition ==> mask.area.x1 == 0 && mask.area.y1 == 0
    ensures CellularAutomata(mask, birthRate, wrapPosition).Ok?
    ensures At(CellularAutomata(mask, birthRate, wrapPosition).value, p) == Ok(true)
  {
    ProbesInside(mask, wrapPosition);
    forall q | mask.area.Contains(q) ensures Count(mask, q, NEIGHBORHOOD8, wrapPosition) == Ok(9) {
      CountAllLive(mask, q, NEIGHBORHOOD8, wrapPosition);
    }
  }

  lemma {:induction false} CountAllLive(mask: Map<bool>, p: Point, dirs: seq<Point>, wrapPosition: bool)
    requires mask.Valid() && mask.area.Valid()
    requires forall q | mask.area.Contains(q) :: At(mask, q) == Ok(true)
    requires forall d | d in dirs :: mask.area.Contains(Probe(mask, p, d, wrapPosition))
    ensures Count(mask, p, dirs, wrapPosition) == Ok(|dirs|)
  {
    if dirs != [] {
      assert dirs[0] in dirs;
      CountAllLive(mask, p, dirs[1..], wrapPosition);
    }
  }
}

=== FILE: point_area.dfy ===
/** `point_area` of `include/htl/basic_types.h` and the free functions on it:
    a rectangle with half-open bounds, `x1 <= x < x2` and `y1 <= y < y2`.
    The corners are kept as given; `width()` is `|x2 - x1|`, so an inverted
    rectangle has a positive `area()` although it contains no point. */
module PointArea {
  import opened Common
  import RowMajor
  import opened HtlTuples

  datatype Rect = Rect(x1: int, y1: int, x2: int, y2: int) {
    /** `valid()` and `operator bool`. */
    predicate Valid() { x1 < x2 && y1 < y2 }

    /** Neither axis inverted; a rectangle of zero width is ordered but not
        valid. */
    predicate Ordered() { x1 <= x2 && y1 <= y2 }

    /** `width()`: the absolute difference of the corners. */
    function Width(): nat { Abs(x2 - x1) }

    function Height(): nat { Abs(y2 - y1) }

    /** `area()`. */
    function Size(): nat { Width() * Height() }

    predicate Contains(p: Point) {
      x1 <= p.x < x2 && y1 <= p.y < y2
    }

    /** `first()`, as written: both coordinates are `x1`. */
    function First(): Point { Point(x1, x1) }

    /** `last()`. */
    function Last(): Point { Point(x2, y2) }

    /** `center()`: C++ division truncates toward zero. */
    function Center(): Point {
      Point(TDiv(x2 - x1, 2) + x1, TDiv(y2 - y1, 2) + y1)
    }

    /** The row-major layout of the `area()` cells the containers allocate. */
    function Box(): RowMajor.Box {
      RowMajor.Box(x1, y1, Width(), Height())
    }
  }

  /** Every contained point has a cell in the layout; for an ordered
      rectangle the layout holds exactly the contained points, and an
      inverted one contains nothing. */
  lemma BoxMatches(a: Rect, p: Point)
    ensures a.Size() == a.Box().Size()
    ensures a.Contains(p) ==> a.Box().Has(p)
    ensures a.Ordered() ==> (a.Contains(p) <==> a.Box().Has(p))
    ensures !a.Ordered() ==> !a.Contains(p)
    ensures a.Valid() <==> a.Ordered() && a.Size() > 0
  {
  }

  /** `point_area()`: the extreme corners, inverted. It is not valid and
      contains nothing. */
  const EMPTY: Rect := Rect(INT_MAX, INT_MAX, INT_MIN, INT_MIN)

  /** An inverted rectangle still has an `area()`: the default one's is
      `(2^32 - 1)^2` in unbounded arithmetic. */
  lemma InvertedHasArea(p: Point)
    ensures !EMPTY.Valid() && !EMPTY.Contains(p)
    ensures EMPTY.Size() == (INT_MAX - INT_MIN) * (INT_MAX - INT_MIN)
    ensures !Rect(2, 2, 0, 0).Contains(p) && Rect(2, 2, 0, 0).Size() == 4
  {
  }

  /** `point_area(w, h)`: the cells `[0, w) x [0, h)`. */
  function Sized(w: nat, h: nat): (r: Rect)
    ensures r.Ordered() && r.Width() == w && r.Height() == h
    ensures forall p :: r.Contains(p) <==> 0 <= p.x < w && 0 <= p.y < h
  {
    Rect(0, 0, w, h)
  }

  // ---------------------------------------------------------------------
  // Members that move and resize

  /** `move(dx, dy)`, `operator +=` and (negated) `operator -=`: the same
      cells, shifted. */
  function Move(a: Rect, dx: int, dy: int): (r: Rect)
    ensures r.Width() == a.Width() && r.Height() == a.Height()
    ensures forall p :: r.Contains(p) <==> a.Contains(Point(p.x - dx, p.y - dy))
  {
    Rect(a.x1 + dx, a.y1 + dy, a.x2 + dx, a.y2 + dy)
  }

  /** `resize(x_1, y_1, x_2, y_2)`: the corners are ordered, so the result
      holds exactly the points in the half-open span between them. */
  function Resize(xa: int, ya: int, xb: int, yb: int): (r: Rect)
    ensures r.Ordered()
    ensures r.Width() == Abs(xb - xa) && r.Height() == Abs(yb - ya)
    ensures forall p :: r.Contains(p) <==> (Min(xa, xb) <= p.x < Max(xa, xb) && Min(ya, yb) <= p.y < Max(ya, yb))
  {
    Rect(Min(xa, xb), Min(ya, yb), Max(xa, xb), Max(ya, yb))
  }

  /** Resizing a rectangle to its own ordered corners changes nothing. */
  lemma ResizeOrderedIdentity(a: Rect)
    requires a.Ordered()
    ensures Resize(a.x1, a.y1, a.x2, a.y2) == a
  {
  }

  /** `resize` applied to a rectangle's own corners, as the containers'
      assignment operator leaves the target: ordered, of the same width and
      height, and unchanged when the rectangle was already ordered. */
  function Sorted(a: Rect): (r: Rect)
    ensures r.Ordered() && r.Width() == a.Width() && r.Height() == a.Height()
    ensures a.Ordered() ==> r == a
  {
    Resize(a.x1, a.y1, a.x2, a.y2)
  }

  /** Ordering the corners keeps every point, and an inverted rectangle of
      positive `area()` gains points it did not hold. */
  lemma SortedKeepsPoints(a: Rect, p: Point)
    ensures a.Contains(p) ==> Sorted(a).Contains(p)
    ensures !a.Ordered() && a.Size() > 0 ==> Sorted(a).Contains(Point(Min(a.x1, a.x2), Min(a.y1, a.y2))) && !a.Contains(Point(Min(a.x1, a.x2), Min(a.y1, a.y2)))
  {
  }

  /** `resize(size)`: a non-zero size spans from `(x1, y1)` by `size`, in
      either direction; a zero size changes nothing. */
  function ResizeBy(a: Rect, size: Point): (r: Rect)
    ensures size == Point(0, 0) ==> r == a
    ensures size != Point(0, 0) ==> r.Ordered() && r.Width() == Abs(size.x) && r.Height() == Abs(size.y)
    ensures size != Point(0, 0) ==> forall p :: r.Contains(p) <==>
      (Min(a.x1, a.x1 + size.x) <= p.x < Max(a.x1, a.x1 + size.x) && Min(a.y1, a.y1 + size.y) <= p.y < Max(a.y1, a.y1 + size.y))
  {
    if size.x != 0 || size.y != 0 then
      Resize(Min(a.x1, a.x1 + size.x), Min(a.y1, a.y1 + size.y), Max(a.x1, a.x1 + size.x), Max(a.y1, a.y1 + size.y))
    else a
  }

  /** `resizeFromCenter(w, h)` as written: the new far corner is measured
      from the old `(x1, y1)` instead of from the new near corner. An invalid
      rectangle is left alone. */
  function ResizeFromCenter(a: Rect, w: nat, h: nat): (r: Rect)
    ensures !a.Valid() ==> r == a
    ensures a.Valid() ==> r.Ordered()
    ensures a.Valid() ==> r == Resize(a.Center().x - w / 2, a.Center().y - h / 2, a.x1 + w, a.y1 + h)
  {
    if a.Valid() then
      var c := a.Center();
      Resize(c.x - w / 2, c.y - h / 2, a.x1 + w, a.y1 + h)
    else a
  }

  /** Asking the 10 by 10 rectangle at the origin for a 4 by 4 one about its
      centre gives a single cell: the corners are `(3, 3)` and `(4, 4)`. */
  lemma ResizeFromCenterAsWritten()
    ensures ResizeFromCenter(Rect(0, 0, 10, 10), 4, 4) == Rect(3, 3, 4, 4)
    ensures ResizeFromCenter(Rect(0, 0, 10, 10), 4, 4).Width() == 1
  {
  }

  /** The evident intent of `resizeFromCenter`: a `w` by `h` rectangle whose
      near corner is `w / 2` and `h / 2` before the centre. */
  function ResizeFromCenterCentred(a: Rect, w: nat, h: nat): (r: Rect)
    ensures !a.Valid() ==> r == a
    ensures a.Valid() ==> r.Ordered() && r.Width() == w && r.Height() == h
    ensures a.Valid() ==> r.Contains(a.Center()) || w == 0 || h == 0
  {
    if a.Valid() then
      var c := a.Center();
      Resize(c.x - w / 2, c.y - h / 2, c.x - w / 2 + w, c.y - h / 2 + h)
    else a
  }

  /** `normalized()`: the same extent moved to the origin. */
  function Normalized(a: Rect): (r: Rect)
    ensures r.x1 == 0 && r.y1 == 0
    ensures r.Width() == a.Width() && r.Height() == a.Height() && (r.Valid() <==> a.Valid())
    ensures forall p :: r.Contains(p) <==> a.Contains(Point(p.x + a.x1, p.y + a.y1))
  {
    Rect(0, 0, a.x2 - a.x1, a.y2 - a.y1)
  }

  /** `corner(i)`: the four corner cells clockwise from `(x1, y1)`, each
      `width() - 1` or `height() - 1` along; any other index throws. */
  function Corner(a: Rect, i: int): (r: Result<Point>)
    ensures r.Ok? <==> 0 <= i <= 3
  {
    if 0 <= i <= 3 then
      Ok(Point(a.x1 + H_CORNER[i].x * (a.Width() - 1), a.y1 + H_CORNER[i].y * (a.Height() - 1)))
    else Err(OutOfRange)
  }

  /** The corners of a valid rectangle are its four extreme cells, and each
      is contained in it. */
  lemma CornersOfValid(a: Rect)
    requires a.Valid()
    ensures Corner(a, 0) == Ok(Point(a.x1, a.y1)) && Corner(a, 1) == Ok(Point(a.x2 - 1, a.y1))
    ensures Corner(a, 2) == Ok(Point(a.x2 - 1, a.y2 - 1)) && Corner(a, 3) == Ok(Point(a.x1, a.y2 - 1))
    ensures forall i | 0 <= i <= 3 :: a.Contains(Corner(a, i).value)
  {
  }

  /** The member `clamp(pt)`: each coordinate limited to `[x1, x2]`, so the
      far edge is included although it lies outside the rectangle. */
  function Clamp(a: Rect, pt: Point): (r: Point)
    ensures a.Ordered() ==> a.x1 <= r.x <= a.x2 && a.y1 <= r.y <= a.y2
    ensures a.Contains(pt) ==> r == pt
  {
    Point(Min(a.x2, Max(a.x1, pt.x)), Min(a.y2, Max(a.y1, pt.y)))
  }

  /** A point beyond the far corner clamps onto `(x2, y2)`, outside. */
  lemma ClampLeavesArea(a: Rect, pt: Point)
    requires a.Valid() && pt.x >= a.x2 && pt.y >= a.y2
    ensures Clamp(a, pt) == a.Last() && !a.Contains(Clamp(a, pt))
  {
  }

  /** The member `wrap(pt)`: each coordinate taken modulo the width or height
      back into the span from `(x1, y1)`. A zero width divides by zero, which
      the source leaves undefined. */
  function Wrap(a: Rect, pt: Point): (r: Point)
    requires a.Width() > 0 && a.Height() > 0
    ensures a.x1 <= r.x < a.x1 + a.Width() && a.y1 <= r.y < a.y1 + a.Height()
    ensures (r.x - pt.x) % a.Width() == 0 && (r.y - pt.y) % a.Height() == 0
    ensures a.Valid() ==> a.Contains(r)
  {
    Point(WrapCoordinate(pt.x, a.x1, a.Width()), WrapCoordinate(pt.y, a.y1, a.Height()))
  }

  /** A contained point is its own wrap. */
  lemma WrapContained(a: Rect, pt: Point)
    requires a.Valid() && a.Contains(pt)
    ensures Wrap(a, pt) == pt
  {
    var r := Wrap(a, pt);
    CongruentInPeriod(r.x - a.x1, pt.x - a.x1, a.Width());
    CongruentInPeriod(r.y - a.y1, pt.y - a.y1, a.Height());
  }

  // ---------------------------------------------------------------------
  // Free functions

  /** `operator +(point_area, point2)` as written: built from `first() + b`
      and `last() + b`, so the new `y1` is `x1 + b.y`. */
  function Plus(a: Rect, b: Point): (r: Rect)
    ensures r.Last() == Add(a.Last(), b)
    ensures Point(r.x1, r.y1) == Add(a.First(), b)
  {
    Rect(a.x1 + b.x, a.x1 + b.y, a.x2 + b.x, a.y2 + b.y)
  }

  /** `operator -(point_area, point2)`, with the same `first()`. */
  function Minus(a: Rect, b: Point): (r: Rect)
    ensures r.Last() == Sub(a.Last(), b)
    ensures Point(r.x1, r.y1) == Sub(a.First(), b)
  {
    Rect(a.x1 - b.x, a.x1 - b.y, a.x2 - b.x, a.y2 - b.y)
  }

  /** `+` and `-` translate the rectangle only when `x1 == y1`; otherwise
      even adding nothing moves the top edge. */
  lemma PlusAsWritten(a: Rect, b: Point)
    ensures a.x1 == a.y1 ==> Plus(a, b) == Move(a, b.x, b.y) && Minus(a, b) == Move(a, -b.x, -b.y)
    ensures a.x1 != a.y1 ==> Plus(a, Point(0, 0)) != a && Minus(a, Point(0, 0)) != a
  {
  }

  /** `intersect(a, b)`: the cells common to both, with no normalisation. */
  function Intersect(a: Rect, b: Rect): (r: Rect)
    ensures forall p :: r.Contains(p) <==> a.Contains(p) && b.Contains(p)
  {
    Rect(Max(a.x1, b.x1), Max(a.y1, b.y1), Min(a.x2, b.x2), Min(a.y2, b.y2))
  }

  lemma IntersectSymmetric(a: Rect, b: Rect)
    ensures Intersect(a, b) == Intersect(b, a)
  {
  }

  /** Rectangles with no common cell intersect in an invalid one. */
  lemma IntersectDisjoint(a: Rect, b: Rect)
    requires a.Valid() && b.Valid()
    requires forall p :: !(a.Contains(p) && b.Contains(p))
    ensures !Intersect(a, b).Valid()
  {
    var r := Intersect(a, b);
    if r.Valid() {
      assert r.Contains(Point(r.x1, r.y1));
    }
  }

  /** `overlap(a, b)`: no edge of one lies strictly past the far edge of the
      other. */
  function Overlap(a: Rect, b: Rect): (r: bool)
    ensures r <==> a.x1 <= b.x2 && b.x1 <= a.x2 && a.y1 <= b.y2 && b.y1 <= a.y2
  {
    !(a.x1 > b.x2 || a.y1 > b.y2 || b.x1 > a.x2 || b.y1 > a.y2)
  }

  /** Overlap is symmetric, and rectangles sharing a cell overlap. */
  lemma OverlapSymmetric(a: Rect, b: Rect, p: Point)
    ensures Overlap(a, b) == Overlap(b, a)
    ensures a.Contains(p) && b.Contains(p) ==> Overlap(a, b)
  {
  }

  /** The test compares the half-open far edges inclusively: two cells side
      by side overlap though they share no point. */
  lemma OverlapTouching(p: Point)
    ensures Overlap(Rect(0, 0, 1, 1), Rect(1, 0, 2, 1))
    ensures !(Rect(0, 0, 1, 1).Contains(p) && Rect(1, 0, 2, 1).Contains(p))
  {
  }

  /** `contains(point_area, point_area)` as written: the bottom edge is
      compared with `a.x2`. */
  function ContainsArea(a: Rect, b: Rect): (r: bool)
    ensures r <==> a.x1 <= b.x1 && a.y1 <= b.y1 && b.x2 <= a.x2 && b.y2 <= a.x2
  {
    b.x1 >= a.x1 && b.y1 >= a.y1 && b.x2 <= a.x2 && b.y2 <= a.x2
  }

  /** `contains(point_area, point2)` as written: `y` is bounded by `a.x2`. */
  function ContainsPoint(a: Rect, p: Point): (r: bool)
    ensures r <==> a.x1 <= p.x < a.x2 && a.y1 <= p.y < a.x2
  {
    p.x >= a.x1 && p.y >= a.y1 && p.x < a.x2 && p.y < a.x2
  }

  /** Both tests are right when `y2 == x2`, and otherwise answer wrongly in
      both directions: a wide, short rectangle "contains" cells below it and
      a tall, narrow one misses cells it holds. */
  lemma ContainsAsWritten(a: Rect, b: Rect, p: Point)
    ensures a.y2 == a.x2 ==> (ContainsPoint(a, p) <==> a.Contains(p))
    ensures a.y2 == a.x2 && b.Valid() && ContainsArea(a, b) ==> forall q | b.Contains(q) :: a.Contains(q)
    ensures ContainsPoint(Rect(0, 0, 10, 2), Point(0, 5)) && !Rect(0, 0, 10, 2).Contains(Point(0, 5))
    ensures !ContainsPoint(Rect(0, 0, 2, 10), Point(0, 5)) && Rect(0, 0, 2, 10).Contains(Point(0, 5))
    ensures ContainsArea(Rect(0, 0, 10, 2), Rect(0, 0, 1, 5)) && !Rect(0, 0, 10, 2).Contains(Point(0, 4))
  {
  }

  /** The point test the documentation describes: `y` bounded by `a.y2`. */
  function ContainsPointIntended(a: Rect, p: Point): (r: bool)
    ensures r <==> a.Contains(p)
    ensures a.y2 == a.x2 ==> r == ContainsPoint(a, p)
  {
    p.x >= a.x1 && p.y >= a.y1 && p.x < a.x2 && p.y < a.y2
  }

  /** The rectangle test the documentation describes: the bottom edge
      compared with `a.y2`. For a valid `b` it holds exactly when every cell
      of `b` is a cell of `a`. */
  function ContainsAreaIntended(a: Rect, b: Rect): (r: bool)
    ensures b.Valid() ==> (r <==> forall q | b.Contains(q) :: a.Contains(q))
    ensures a.y2 == a.x2 ==> r == ContainsArea(a, b)
  {
    CornersDecideContainment(a, b);
    b.x1 >= a.x1 && b.y1 >= a.y1 && b.x2 <= a.x2 && b.y2 <= a.y2
  }

  /** A valid rectangle that reaches past an edge of `a` has a corner cell
      outside `a`. */
  lemma CornersDecideContainment(a: Rect, b: Rect)
    ensures b.Valid() ==>
      ((b.x1 >= a.x1 && b.y1 >= a.y1 && b.x2 <= a.x2 && b.y2 <= a.y2) <==> forall q | b.Contains(q) :: a.Contains(q))
  {
    if b.Valid() && !(b.x1 >= a.x1 && b.y1 >= a.y1 && b.x2 <= a.x2 && b.y2 <= a.y2) {
      var c := if b.x1 < a.x1 || b.y1 < a.y1 then Point(b.x1, b.y1)
               else if b.x2 > a.x2 then Point(b.x2 - 1, b.y1)
               else Point(b.x1, b.y2 - 1);
      assert b.Contains(c) && !a.Contains(c);
    }
  }

  /** The member `contains(const point_area&)`: it answers `false`
      whatever the two rectangles hold. */
  function ContainsOther(a: Rect, other: Rect): (r: bool)
    ensures !r
  {
    false
  }

  /** Unlike the free `contains` and the test the documentation describes,
      the member never reports a rectangle inside itself, although each of
      its cells is. */
  lemma ContainsOtherNeverHolds(a: Rect)
    requires a.Valid()
    ensures !ContainsOther(a, a)
    ensures ContainsAreaIntended(a, a) && (a.y2 == a.x2 ==> ContainsArea(a, a))
    ensures forall q | a.Contains(q) :: a.Contains(q)
  {
  }

  /** `is_edge(area, pos)`: on the first or last column or row. */
  function IsEdge(a: Rect, p: Point): bool {
    p.x == a.x1 || p.x == a.x2 - 1 || p.y == a.y1 || p.y == a.y2 - 1
  }

  /** Every corner of a valid rectangle is an edge cell, and the centre of a
      rectangle at least three cells each way is not. */
  lemma EdgeCorners(a: Rect)
    requires a.Valid()
    ensures forall i | 0 <= i <= 3 :: IsEdge(a, Corner(a, i).value)
    ensures a.Width() >= 3 && a.Height() >= 3 ==> !IsEdge(a, a.Center())
  {
    CornersOfValid(a);
  }

  /** The free `swizzle(point_area)`: the rectangle mirrored in the
      diagonal. */
  function SwizzleArea(a: Rect): (r: Rect)
    ensures r.Width() == a.Height() && r.Height() == a.Width()
    ensures forall p {:trigger r.Contains(p), Swizzle(p)} :: r.Contains(p) <==> a.Contains(Swizzle(p))
  {
    Rect(a.y1, a.x1, a.y2, a.x2)
  }

  lemma SwizzleAreaInvolution(a: Rect)
    ensures SwizzleArea(SwizzleArea(a)) == a
  {
  }

  /** `clamp_point(p, area)`: each coordinate limited to the last cell. */
  function ClampPoint(p: Point, a: Rect): (r: Point)
    ensures a.Valid() ==> a.Contains(r)
    ensures a.Contains(p) ==> r == p
  {
    Point(Min(Max(p.x, a.x1), a.x2 - 1), Min(Max(p.y, a.y1), a.y2 - 1))
  }

  /** `wrap_point(p, area)`: each coordinate reduced modulo the unsigned
      width or height, without adding the corner back. A zero width divides
      by zero, which the source leaves undefined. */
  function WrapPoint(p: Point, a: Rect): (r: Point)
    requires a.Width() > 0 && a.Height() > 0
    ensures 0 <= r.x < a.Width() && 0 <= r.y < a.Height()
    ensures Normalized(a).Contains(r) || !a.Ordered()
  {
    Point(UnsignedWrap(p.x, a.Width()), UnsignedWrap(p.y, a.Height()))
  }

  /** With the corner at the origin the result is the mathematical remainder
      for coordinates that are not negative. */
  lemma WrapPointAtOrigin(p: Point, a: Rect)
    requires a.x1 == 0 && a.y1 == 0 && a.Valid()
    requires 0 <= p.x < SIZE_MODULUS && 0 <= p.y < SIZE_MODULUS
    ensures WrapPoint(p, a) == Point(p.x % a.Width(), p.y % a.Height())
    ensures a.Contains(WrapPoint(p, a))
  {
  }

  /** As written, the unsigned conversion makes `-1` land on `0` for width 3,
      where the mathematical remainder is `2`. */
  lemma WrapPointAsWritten()
    ensures WrapPoint(Point(-1, 0), Rect(0, 0, 3, 3)) == Point(0, 0)
  {
    MinusOneWrapsToZero();
    assert Rect(0, 0, 3, 3).Width() == 3 && Rect(0, 0, 3, 3).Height() == 3;
  }

  /** A rectangle away from the origin wraps every point outside itself. */
  lemma WrapPointLeavesArea(p: Point)
    ensures !Rect(5, 5, 8, 8).Contains(WrapPoint(p, Rect(5, 5, 8, 8)))
  {
  }

  lemma MinusOneWrapsToZero()
    ensures UnsignedWrap(-1, 3) == 0
  {
    assert (SIZE_MODULUS - 1) % 3 == 0 by {
      assert SIZE_MODULUS - 1 == 3 * 6148914691236517205;
    }
  }
}

=== FILE: rowmajor.dfy ===
/** Row-major addressing shared by every container revision: a box of
    `w` by `h` cells whose upper-left cell is `(x0, y0)`, the linear index
    `(x - x0) + (y - y0) * w` of each cell, and its inverse
    `(x0 + i % w, y0 + i / w)`. */
module RowMajor {
  import opened Common

  datatype Box = Box(x0: int, y0: int, w: nat, h: nat) {
    function Size(): nat { w * h }

    predicate Has(p: Point) {
      x0 <= p.x < x0 + w && y0 <= p.y < y0 + h
    }
  }

  lemma ProductBound(a: nat, b: nat, w: nat, h: nat)
    requires a < w && b < h
    ensures a + b * w < w * h
  {
    assert b * w <= (h - 1) * w by {
      assert b <= h - 1;
      MulMonotone(b, h - 1, w);
    }
    assert (h - 1) * w == w * h - w;
  }

  lemma DivBound(i: nat, w: nat, h: nat)
    requires i < w * h
    ensures w > 0 && i / w < h
  {
    if i / w >= h {
      MulMonotone(h, i / w, w);
    }
  }

  /** The division theorem: `a + b * w` splits back into `b` and `a`. */
  lemma DivModUnique(a: nat, b: nat, w: nat)
    requires a < w
    ensures (a + b * w) / w == b && (a + b * w) % w == a
  {
    var i := a + b * w;
    var q, r := i / w, i % w;
    assert i == q * w + r;
    if q > b {
      MulMonotone(b + 1, q, w);
      assert false;
    } else if q < b {
      MulMonotone(q + 1, b, w);
      assert false;
    }
  }

  /** `IMatrix::f_index` / `IMap::f_index` on a contained point. */
  function Offset(b: Box, p: Point): (i: nat)
    requires b.Has(p)
    ensures i < b.Size()
  {
    ProductBound(p.x - b.x0, p.y - b.y0, b.w, b.h);
    (p.x - b.x0) + (p.y - b.y0) * b.w
  }

  /** The point of the `i`-th step of a row-major walk over the box. */
  function PointAt(b: Box, i: nat): (p: Point)
    requires i < b.Size()
    ensures b.Has(p)
  {
    assert b.w > 0;
    DivBound(i, b.w, b.h);
    Point(b.x0 + i % b.w, b.y0 + i / b.w)
  }

  lemma OffsetOfPointAt(b: Box, i: nat)
    requires i < b.Size()
    ensures Offset(b, PointAt(b, i)) == i
  {
  }

  lemma PointAtOfOffset(b: Box, p: Point)
    requires b.Has(p)
    ensures PointAt(b, Offset(b, p)) == p
  {
    DivModUnique(p.x - b.x0, p.y - b.y0, b.w);
  }

  /** Distinct contained points have distinct linear indices. */
  lemma OffsetInjective(b: Box, p: Point, q: Point)
    requires b.Has(p) && b.Has(q) && p != q
    ensures Offset(b, p) != Offset(b, q)
  {
    PointAtOfOffset(b, p);
    PointAtOfOffset(b, q);
  }

  /** A block of `b.Size()` cells whose cell for point `p` holds `f(p)`: what
      allocating a block and writing every contained point produces. */
  function Build<T>(b: Box, f: Point -> T): (s: seq<T>)
    ensures |s| == b.Size()
    ensures forall p | b.Has(p) :: s[Offset(b, p)] == f(p)
  {
    var s := seq(b.Size(), i requires 0 <= i < b.Size() => f(PointAt(b, i)));
    assert forall p | b.Has(p) :: s[Offset(b, p)] == f(p) by {
      forall p | b.Has(p) ensures s[Offset(b, p)] == f(p) {
        PointAtOfOffset(b, p);
      }
    }
    s
  }

  /** `Build` for a value defined only at the box's points. */
  function BuildWithin<T>(b: Box, f: Point --> T): (s: seq<T>)
    requires forall p | b.Has(p) :: f.requires(p)
    ensures |s| == b.Size()
    ensures forall p | b.Has(p) :: s[Offset(b, p)] == f(p)
  {
    var s := seq(b.Size(), i requires 0 <= i < b.Size() => f(PointAt(b, i)));
    assert forall p | b.Has(p) :: s[Offset(b, p)] == f(p) by {
      forall p | b.Has(p) ensures s[Offset(b, p)] == f(p) {
        PointAtOfOffset(b, p);
      }
    }
    s
  }

  /** Every cell of a block is the cell of some contained point. */
  lemma Covered(b: Box, i: nat)
    requires i < b.Size()
    ensures b.Has(PointAt(b, i)) && Offset(b, PointAt(b, i)) == i
  {
  }

  /** Two blocks of a box agree when they agree at every contained point. */
  lemma Extensional<T>(b: Box, s: seq<T>, t: seq<T>)
    requires |s| == b.Size() && |t| == b.Size()
    requires forall p | b.Has(p) :: s[Offset(b, p)] == t[Offset(b, p)]
    ensures s == t
  {
    forall i | 0 <= i < b.Size() ensures s[i] == t[i] {
      Covered(b, i);
    }
  }

  /** The cell of a block that stands for point `p`. */
  function Read<T>(b: Box, s: seq<T>, p: Point): T
    requires |s| == b.Size() && b.Has(p)
  {
    s[Offset(b, p)]
  }

  /** Overwrites the cell of point `p`; every other point keeps its value. */
  function Write<T>(b: Box, s: seq<T>, p: Point, v: T): (r: seq<T>)
    requires |s| == b.Size() && b.Has(p)
    ensures |r| == b.Size()
    ensures Read(b, r, p) == v
    ensures forall q | b.Has(q) && q != p :: Read(b, r, q) == Read(b, s, q)
  {
    var r := s[Offset(b, p) := v];
    forall q | b.Has(q) && q != p ensures Read(b, r, q) == Read(b, s, q) {
      OffsetInjective(b, p, q);
    }
    r
  }

  /** The values of a block listed in walk order are the block itself. */
  lemma ReadInWalkOrder<T>(b: Box, s: seq<T>, i: nat)
    requires |s| == b.Size() && i < b.Size()
    ensures Read(b, s, PointAt(b, i)) == s[i]
  {
  }

  /** The iterator both area revisions use to walk a box: the step count and
      the walk's width and origin. Equality compares step counts only. */
  datatype Cursor = Cursor(i: nat, w: int, x0: int, y0: int) {
    function Position(): Point
      requires w > 0
    {
      Point(x0 + i % w, y0 + i / w)
    }

    /** The prefix increment. */
    function Next(): Cursor { this.(i := i + 1) }

    predicate Equal(other: Cursor) { i == other.i }

    /** `k` prefix increments move only the step count, by `k`. */
    function Advance(k: nat): (r: Cursor)
      ensures r == this.(i := i + k)
      decreases k
    {
      if k == 0 then this else Advance(k - 1).Next()
    }
  }

  /** A cursor over a box is at the box's `i`-th cell. */
  lemma CursorPosition(b: Box, i: nat)
    requires i < b.Size()
    ensures Cursor(i, b.w, b.x0, b.y0).Position() == PointAt(b, i)
  {
  }
}
